=== FILE: README.md ===
# Medication dispenser and ESP provisioning: a Dafny model

This project models the decision logic of an Android companion app for a
four-compartment medication dispenser, built on Espressif's ESP device
provisioning app. The dispenser side covers:

- the compartment allocator: slots 1-3 take pills, slot 4 takes liquid;
- medication types and units;
- dose schedules: the next occurrence, setters, and the time and day texts;
- the schedule dialog's load/save of a day mask;
- the dispenser screen's gauges, filter and ordering;
- the "time until next dose" countdown;
- the MQTT schedule-sync payload;
- the medication and user repositories' checks and database field maps;
- the notification ids and request codes.

The provisioning side covers:

- reading a scanned QR code;
- the security-level mapping;
- the bounded device search retry;
- the version-info security check;
- the screen routing by device capabilities.

It also covers three small codecs: the hex dump of byte arrays, the Wi-Fi
signal bars, and the header parser of UPnP (SSDP) answers.

Everything is modelled as immutable values and pure functions, with four
exceptions: `Compartments.AvailableCompartments`,
`Compartments.HasAvailableCompartments`, `Dispenser.UpdateCompartmentStatus`
and `Dispenser.UpdateMedicationsList` are methods.

Some inputs the app reads from the environment become explicit parameters:

- the clock, as `Schedules.Clock`, and the calendar day;
- the Android SDK level;
- the BLE/Wi-Fi scan results of each search attempt;
- shared preferences;
- the random draws of the id generator;
- the HashMap iteration order of the allocator;
- Firebase's current user and the results of its reads.

Java's 32-bit `int` arithmetic is written out in `JavaInt`: `hashCode` wrap-around, `%` truncating
toward zero, `Math.abs`, `String.valueOf`, `%02d` and `Integer.parseInt`.
The `String` operations the app uses are in `JavaText`.

The files, one module each:

| file | module | models |
|---|---|---|
| wrappers.dfy | `Wrappers` | `Option`/`Result` |
| java_int.dfy | `JavaInt` | Java integer semantics and decimal text |
| java_text.dfy | `JavaText` | `trim`, ASCII case mapping, `indexOf` |
| medication_type.dfy | `MedicationType` | `MedicationType.java` |
| medication.dfy | `Medications` | the medication record |
| patient_ids.dfy | `PatientIds` | the two patient-id checks |
| schedule.dfy | `Schedules` | `Schedule.java` |
| countdown.dfy | `Countdown` | `ScheduleAdapter.formatCountdown` |
| schedule_form.dfy | `ScheduleForm` | `ScheduleDialogFragment.java` |
| compartments.dfy | `Compartments` | `CompartmentManager.java` |
| dispenser.dfy | `Dispenser` | `DispenserViewModel.java` |
| mqtt_sync.dfy | `MqttSync` | `MqttViewModel.syncSchedules` |
| medication_repository.dfy | `MedicationRepository` | `MedicationRepository.java` |
| user_repository.dfy | `UserRepository` | `UserRepository.java` |
| notification_ids.dfy | `NotificationIds` | `NotificationHelper` ids |
| esp_provision_manager.dfy | `ProvisionManager` | `ESPProvisionManager.java` |
| provision_flow.dfy | `ProvisionFlow` | version check and routing of the provisioning screens |
| hex_dump.dfy | `HexDump` | `Utils.byteArrayToDs` |
| wifi_list.dfy | `WifiList` | `WiFiListAdapter.getRssiLevel` |
| upnp.dfy | `UPnP` | `UPnPDevice.java` |

## Model

| member | source | states |
|---|---|---|
| JavaInt.Wrap32 | app/src/main/java/com/espressif/ui/notifications/NotificationHelper.java:255-258 | the result is a Java `int` congruent to the input modulo 2^32, and an `int` is left unchanged |
| JavaInt.Rem | app/src/main/java/com/espressif/ui/notifications/NotificationHelper.java:258 | Java `%`: the magnitude is the Euclidean remainder of the magnitudes, and the sign follows the dividend |
| JavaInt.Abs | app/src/main/java/com/espressif/ui/notifications/NotificationHelper.java:258 | `Math.abs`: non-negative, and equal to the input or its negation |
| JavaInt.DigitChar | app/src/main/java/com/espressif/ui/adapters/ScheduleAdapter.java:206-222 | the digit character and its value invert each other |
| JavaInt.NatToString | app/src/main/java/com/espressif/ui/adapters/ScheduleAdapter.java:206-222 | `String.valueOf` of a natural: non-empty decimal digits without a leading zero, one digit exactly below 10 |
| JavaInt.NatToStringValue | app/src/main/java/com/espressif/ui/adapters/ScheduleAdapter.java:206-222 | reading the printed digits gives the number back |
| JavaInt.IntToString | app/src/main/java/com/espressif/ui/dialogs/ScheduleDialogFragment.java:431 | `String.valueOf` of any int: a minus sign before the magnitude's digits when negative |
| JavaInt.Format02d | app/src/main/java/com/espressif/ui/models/Schedule.java:317 | `%02d`: two digits whose value is the number for 0..99, otherwise the plain decimal text |
| JavaInt.ParseInt | app/src/main/java/com/espressif/ui/dialogs/ScheduleDialogFragment.java:489 | `Integer.parseInt`: any accepted text denotes a 32-bit value |
| JavaInt.IntToStringParses | app/src/main/java/com/espressif/ui/dialogs/ScheduleDialogFragment.java:431-489 | `parseInt` reads every printed `int` back |
| JavaText.Trim | app/src/main/java/com/espressif/ui/models/Schedule.java:354 | `trim()`: a slice `s[i..j]` of the input that neither starts nor ends with a blank, where everything cut off before `i` and after `j` is blank |
| JavaText.TrimOfTrimmed | app/src/main/java/com/espressif/ui/models/Schedule.java:354 | a text that starts and ends with visible characters is its own trim |
| JavaText.TrimIdempotent | app/src/main/java/com/espressif/ui/models/Schedule.java:354 | trimming twice is trimming once |
| JavaText.ToLowerChar | app/src/main/java/com/espressif/ui/viewmodels/MqttViewModel.java:646 | upper-case ASCII letters move down by 32, and every other character is kept |
| JavaText.ToUpperChar | app/src/main/java/com/espressif/data/repository/UserRepository.java:392 | lower-case ASCII letters move up by 32, and every other character is kept |
| JavaText.ToLower | app/src/main/java/com/espressif/ui/viewmodels/MqttViewModel.java:646 | maps every character with `ToLowerChar` and keeps the length |
| JavaText.ToUpper | app/src/main/java/com/espressif/data/repository/UserRepository.java:392 | maps every character with `ToUpperChar`; no lower-case letter remains |
| JavaText.ToLowerIdempotent | app/src/main/java/com/espressif/ui/viewmodels/MqttViewModel.java:646 | lower-casing is idempotent |
| JavaText.IndexOfFrom | app/src/main/java/com/espressif/provision/utils/UPnPDevice.java:80-81 | `indexOf(key, from)`: the first match at or after `from`, and no match when -1 is returned |
| JavaText.IndexOf | app/src/main/java/com/espressif/provision/utils/UPnPDevice.java:78 | `indexOf(key)`: the first match, and -1 exactly when there is none |
| MedicationType.ColorForType | app/src/main/java/com/espressif/ui/models/MedicationType.java:27-33 | liquid gets the liquid colour and every other string gets the pill colour; the two colours differ |
| MedicationType.TypeLabel | app/src/main/java/com/espressif/ui/models/MedicationType.java:38-44 | "Líquido" for liquid, and the pill label for everything else |
| MedicationType.UnitLabel | app/src/main/java/com/espressif/ui/models/MedicationType.java:49-60 | "unit" shows as "Unidades"; "mg", "ml" and unknown units show as given |
| MedicationType.IsCompatibleWithCompartment | app/src/main/java/com/espressif/ui/models/MedicationType.java:66-78 | pills fit exactly compartments 1-3, liquid fits exactly compartment 4, and nothing fits outside 1-4 |
| MedicationType.MaxCompartmentsForType | app/src/main/java/com/espressif/ui/models/MedicationType.java:83-89 | one compartment for liquid, three for anything else |
| MedicationType.FirstCompartmentForType | app/src/main/java/com/espressif/ui/models/MedicationType.java:94-100 | 4 for liquid, 1 for anything else |
| MedicationType.CompatibleSlotsAreFirstToMax | app/src/main/java/com/espressif/ui/models/MedicationType.java:66-100 | for pill and liquid, the compatible compartments are exactly the range `First`..`First+Max-1`; other type strings fit nowhere |
| MedicationType.FirstCompartmentIsCompatible | app/src/main/java/com/espressif/ui/models/MedicationType.java:94-100 | the first compartment of a real type is compatible with it |
| PatientIds.IsUsablePatientId | app/src/main/java/com/espressif/data/repository/MedicationRepository.java:59 | the repositories' loose check: an id that is present, not empty and not the "current_user_id" placeholder |
| PatientIds.IsWellFormedPatientId | app/src/main/java/com/espressif/data/repository/UserRepository.java:702-709 | the user repository's check: the loose one plus exactly six characters from A-Z and 0-9 |
| PatientIds.FormatImpliesUsable | app/src/main/java/com/espressif/data/repository/UserRepository.java:702-709 | six id characters already make an id well formed: present, non-empty and not the placeholder |

| Schedules.DayIndex | app/src/main/java/com/espressif/ui/models/Schedule.java:236-247 | maps `Calendar.DAY_OF_WEEK` (Sunday = 1) onto the Monday-first mask: Monday..Saturday (2..7) to 0..5, Sunday to 6 |
| Schedules.DayIndexInjective | app/src/main/java/com/espressif/ui/models/Schedule.java:236-247 | distinct calendar days read distinct mask entries |
| Schedules.IsForToday | app/src/main/java/com/espressif/ui/models/Schedule.java:236-240 | true exactly when the mask exists and today's entry is set |
| Schedules.SearchFrom | app/src/main/java/com/espressif/ui/models/Schedule.java:259-274 | the smallest `daysToAdd` from k to 7 that lands on a selected weekday, or one year later when there is none |
| Schedules.NextSlot | app/src/main/java/com/espressif/ui/models/Schedule.java:250-274 | the day `updateNextScheduledTime` picks: today exactly when today is selected and the time is still ahead, otherwise the fewest days ahead (1..7) that land on a selected weekday, or one year later |
| Schedules.NextSlotChoosesEarliest | app/src/main/java/com/espressif/ui/models/Schedule.java:250-274 | the next dose is today exactly when today is selected and the time is still ahead; otherwise it is the earliest selected later day within a week |
| Schedules.NextYearIffNoDay | app/src/main/java/com/espressif/ui/models/Schedule.java:264-273 | the search falls back to "one year later" exactly when no weekday is selected |
| Schedules.SlotMillisIsFuture | app/src/main/java/com/espressif/ui/models/Schedule.java:253-284 | every slot the search may choose lies strictly after the clock |
| Schedules.NextScheduledMillis | app/src/main/java/com/espressif/ui/models/Schedule.java:250-284 | the stored time stamp: one year later when no weekday is selected, otherwise no more than a week past today's midnight at the dose time, and for a real time of day always after the clock |
| Schedules.NextScheduledIsFuture | app/src/main/java/com/espressif/ui/models/Schedule.java:253-284 | for a valid hour and minute, the computed next dose is strictly in the future |
| Schedules.SetHour | app/src/main/java/com/espressif/ui/models/Schedule.java:81-84 | stores the hour and recomputes the next dose from the new time; every other field is kept |
| Schedules.SetMinute | app/src/main/java/com/espressif/ui/models/Schedule.java:90-93 | stores the minute and recomputes the next dose; every other field is kept |
| Schedules.SetDaysOfWeek | app/src/main/java/com/espressif/ui/models/Schedule.java:99-102 | stores the mask and recomputes the next dose from it; every other field is kept |
| Schedules.SetActive | app/src/main/java/com/espressif/ui/models/Schedule.java:118-120 | flips only the active flag; the cached next dose is not recomputed |
| Schedules.SetDispensed | app/src/main/java/com/espressif/ui/models/Schedule.java:150-155 | sets the flag, and a positive report stamps the time; clearing touches nothing else |
| Schedules.SetDetectedBySensor | app/src/main/java/com/espressif/ui/models/Schedule.java:161-169 | a detection confirms the dose and stamps both times; clearing the flag keeps an earlier confirmation |
| Schedules.DisplayHour12 | app/src/main/java/com/espressif/ui/models/Schedule.java:319-320 | a 12-hour clock hour in 1..12 that, with the meridiem, gives back the 24-hour hour |
| Schedules.Meridiem | app/src/main/java/com/espressif/ui/models/Schedule.java:321 | "AM" exactly before noon, "PM" exactly from noon on |
| Schedules.FormattedTime | app/src/main/java/com/espressif/ui/models/Schedule.java:315-324 | in 24-hour mode "HH:MM" of two-digit fields, otherwise the text ends in a blank and the meridiem of the hour |
| Schedules.FormattedTime24RoundTrip | app/src/main/java/com/espressif/ui/models/Schedule.java:316-317 | the 24-hour text reads back to the same hour and minute |
| Schedules.FormattedTime12RoundTrip | app/src/main/java/com/espressif/ui/models/Schedule.java:318-323 | the 12-hour text "h:MM AM/PM" reads back to the same hour of the day and minute: display hour and meridiem lose nothing |
| Schedules.SelectedLetters | app/src/main/java/com/espressif/ui/models/Schedule.java:336-347 | a day's letter is present exactly when the day is selected, and no other letter appears |
| Schedules.FormattedDays | app/src/main/java/com/espressif/ui/models/Schedule.java:330-356 | "Sin días" for no mask or no day, "Todos los días" for all seven, otherwise the selected letters separated by single spaces |
| Schedules.SetWeekdaySchedule | app/src/main/java/com/espressif/ui/models/Schedule.java:206-218 | Monday to Friday set and the weekend clear, entries past the seventh kept; the next dose is recomputed from the new mask and nothing else changes |
| Schedules.SetWeekendSchedule | app/src/main/java/com/espressif/ui/models/Schedule.java:221-233 | the weekend set and Monday to Friday clear, entries past the seventh kept; the next dose is recomputed from the new mask and nothing else changes |
| Schedules.SetDailyScheduleAsWritten | app/src/main/java/com/espressif/ui/models/Schedule.java:197-203 | as written: an existing mask comes back unchanged with only the next dose recomputed; a null mask becomes seven null days, which `updateNextScheduledTime` unboxes and throws on (Finding 1) |
| Schedules.SetDailyScheduleAsWrittenKeepsEmptyMask | app/src/main/java/com/espressif/ui/models/Schedule.java:197-203 | a schedule with no day selected still has none after the "daily" helper, so its next dose is a year away (Finding 1) |
| Schedules.SetDailySchedule | app/src/main/java/com/espressif/ui/models/Schedule.java:197-203 | corrected: every day selected, so the next dose is within a week (Finding 1) |
| Countdown.Decompose | app/src/main/java/com/espressif/ui/adapters/ScheduleAdapter.java:196-202 | whole days, hours below 24 and minutes below 60 that add up to the time, to within one minute |
| Countdown.Plan | app/src/main/java/com/espressif/ui/adapters/ScheduleAdapter.java:184-223 | "now" exactly for t <= 0 and "<1m" below a minute; days from one day up, with hours shown only for 1-2 days; hours, with minutes shown only below 10 hours; otherwise minutes |
| Countdown.PlanApproximates | app/src/main/java/com/espressif/ui/adapters/ScheduleAdapter.java:184-223 | the label never overstates the remaining time and falls short by less than its granularity (a day, an hour or a minute) |
| Countdown.Render | app/src/main/java/com/espressif/ui/adapters/ScheduleAdapter.java:193-222 | "Ahora" and "<1m" exactly for those labels; every other label starts with "En " |
| Countdown.FormatCountdown | app/src/main/java/com/espressif/ui/adapters/ScheduleAdapter.java:183-226 | "Ahora" exactly when the time has passed, "<1m" exactly under a minute, otherwise "En ..." |
| Countdown.FormatCountdownParses | app/src/main/java/com/espressif/ui/adapters/ScheduleAdapter.java:183-226 | the label text reads back to the planned numbers and units |
| ScheduleForm.TimeDisplay | app/src/main/java/com/espressif/ui/dialogs/ScheduleDialogFragment.java:300-312 | the dialog shows the same text as the schedule's own formatter |
| ScheduleForm.ClassifyAsWritten | app/src/main/java/com/espressif/ui/dialogs/ScheduleDialogFragment.java:361-388 | as written: "weekends" whenever both weekend days are set and Monday to Friday are not all set (Finding 2) |
| ScheduleForm.Classify | app/src/main/java/com/espressif/ui/dialogs/ScheduleDialogFragment.java:361-388 | corrected: "weekends" only when Monday to Friday are all clear (Finding 2) |
| ScheduleForm.ClassifyAsWrittenLosesMonday | app/src/main/java/com/espressif/ui/dialogs/ScheduleDialogFragment.java:361-388 | a day-based schedule on Monday+Saturday+Sunday reopens as "weekends" as written, and an untouched save drops Monday; with the corrected classification it keeps its days (Finding 2) |
| ScheduleForm.MaskChoice | app/src/main/java/com/espressif/ui/dialogs/ScheduleDialogFragment.java:361-388 | the radio button a mask selects: none for a null or short mask, otherwise the (corrected or as-written) classification |
| ScheduleForm.Populate | app/src/main/java/com/espressif/ui/dialogs/ScheduleDialogFragment.java:351-433 | the form filled from a schedule: its time and switches, the checkboxes only for "custom", and the interval override with its hours button and treatment length |
| ScheduleForm.Load | app/src/main/java/com/espressif/ui/dialogs/ScheduleDialogFragment.java:351-433 | opening the dialog on a schedule copies its time and switches; a mask of at least seven entries selects the (corrected) classification and "custom" copies the seven entries into the checkboxes; a null or short mask leaves the defaults; interval mode overrides the choice with "interval", the matching hours button and the treatment length as text |
| ScheduleForm.LoadAsWritten | app/src/main/java/com/espressif/ui/dialogs/ScheduleDialogFragment.java:351-433 | the same, with the classification as written (Finding 2) |
| ScheduleForm.BuildMask | app/src/main/java/com/espressif/ui/dialogs/ScheduleDialogFragment.java:472-534 | always seven entries: all days for daily and interval, Mon-Fri, Sat-Sun, or the checked boxes |
| ScheduleForm.LoadThenSaveKeepsMask | app/src/main/java/com/espressif/ui/dialogs/ScheduleDialogFragment.java:351-534 | with the corrected classification, opening a day-based (not interval-mode) schedule and saving it untouched keeps its mask exactly |
| ScheduleForm.IntervalScheduleReopensAsInterval | app/src/main/java/com/espressif/ui/dialogs/ScheduleDialogFragment.java:410-432 | an interval-mode schedule reopens as "interval" whatever its mask, so an untouched save stores every day |
| ScheduleForm.ValidateForm | app/src/main/java/com/espressif/ui/dialogs/ScheduleDialogFragment.java:438-453 | refused exactly when "custom" has no day checked |
| ScheduleForm.ValidFormSavesSomeDay | app/src/main/java/com/espressif/ui/dialogs/ScheduleDialogFragment.java:438-534 | a form that passes validation saves at least one day |
| ScheduleForm.IntervalHours | app/src/main/java/com/espressif/ui/dialogs/ScheduleDialogFragment.java:479-482 | the four radio buttons give 4, 6, 8 or 12 hours, with 8 as the default |
| ScheduleForm.IntervalChoiceFor | app/src/main/java/com/espressif/ui/dialogs/ScheduleDialogFragment.java:415-428 | stored hours other than 4, 6 and 12 select the 8-hour button |
| ScheduleForm.IntervalRoundTrip | app/src/main/java/com/espressif/ui/dialogs/ScheduleDialogFragment.java:415-482 | load and save agree on the four offered intervals, and any other stored value becomes 8 hours |
| ScheduleForm.TreatmentDays | app/src/main/java/com/espressif/ui/dialogs/ScheduleDialogFragment.java:485-495 | empty or non-numeric text gives 2; a number is clamped to 1..30 |
| ScheduleForm.TreatmentDaysRoundTrip | app/src/main/java/com/espressif/ui/dialogs/ScheduleDialogFragment.java:431-495 | a treatment length of 1..30 days, shown and saved untouched, stays the same |
| ScheduleForm.IsValidSchedule | app/src/main/java/com/espressif/ui/dialogs/ScheduleDialogFragment.java:768-776 | `isValidSchedule`: a schedule with non-empty schedule and medication ids and a mask of exactly seven days |
| ScheduleForm.SaveScheduleAsWritten | app/src/main/java/com/espressif/ui/dialogs/ScheduleDialogFragment.java:458-546 | as written: a stored schedule always passes `isValidSchedule`, keeps the edited schedule's id (or takes the new one), carries the form's time, mask, medication and flags, and keeps every field the dialog does not write; the interval fields are set only for the interval choice and an existing interval flag is never cleared; it is refused exactly when the schedule or medication id is missing or empty (Finding 6) |
| ScheduleForm.SaveAsWrittenKeepsIntervalFlag | app/src/main/java/com/espressif/ui/dialogs/ScheduleDialogFragment.java:496-500 | an interval schedule saved as "weekdays" stores Monday to Friday but keeps its interval flag, reopens as "interval", and an untouched save then stores every day (Finding 6) |
| ScheduleForm.SaveSchedule | app/src/main/java/com/espressif/ui/dialogs/ScheduleDialogFragment.java:458-546 | corrected: stored exactly when the as-written save stores, with the same id and untouched fields and the interval flag set exactly for the interval choice (Finding 6) |
| ScheduleForm.SaveThenReopenKeepsDays | app/src/main/java/com/espressif/ui/dialogs/ScheduleDialogFragment.java:351-546 | saving a form and reopening the stored schedule gives a form that saves the same days: the dialog's round trip |
| Compartments.IsOccupied | app/src/main/java/com/espressif/ui/utils/CompartmentManager.java:128-131 | true only for a slot in 1..4 that is marked occupied |
| Compartments.MedicationCompartment | app/src/main/java/com/espressif/ui/utils/CompartmentManager.java:134-136 | the assigned slot, or -1 exactly for an unassigned id; in a sound state the slot is occupied |
| Compartments.IsAvailableForType | app/src/main/java/com/espressif/ui/utils/CompartmentManager.java:153-172 | true exactly for a slot in 1..4 that is free and compatible with the type |
| Compartments.AvailableCompartments | app/src/main/java/com/espressif/ui/utils/CompartmentManager.java:69-88 | exactly the available slots of the type, in ascending order: free pill slots among 1-3, or 4 when free for liquid |
| Compartments.HasAvailableCompartments | app/src/main/java/com/espressif/ui/utils/CompartmentManager.java:143-145 | true exactly when some slot is available for the type |
| Compartments.Occupy | app/src/main/java/com/espressif/ui/utils/CompartmentManager.java:91-96 | marks the slot and assigns the id; a no-op out of range or for a null id |
| Compartments.FirstKeyWithValue | app/src/main/java/com/espressif/ui/utils/CompartmentManager.java:105-110 | the first key in iteration order mapped to the slot, and none exactly when no key is |
| Compartments.Free | app/src/main/java/com/espressif/ui/utils/CompartmentManager.java:99-116 | clears the slot and drops at most one medication, one that was on that slot; a no-op out of range |
| Compartments.FreeMedication | app/src/main/java/com/espressif/ui/utils/CompartmentManager.java:119-125 | clears the id's slot and forgets the id; an unknown or null id changes nothing |
| Compartments.Place | app/src/main/java/com/espressif/ui/utils/CompartmentManager.java:55-65 | a slot is occupied exactly when it was, or some listed medication with an id sits on it; the same holds for the assigned ids |
| Compartments.LastSlot | app/src/main/java/com/espressif/ui/utils/CompartmentManager.java:60-62 | the slot of the last listed medication placed for an id, and none exactly when no placed entry has that id |
| Compartments.LastSlotIsLast | app/src/main/java/com/espressif/ui/utils/CompartmentManager.java:56-64 | the slot found is that of a placed entry for the id after which no entry is placed for it |
| Compartments.PlaceAssignsLastSlot | app/src/main/java/com/espressif/ui/utils/CompartmentManager.java:55-65 | each id is assigned the slot of its last placed entry (a later `put` replaces an earlier one); ids not listed keep their earlier slot |
| Compartments.Refresh | app/src/main/java/com/espressif/ui/utils/CompartmentManager.java:47-66 | after a refresh the occupied slots and assigned ids are exactly those of the listed medications, each id on the slot of its last placed entry; a null list clears everything |
| Compartments.PlaceKeepsAssignmentsInRange | app/src/main/java/com/espressif/ui/utils/CompartmentManager.java:55-65 | placing medications only ever assigns slots 1..4 |
| Compartments.RefreshAssignsInRange | app/src/main/java/com/espressif/ui/utils/CompartmentManager.java:47-66 | whatever the list, the refreshed map names only real slots |
| Compartments.OccupyFreeSlotKeepsSound | app/src/main/java/com/espressif/ui/utils/CompartmentManager.java:91-96 | occupying a free slot with a medication that holds none keeps the state sound: every assignment is occupied, and no two medications share a slot |
| Compartments.FreeKeepsSound | app/src/main/java/com/espressif/ui/utils/CompartmentManager.java:99-116 | freeing a slot keeps the state sound |
| Compartments.FreeMedicationKeepsSound | app/src/main/java/com/espressif/ui/utils/CompartmentManager.java:119-125 | freeing a medication keeps the state sound |
| Compartments.OccupyThenFreeMedication | app/src/main/java/com/espressif/ui/utils/CompartmentManager.java:91-125 | occupying a free slot with a new medication and then freeing it restores the allocator exactly |
| Compartments.OccupyThenQuery | app/src/main/java/com/espressif/ui/utils/CompartmentManager.java:91-172 | after occupying, the slot reads as occupied, the id reports it, and no type is offered that slot |
| Dispenser.Remaining | app/src/main/java/com/espressif/ui/viewmodels/DispenserViewModel.java:54-66 | the remaining amount plus the taken amount is the total; it is negative exactly when more was taken than planned |
| Dispenser.HasTodaySchedule | app/src/main/java/com/espressif/ui/viewmodels/DispenserViewModel.java:373-380 | some active schedule of the medication is for today |
| Dispenser.Contributes | app/src/main/java/com/espressif/ui/viewmodels/DispenserViewModel.java:119-175 | a medication adds to a gauge exactly when it is scheduled today, sits in that gauge's compartment letter and has that gauge's type, compared by value (Finding 3, corrected) |
| Dispenser.Tally | app/src/main/java/com/espressif/ui/viewmodels/DispenserViewModel.java:119-175 | the unclamped sums of taken and total amounts over the medications that add to the gauge, in list order |
| Dispenser.TallyWithoutContributors | app/src/main/java/com/espressif/ui/viewmodels/DispenserViewModel.java:119-175 | a list in which no medication adds to the gauge leaves it at zero |
| Dispenser.TallyAppend | app/src/main/java/com/espressif/ui/viewmodels/DispenserViewModel.java:119-175 | gauge sums add up over concatenated lists |
| Dispenser.TallyIgnoresNotToday | app/src/main/java/com/espressif/ui/viewmodels/DispenserViewModel.java:119-123 | a medication with no active schedule today leaves every gauge unchanged |
| Dispenser.AtLeastOne | app/src/main/java/com/espressif/ui/viewmodels/DispenserViewModel.java:172-175 | the total becomes at least one, and a positive total is kept |
| Dispenser.UpdateCompartmentStatus | app/src/main/java/com/espressif/ui/viewmodels/DispenserViewModel.java:101-189 | each gauge holds the sums over today's matching medications, with the total at least one; a null or empty list gives the initial gauges |
| Dispenser.AfterDispense | app/src/main/java/com/espressif/ui/viewmodels/DispenserViewModel.java:194-227 | corrected: a dispense on A, B or C adds one taken dose to that gauge only; one on LIQUID adds the dose volume of a liquid medication; totals never change; no compartment changes nothing (Finding 3) |
| Dispenser.ContributesAsWritten | app/src/main/java/com/espressif/ui/viewmodels/DispenserViewModel.java:134-161 | as written: a medication adds to a gauge only when its type is also the constant object itself (Finding 3) |
| Dispenser.AfterDispenseAsWritten | app/src/main/java/com/espressif/ui/viewmodels/DispenserViewModel.java:194-227 | as written: identical to the corrected update when the type is the constant object; otherwise the liquid gauge is untouched (Finding 3) |
| Dispenser.DatabaseLiquidDoseNotCountedAsWritten | app/src/main/java/com/espressif/ui/viewmodels/DispenserViewModel.java:219-224 | a 5 ml dose of a liquid medication whose type was read from the database is not added to the liquid gauge as written, and is added once compared by value (Finding 3) |
| Dispenser.DispenseConsumesOneDose | app/src/main/java/com/espressif/ui/viewmodels/DispenserViewModel.java:194-227 | on a pill gauge the remaining amount drops by exactly one per dispense |
| Dispenser.DatabaseTypeNotCountedAsWritten | app/src/main/java/com/espressif/ui/viewmodels/DispenserViewModel.java:134 | as written, a pill whose type string is a different object from the constant is not counted (Finding 3) |
| Dispenser.Filter | app/src/main/java/com/espressif/ui/viewmodels/DispenserViewModel.java:300-321 | keeps exactly the medications the filter accepts, each as often as in the input |
| Dispenser.FilterAllKeepsEverything | app/src/main/java/com/espressif/ui/viewmodels/DispenserViewModel.java:300-321 | the "all" filter returns the whole list unchanged |
| Dispenser.NextScheduledTime | app/src/main/java/com/espressif/ui/viewmodels/DispenserViewModel.java:358-368 | the earliest next dose over the active schedules, or `Long.MAX_VALUE` exactly when none is active |
| Dispenser.CompareNames | app/src/main/java/com/espressif/ui/viewmodels/DispenserViewModel.java:332 | `compareTo` reduced to its sign: zero exactly for equal names |
| Dispenser.CompareNamesIsLexicographic | app/src/main/java/com/espressif/ui/viewmodels/DispenserViewModel.java:332 | a name sorts first exactly when it is lexicographically smaller: a proper prefix of the other, or smaller at the first differing character |
| Dispenser.CompareNamesAntisymmetric | app/src/main/java/com/espressif/ui/viewmodels/DispenserViewModel.java:332 | swapping the names flips the sign |
| Dispenser.CompareNamesTransitive | app/src/main/java/com/espressif/ui/viewmodels/DispenserViewModel.java:332 | the name order is transitive |
| Dispenser.CompareMeds | app/src/main/java/com/espressif/ui/viewmodels/DispenserViewModel.java:326-340 | two unscheduled medications compare by name; a scheduled one goes before an unscheduled one; two scheduled ones go in order of their next dose |
| Dispenser.LeTotal | app/src/main/java/com/espressif/ui/viewmodels/DispenserViewModel.java:326-340 | of any two medications, one may come first |
| Dispenser.LeTransitive | app/src/main/java/com/espressif/ui/viewmodels/DispenserViewModel.java:326-340 | the comparator's order is transitive |
| Dispenser.Insert | app/src/main/java/com/espressif/ui/viewmodels/DispenserViewModel.java:324-341 | inserting adds exactly the new element |
| Dispenser.InsertSorted | app/src/main/java/com/espressif/ui/viewmodels/DispenserViewModel.java:324-341 | inserting into an ordered list keeps it ordered |
| Dispenser.Sort | app/src/main/java/com/espressif/ui/viewmodels/DispenserViewModel.java:324-341 | an ordered permutation of the input |
| Dispenser.ScheduledBeforeUnscheduled | app/src/main/java/com/espressif/ui/viewmodels/DispenserViewModel.java:330-337 | in a sorted list, medications with an active schedule come before those without |
| Dispenser.UnscheduledInNameOrder | app/src/main/java/com/espressif/ui/viewmodels/DispenserViewModel.java:330-332 | in a sorted list, medications without an active schedule appear in lexicographic name order |
| Dispenser.UpdateMedicationsList | app/src/main/java/com/espressif/ui/viewmodels/DispenserViewModel.java:292-353 | shows the filtered list sorted, as a permutation; the screen is empty exactly when nothing is shown; the gauges are recounted over the whole list |
| MqttSync.PatientIdFromMedications | app/src/main/java/com/espressif/ui/viewmodels/MqttViewModel.java:730-744 | the first usable patient id in list order, and none exactly when no medication has one |
| MqttSync.ValidPatientId | app/src/main/java/com/espressif/ui/viewmodels/MqttViewModel.java:875-905 | the first usable id among the selected, the connected and the stored one, in that priority |
| MqttSync.EncodeTime | app/src/main/java/com/espressif/ui/viewmodels/MqttViewModel.java:663-664 | a time of day becomes minutes since midnight, below 1440 |
| MqttSync.DecodeTime | app/src/main/java/com/espressif/ui/viewmodels/MqttViewModel.java:663-664 | how the dispenser splits minutes since midnight: hours and minutes 0..59 that add back up to the value, the hour below 24 for a time of day |
| MqttSync.TimeRoundTrip | app/src/main/java/com/espressif/ui/viewmodels/MqttViewModel.java:663-664 | the dispenser reads the time back as the same hour and minute |
| MqttSync.SetDaysFrom | app/src/main/java/com/espressif/ui/viewmodels/MqttViewModel.java:669-683 | the selected 1-based days after `from`, strictly increasing |
| MqttSync.EncodeDays | app/src/main/java/com/espressif/ui/viewmodels/MqttViewModel.java:669-683 | the selected days Monday = 1 .. Sunday = 7, ascending; a null or short mask sends all seven days |
| MqttSync.DecodeDays | app/src/main/java/com/espressif/ui/viewmodels/MqttViewModel.java:669-683 | the dispenser's side: a day list becomes a seven-entry mask |
| MqttSync.DaysRoundTrip | app/src/main/java/com/espressif/ui/viewmodels/MqttViewModel.java:669-683 | the day list keeps exactly the first seven entries of the mask |
| MqttSync.SchedulePayloadOf | app/src/main/java/com/espressif/ui/viewmodels/MqttViewModel.java:657-686 | a schedule entry keeps the id and interval mode, its time decodes to the schedule's hour and minute, and its day list decodes to the first seven mask entries, or to every day for a null or short mask |
| MqttSync.DaysRoundTripOf | app/src/main/java/com/espressif/ui/viewmodels/MqttViewModel.java:669-683 | the day list of any mask decodes to its first seven entries, or to all seven days when the mask is null or short |
| MqttSync.ActiveSchedules | app/src/main/java/com/espressif/ui/viewmodels/MqttViewModel.java:657-688 | exactly the payloads of the active schedules; empty exactly when none is active |
| MqttSync.MedicationPayloadOf | app/src/main/java/com/espressif/ui/viewmodels/MqttViewModel.java:641-690 | keeps id, name and compartment, lower-cases the type, uses the default pill counts, and carries the active schedules |
| MqttSync.MedicationsPayload | app/src/main/java/com/espressif/ui/viewmodels/MqttViewModel.java:628-695 | no more entries than medications, and every entry has at least one schedule |
| MqttSync.MedicationsPayloadMembers | app/src/main/java/com/espressif/ui/viewmodels/MqttViewModel.java:628-695 | the array holds the payload of every medication with an active schedule and nothing else |
| MqttSync.SyncSchedules | app/src/main/java/com/espressif/ui/viewmodels/MqttViewModel.java:585-725 | skipped exactly for a null or empty list, refused exactly when no usable patient id exists; otherwise sent with the first usable id among the medications, or failing that the selected, connected or stored id that `getValidPatientId` picks |
| MedicationRepository.UpdateChildren | app/src/main/java/com/espressif/data/repository/MedicationRepository.java:641 | the update's fields replace the node's, and every other field is kept |
| MedicationRepository.StatusFields | app/src/main/java/com/espressif/data/repository/MedicationRepository.java:617-633 | dispensed, taken and missed each add their flag and time stamp; other statuses add nothing |
| MedicationRepository.UpdateScheduleStatus | app/src/main/java/com/espressif/data/repository/MedicationRepository.java:605-650 | fails with the invalid-ids error exactly when an id is missing; otherwise writes the status, its time and exactly the status's own fields with their values |
| MedicationRepository.UpdateMedicationTaken | app/src/main/java/com/espressif/data/repository/MedicationRepository.java:333-335 | writes "taken" with the confirmation, or just "scheduled" |
| MedicationRepository.UntakingKeepsConfirmation | app/src/main/java/com/espressif/data/repository/MedicationRepository.java:333-335 | marking a dose as not taken leaves an earlier confirmation stored |
| MedicationRepository.RegisterMissedMedication | app/src/main/java/com/espressif/data/repository/MedicationRepository.java:554-581 | the same write as a "missed" status update: the missed flag and the status |
| MedicationRepository.UpdateDispensationStatus | app/src/main/java/com/espressif/data/repository/MedicationRepository.java:397-435 | fails exactly when an id is missing; otherwise writes exactly "dispensed", "dispensedAt" when dispensed, and the four sensor fields when detected, every time stamp being the app's clock |
| MedicationRepository.DispensationMatchesScheduleSetters | app/src/main/java/com/espressif/data/repository/MedicationRepository.java:397-435 | the database write agrees with the schedule's own `setDispensed`/`setDetectedBySensor` on every flag |
| MedicationRepository.CheckMedicationTaken | app/src/main/java/com/espressif/data/repository/MedicationRepository.java:512-549 | a lookup error is passed on; a known schedule always answers, and the answer is the taken state of the first schedule with the id; an unknown schedule is the "not found" error |
| MedicationRepository.FindSchedule | app/src/main/java/com/espressif/data/repository/MedicationRepository.java:522-534 | a schedule with the id, and none exactly when no schedule has it |
| MedicationRepository.FindScheduleIsFirst | app/src/main/java/com/espressif/data/repository/MedicationRepository.java:522-534 | the schedule found is the first with the id: no earlier schedule carries it |
| MedicationRepository.Normalize | app/src/main/java/com/espressif/data/repository/MedicationRepository.java:58-69 | refused exactly without a usable patient id; liquid is moved to compartment 4 and nothing else changes |
| MedicationRepository.AddMedication | app/src/main/java/com/espressif/data/repository/MedicationRepository.java:53-89 | refused exactly without a usable patient id; a missing id gets the new one; liquid is stored in compartment 4, any other type in its own; every other field is stored as given |
| MedicationRepository.UpdateMedication | app/src/main/java/com/espressif/data/repository/MedicationRepository.java:94-131 | refused without an id, or without a usable patient id; liquid is stored in compartment 4; every other field, and a non-liquid compartment, is stored as given |
| MedicationRepository.AddThenUpdateIsStable | app/src/main/java/com/espressif/data/repository/MedicationRepository.java:53-131 | updating a medication exactly as it was added stores it unchanged |
| MedicationRepository.StoredLiquidIsCompatible | app/src/main/java/com/espressif/data/repository/MedicationRepository.java:53-89 | every stored liquid medication sits in a compartment that accepts liquid |
| UserRepository.AlphabetLiteral | app/src/main/java/com/espressif/data/repository/UserRepository.java:317 | the id alphabet is the 32 letters and digits without I, O, 0 and 1 |
| UserRepository.AlphabetShape | app/src/main/java/com/espressif/data/repository/UserRepository.java:317 | 32 characters, all id characters, none of them ambiguous |
| UserRepository.PatientIdCandidate | app/src/main/java/com/espressif/data/repository/UserRepository.java:315-327 | six characters of the alphabet, hence a well-formed id |
| UserRepository.EveryAlphabetIdCanBeDrawn | app/src/main/java/com/espressif/data/repository/UserRepository.java:315-327 | every six-character id over the alphabet is some draw's candidate |
| UserRepository.LookupKey | app/src/main/java/com/espressif/data/repository/UserRepository.java:392 | the key looked up contains no lower-case letter |
| UserRepository.LookupKeyIdempotent | app/src/main/java/com/espressif/data/repository/UserRepository.java:392 | normalising a key again changes nothing |
| UserRepository.LookupKeyRecoversId | app/src/main/java/com/espressif/data/repository/UserRepository.java:382-393 | a well-formed id, typed in lower case with surrounding spaces, is looked up as itself |
| UserRepository.VerifyPatientIdKey | app/src/main/java/com/espressif/data/repository/UserRepository.java:382-393 | fails exactly when Firebase is not initialised; otherwise the normalised key |
| UserRepository.SelectedPatientId | app/src/main/java/com/espressif/data/repository/UserRepository.java:664-700 | the stored patient's own id, else the connected patient's, else (signed in, Firebase ready) the well-formed id mapped to the account, which is then saved; otherwise no id and nothing saved; any id returned is well formed (Finding 4, corrected) |
| UserRepository.AsWrittenLosesOnlyTheMapping | app/src/main/java/com/espressif/data/repository/UserRepository.java:664-727 | the as-written lookup differs from the intended one exactly when the third strategy is reached with a usable mapped id (Finding 4) |
| UserRepository.SelectedPatientIdAsWritten | app/src/main/java/com/espressif/data/repository/UserRepository.java:711-727 | as written: the Firebase mapping always reads as absent (Finding 4) |
| UserRepository.MappedIdIgnoredAsWritten | app/src/main/java/com/espressif/data/repository/UserRepository.java:664-727 | a family member with no connected patient gets no id as written, but gets the mapped id as intended (Finding 4) |
| UserRepository.IsUserLoggedIn | app/src/main/java/com/espressif/data/repository/UserRepository.java:528-547 | answers with Firebase's state and brings the stored flag in line with it, changing nothing else |
| UserRepository.IsUserLoggedInIdempotent | app/src/main/java/com/espressif/data/repository/UserRepository.java:528-547 | asking twice changes nothing the second time |
| UserRepository.HasCompletedOnboarding | app/src/main/java/com/espressif/data/repository/UserRepository.java:615-626 | true exactly when signed in and the stored flag is set |
| NotificationIds.HashCode | app/src/main/java/com/espressif/ui/notifications/NotificationHelper.java:255-258 | `String.hashCode` is always a 32-bit value |
| NotificationIds.MixHashes | app/src/main/java/com/espressif/ui/notifications/NotificationHelper.java:255-258 | the mixed hash is a 32-bit value |
| NotificationIds.MixWrapsOnce | app/src/main/java/com/espressif/ui/notifications/NotificationHelper.java:255-258 | wrapping after the multiply and after the add is the mathematical sum wrapped once |
| NotificationIds.Offset | app/src/main/java/com/espressif/ui/notifications/NotificationHelper.java:258 | the offset is in 0..999, the magnitude of the mix modulo 1000 |
| NotificationIds.NotificationId | app/src/main/java/com/espressif/ui/notifications/NotificationHelper.java:249-259 | upcoming ids lie in 1000..1999 and every other type in 2000..2999, ending in the offset |
| NotificationIds.RequestCode | app/src/main/java/com/espressif/ui/notifications/NotificationHelper.java:264-271 | upcoming codes lie in 3000..3999 and every other type in 4000..4999, ending in the offset |
| NotificationIds.IdsSeparateTypes | app/src/main/java/com/espressif/ui/notifications/NotificationHelper.java:249-259 | upcoming and missed ids never collide, and an id tells its type |
| NotificationIds.RequestCodeShiftsId | app/src/main/java/com/espressif/ui/notifications/NotificationHelper.java:249-271 | a request code is its notification id plus 2000, so the two never collide |
| NotificationIds.SameHashesSameId | app/src/main/java/com/espressif/ui/notifications/NotificationHelper.java:249-259 | the id depends only on the type and the two hashes, so a cancel finds the shown notification |
| NotificationIds.HashCollision | app/src/main/java/com/espressif/ui/notifications/NotificationHelper.java:249-259 | "Aa" and "BB" hash alike, so two schedules can share an id |
| ProvisionManager.Ordinal | provisioning/src/main/java/com/espressif/provisioning/ESPProvisionManager.java:547-557 | the enum's ordinal is in 0..2 |
| ProvisionManager.SetSecurityType | provisioning/src/main/java/com/espressif/provisioning/ESPProvisionManager.java:547-557 | 0 and 1 select their level, and every other number selects level 2 |
| ProvisionManager.SetSecurityTypeOfOrdinal | provisioning/src/main/java/com/espressif/provisioning/ESPProvisionManager.java:547-557 | the mapping inverts the ordinal |
| ProvisionManager.OrdinalOfSetSecurityType | provisioning/src/main/java/com/espressif/provisioning/ESPProvisionManager.java:547-557 | the ordinal inverts the mapping on 0..2, and reads any other number as 2 |
| ProvisionManager.OptString | provisioning/src/main/java/com/espressif/provisioning/ESPProvisionManager.java:320-325 | `optString`: a present field as written, an absent one as "" |
| ProvisionManager.ParseTransport | provisioning/src/main/java/com/espressif/provisioning/ESPProvisionManager.java:335-349 | "softap" and "ble", compared ignoring case, select their transport; anything else is rejected |
| ProvisionManager.ProcessQrCode | provisioning/src/main/java/com/espressif/provisioning/ESPProvisionManager.java:316-377 | non-JSON, a missing transport and an unknown transport each fail with their own message; from Android Q on a SoftAP device is reported at once with its network; otherwise a search follows |
| ProvisionManager.TransportName | provisioning/src/main/java/com/espressif/provisioning/ESPProvisionManager.java:335-349 | the written name parses back to the transport |
| ProvisionManager.QrOf | provisioning/src/main/java/com/espressif/provisioning/ESPProvisionManager.java:316-377 | the QR code that describes a device, the partner of `ProcessQrCode` |
| ProvisionManager.QrRoundTrip | provisioning/src/main/java/com/espressif/provisioning/ESPProvisionManager.java:316-377 | reading a device's QR code gives that device back |
| ProvisionManager.SearchFrom | provisioning/src/main/java/com/espressif/provisioning/ESPProvisionManager.java:559-713 | gives up exactly when no remaining scan of the three settles; otherwise the first scan that does, found or not started |
| ProvisionManager.SearchFailure | provisioning/src/main/java/com/espressif/provisioning/ESPProvisionManager.java:579-625 | "device not found" with the name after the last scan; the Bluetooth message when a scan cannot start |
| ProvisionManager.SearchDevice | provisioning/src/main/java/com/espressif/provisioning/ESPProvisionManager.java:538-713 | gives up exactly when none of the three scans settles; otherwise reports the first scan that settles, found when it saw the device and aborted when a BLE scan could not start |
| ProvisionManager.SearchFindsFirstSighting | provisioning/src/main/java/com/espressif/provisioning/ESPProvisionManager.java:559-713 | the search reports the first scan that saw the device, when no earlier scan ended it |
| ProvisionManager.SearchIgnoresLaterScans | provisioning/src/main/java/com/espressif/provisioning/ESPProvisionManager.java:559-713 | only the first three scans matter |
| ProvisionManager.FoundDevice | provisioning/src/main/java/com/espressif/provisioning/ESPProvisionManager.java:661-667 | a found SoftAP device gets the matched network and the QR password; nothing else changes |
| ProvisionManager.ScanQrCode | provisioning/src/main/java/com/espressif/provisioning/ESPProvisionManager.java:316-377 | a QR failure is reported with its message; a code detected at once (SoftAP on Android Q and later) delivers its device; otherwise the device is delivered exactly when the search finds it, with the QR network and password, and a failed search reports its search failure |
| ProvisionManager.ScanQrOfSeenDevice | provisioning/src/main/java/com/espressif/provisioning/ESPProvisionManager.java:316-377 | scanning the QR code of a device that the first scan sees delivers that device, a SoftAP one with its network and the code's password |
| ProvisionFlow.Sec2UserName | app/src/main/java/com/espressif/ui/activities/ManualProvBaseActivity.kt:96-113 | a Thread device takes the Thread name; otherwise an empty name takes the stored Wi-Fi name, and a set name is kept |
| ProvisionFlow.ApplyVersionInfo | app/src/main/java/com/espressif/ui/activities/ManualProvBaseActivity.kt:67-154 | no "prov" object keeps everything; "sec_ver" selects its level; without it, level 2 drops to level 1; the user name is chosen only on level 2 |
| ProvisionFlow.ApplyVersionInfoAgrees | app/src/main/java/com/espressif/ui/activities/ManualProvBaseActivity.kt:67-154 | the screen's level and the device's level still agree afterwards |
| ProvisionFlow.ApplyVersionInfoIdempotent | app/src/main/java/com/espressif/ui/activities/ManualProvBaseActivity.kt:67-154 | reading the same version information twice changes nothing more |
| ProvisionFlow.AddDeviceSecurity | app/src/main/java/com/espressif/ui/activities/AddDeviceActivity.kt:968-1053 | from level 2: "sec_ver" 0 and 1 select their level, any other value level 2 with the level-2 user name; without "sec_ver" the device ends on level 1; without a "prov" object nothing changes |
| ProvisionFlow.AddDeviceSecurityIsManualFromLevel2 | app/src/main/java/com/espressif/ui/activities/AddDeviceActivity.kt:968-1053 | the add-device screen decides as the manual screens do from level 2, and a level-2 device ends with screen and device agreeing |
| ProvisionFlow.SecurityMismatch | app/src/main/java/com/espressif/ui/activities/AddDeviceActivity.kt:1055-1067 | a secure preference refuses level 0 and an insecure one refuses every other level |
| ProvisionFlow.MismatchIffPreferenceDisagrees | app/src/main/java/com/espressif/ui/activities/AddDeviceActivity.kt:1055-1067 | a mismatch is reported exactly when the secure preference disagrees with "the level is 0" |
| ProvisionFlow.CapabilityRoute | app/src/main/java/com/espressif/ui/activities/AddDeviceActivity.kt:1070-1084 | Wi-Fi scan first, then Thread scan, then Thread provisioning, otherwise Wi-Fi config |
| ProvisionFlow.AddDeviceConnected | app/src/main/java/com/espressif/ui/activities/AddDeviceActivity.kt:1055-1084 | a mismatch error exactly on a mismatch; otherwise the capability route |
| ProvisionFlow.LandingRoute | app/src/main/java/com/espressif/ui/activities/ProvisionLanding.kt:191-223 | no capabilities goes to Wi-Fi config; a non-empty PoP is stored on the device; the PoP screen only without a PoP, without "no_pop" and above level 0; otherwise the capability route |
| ProvisionFlow.LandingMatchesAddDevice | app/src/main/java/com/espressif/ui/activities/ProvisionLanding.kt:191-223 | when the PoP screen is not due, both screens route by the same priority |
| ProvisionFlow.LandingConnected | app/src/main/java/com/espressif/ui/activities/ProvisionLanding.kt:90-113 | a mismatch error exactly when the level after the version check disagrees with the preference; otherwise the landing route at that level |
| ProvisionFlow.SecureLandingAsksForPop | app/src/main/java/com/espressif/ui/activities/ProvisionLanding.kt:90-223 | once the check passes, a secure preference never skips the PoP screen for a device that needs a PoP and brings none |
| ProvisionFlow.ManualSecurityType | app/src/main/java/com/espressif/ui/activities/AddDeviceActivity.kt:851-865 | the device's level maps back to itself; a missing one reads as level 2 |
| ProvisionFlow.ManualSecurityTypeRoundTrip | app/src/main/java/com/espressif/ui/activities/AddDeviceActivity.kt:851-865 | the fallback inverts `setSecurityType` on the levels 0..2 |
| ProvisionFlow.StartProvisioning | app/src/main/java/com/espressif/ui/activities/AddDeviceActivity.kt:878-919 | only a single stored transport starts the flow; the transport follows the setting, level 2 when secure and level 0 otherwise |
| ProvisionFlow.StartedFlowIsConsistent | app/src/main/java/com/espressif/ui/activities/AddDeviceActivity.kt:878-919 | the started flow hands over a level that agrees with its device and passes the mismatch check |
| HexDump.Unsigned | app/src/main/java/com/espressif/ui/utils/Utils.kt:29-31 | the byte read unsigned: 0..255 and congruent to the byte |
| HexDump.Signed | app/src/main/java/com/espressif/ui/utils/Utils.kt:29-31 | the inverse of `Unsigned` on 0..255 |
| HexDump.HexDigit | app/src/main/java/com/espressif/ui/utils/Utils.kt:29-31 | a lower-case hexadecimal digit |
| HexDump.HexValue | app/src/main/java/com/espressif/ui/utils/Utils.kt:29-31 | the digit's value, and `HexDigit` gives the digit back |
| HexDump.HexValueOfDigit | app/src/main/java/com/espressif/ui/utils/Utils.kt:29-31 | `HexValue` inverts `HexDigit` |
| HexDump.ByteHex | app/src/main/java/com/espressif/ui/utils/Utils.kt:29-31 | `%02x`: two lower-case hex digits whose value is the unsigned byte |
| HexDump.ByteArrayToDs | app/src/main/java/com/espressif/ui/utils/Utils.kt:27-33 | two lower-case hex digits per byte, and "" for no bytes |
| HexDump.ByteAtPosition | app/src/main/java/com/espressif/ui/utils/Utils.kt:27-33 | byte i is printed at positions 2i and 2i+1 |
| HexDump.ByteArrayToDsAppend | app/src/main/java/com/espressif/ui/utils/Utils.kt:27-33 | printing distributes over concatenation |
| HexDump.DecodeHex | app/src/main/java/com/espressif/ui/utils/Utils.kt:27-33 | the partner decoder: half as many bytes as characters |
| HexDump.ByteHexDecodes | app/src/main/java/com/espressif/ui/utils/Utils.kt:29-31 | each printed byte decodes back to itself |
| HexDump.DecodePrinted | app/src/main/java/com/espressif/ui/utils/Utils.kt:27-33 | decoding printed text gives the bytes back |
| HexDump.PrintDecoded | app/src/main/java/com/espressif/ui/utils/Utils.kt:27-33 | every text the decoder accepts is exactly the printing of its bytes |
| WifiList.RssiLevel | app/src/main/java/com/espressif/ui/adapters/WiFiListAdapter.kt:70-80 | three bars above -50 dBm, two from -60, one from -67, none below |
| WifiList.LevelIffThreshold | app/src/main/java/com/espressif/ui/adapters/WiFiListAdapter.kt:70-80 | a signal shows at least `level` bars exactly when it reaches that level's threshold |
| WifiList.RssiLevelMonotone | app/src/main/java/com/espressif/ui/adapters/WiFiListAdapter.kt:70-80 | a stronger signal never shows fewer bars |
| UPnP.ParseHeaderAsWritten | app/src/main/java/com/espressif/provision/utils/UPnPDevice.java:76-85 | as written: the text after the first occurrence of the key anywhere, up to the next line end; "" without a match (Finding 5) |
| UPnP.ParseHeader | app/src/main/java/com/espressif/provision/utils/UPnPDevice.java:76-85 | corrected: the key is matched only at the start of a header line; the value never contains a line end (Finding 5) |
| UPnP.NewDevice | app/src/main/java/com/espressif/provision/utils/UPnPDevice.java:43-50 | corrected: succeeds exactly when every field line is terminated, and keeps the host address (Finding 5) |
| UPnP.NewDeviceAsWritten | app/src/main/java/com/espressif/provision/utils/UPnPDevice.java:43-50 | as written, over the as-written header parser: succeeds exactly when every field it finds is terminated; its search target is what that parser reads (Finding 5) |
| UPnP.ParseHeaderFindsField | app/src/main/java/com/espressif/provision/utils/UPnPDevice.java:76-85 | a field line whose key starts a line for the first time is read back exactly |
| UPnP.NewDeviceReadsResponse | app/src/main/java/com/espressif/provision/utils/UPnPDevice.java:43-85 | a device built from a well-formed answer recovers LOCATION, SERVER, USN and ST |
| UPnP.StReadFromHostAsWritten | app/src/main/java/com/espressif/provision/utils/UPnPDevice.java:76-85 | an answer whose HOST line precedes ST is read as written with the host as the search target (Finding 5) |
| UPnP.StReadFromOwnLine | app/src/main/java/com/espressif/provision/utils/UPnPDevice.java:76-85 | the corrected parser reads ST from its own line (Finding 5) |
| UPnP.NewDeviceFromHostFirstAsWritten | app/src/main/java/com/espressif/provision/utils/UPnPDevice.java:43-85 | a device built as written from an answer whose HOST line precedes ST has the host as its search target (Finding 5) |
| UPnP.NewDeviceFromHostFirst | app/src/main/java/com/espressif/provision/utils/UPnPDevice.java:43-85 | the same answer through the corrected parser gives the real search target (Finding 5) |

## Left out

- Firebase, MQTT, BLE, Wi-Fi, sockets and Android UI calls: the model covers what the app decides and what it would write or send, never the I/O itself. Listener callbacks become return values.
- Time zones and daylight saving: `Schedules.SlotMillis` adds whole days of 24 hours to midnight, as for a zone without clock changes.
- Case mapping (`toLowerCase`, `toUpperCase`, `equalsIgnoreCase`) covers ASCII letters only. Other characters are kept as they are.
- NotificationIds.HashCode: works per `char` code point value as Dafny sees it. UTF-16 surrogate pairs are not split.
- The iteration order of the allocator's `HashMap` is a parameter (`order` of `Compartments.Free`). Java does not fix it.
- Dispenser.Sort: states an ordered permutation, not the stability of `Collections.sort`.
- Dispenser.UpdateCompartmentStatus: gauge sums are unbounded integers. Java `int` overflow of the sums is not modelled, because it needs more than two billion doses.
- Schedules.IsForToday: requires a null mask or one of at least seven entries (`Readable`). This is stricter than the source, which reads only today's entry (Schedule.java line 239) and throws `IndexOutOfBoundsException` only when that entry is missing. The dispenser operations that call it carry the same requirement.
- Schedules.NextSlot: requires `Readable`, and so do `NextScheduledMillis` and the setters that recompute the next dose through it. `updateNextScheduledTime` throws only when an entry it actually reads is missing, so a short mask whose earlier-read day matches does not fail in the source.
- Schedules.FormattedDays: accepts a short mask, since the loop at Schedule.java line 340 runs to the list's size. It excludes a set entry past the seventh, on which `dayNames[i]` at line 343 throws.
- The sync's day list and the schedule dialog accept a short mask, as the code does. The status and type arguments are never null in the model. A null schedule id in `checkMedicationTaken` is treated as "no match" rather than a `NullPointerException`.
- `calculateNextScheduledTime` of the schedule dialog is not modelled. It repeats `Schedule.updateNextScheduledTime`, which is modelled as `Schedules.NextSlot`. ScheduleForm.SaveSchedule therefore does not state the stored `nextScheduled`, `treatmentEndDate` or time stamps.
- The `createdAt` and `updatedAt` time stamps that `addMedication` and `updateMedication` set from the clock are not fields of the modelled record, so `MedicationRepository.AddMedication` and `UpdateMedication` say nothing about them.
- The medication accessors the dispenser and the sync read (compartment letter, doses, volumes) and the schedule's interval fields do not appear in the `Medication.java` and `Schedule.java` shown. They are modelled as plain record fields.
- LiveData plumbing, the Loading and Error states of the screen, and the null checks on observed values are left out. The list state is modelled as Empty or Content only.
- `optString`/`optInt` on a JSON field of the wrong type is modelled as the field being absent.
- `ESPConstants` is not part of this model. The security enum's order SECURITY_0, SECURITY_1, SECURITY_2 is taken from its names.
- ProvisionManager.SearchFrom: a BLE `onFailure` that arrives after the device was found is not modelled. A SoftAP scan that cannot start counts as a scan that did not settle.
- The "both" device-type setting, which opens a chooser dialog, is modelled as `None` from `ProvisionFlow.StartProvisioning`.
- The security type handed to the manual-provisioning screens in the intent extra (ManualProvBaseActivity.kt lines 48-49) is a parameter.
- The version-info string is taken as already parsed (`VersionInfo`). A null version string is the "not JSON" case.
- UPnP.ParseHeader: header names are matched case-sensitively, as the code does; SSDP allows any case.
- The `StringIndexOutOfBoundsException` of `substring` when no line end follows a key is modelled as a `Failure`.
- MqttSync.ActiveSchedules: the order of the input stands for the unspecified iteration order of the medication's schedule `HashMap` (MqttViewModel.java line 657).
- Dispenser.CompareNames: compares Dafny characters, not UTF-16 code units; names with characters outside the Basic Multilingual Plane may order differently.
- Notification building, channels, alarm scheduling and boot receivers are left out: only the ids and request codes they use are modelled.
- The legacy Java copies of screens that also exist in Kotlin (for example `ProvisionLanding.java`, `AddDeviceActivity.java`) are left out. The Kotlin versions are modelled.

## Findings

| source | as written | input that shows it | evidently intended | confidence | as-written member | corrected member |
|---|---|---|---|---|---|---|
| app/src/main/java/com/espressif/ui/models/Schedule.java:197-203 | `Arrays.fill` writes into the array returned by `toArray`, a copy, so the list keeps its old values | a schedule with all seven days false: after `setDailySchedule` still no day is set, and the next dose is a year away; a schedule with no mask throws `NullPointerException` | every day set | not executed; high | Schedules.SetDailyScheduleAsWritten, Schedules.SetDailyScheduleAsWrittenKeepsEmptyMask | Schedules.SetDailySchedule |
| app/src/main/java/com/espressif/ui/dialogs/ScheduleDialogFragment.java:372-386 | the weekend flag is only cleared by an unset Saturday or Sunday, so any mask with both weekend days set but not all weekdays opens as "weekends" | Monday, Saturday and Sunday: the dialog shows "weekends", and saving it untouched stores Saturday and Sunday only | "weekends" only when Monday to Friday are all clear, otherwise "custom" | not executed; high | ScheduleForm.ClassifyAsWritten, ScheduleForm.ClassifyAsWrittenLosesMonday | ScheduleForm.Classify, ScheduleForm.LoadThenSaveKeepsMask |
| app/src/main/java/com/espressif/ui/viewmodels/DispenserViewModel.java:134 | the type is compared with `==` (object identity), here, at lines 143, 152 and 161, and in the liquid branch of `updateCompartmentAfterDispense` at line 221 | a pill medication in compartment A, scheduled today, whose type string was read from the database rather than taken from the constant: it is not counted; a 5 ml dose of such a liquid medication is not added to the liquid gauge | `equals`: compare the type's characters | not executed; medium | Dispenser.ContributesAsWritten, Dispenser.DatabaseTypeNotCountedAsWritten, Dispenser.AfterDispenseAsWritten, Dispenser.DatabaseLiquidDoseNotCountedAsWritten | Dispenser.UpdateCompartmentStatus, Dispenser.AfterDispense |
| app/src/main/java/com/espressif/data/repository/UserRepository.java:711-727 | the asynchronous `get()` listener fires after the method has returned `patientId[0]`, which is still null | a family account with no connected patient and an id mapped in `auth_mappings`: `getSelectedPatientId` returns null | wait for the mapping and return it (and save it, as lines 684-696 intend) | not executed; high | UserRepository.SelectedPatientIdAsWritten, UserRepository.MappedIdIgnoredAsWritten | UserRepository.SelectedPatientId, UserRepository.AsWrittenLosesOnlyTheMapping |
| app/src/main/java/com/espressif/provision/utils/UPnPDevice.java:76-85 | `indexOf("ST: ")` finds the first occurrence anywhere, including the tail of a "HOST: " line | an answer whose "HOST: h" line precedes "ST: t" gives "h" as the search target | match the key at the start of a header line | not executed; medium (SSDP answers rarely carry HOST) | UPnP.ParseHeaderAsWritten, UPnP.StReadFromHostAsWritten, UPnP.NewDeviceAsWritten, UPnP.NewDeviceFromHostFirstAsWritten | UPnP.ParseHeader, UPnP.StReadFromOwnLine, UPnP.NewDevice, UPnP.NewDeviceFromHostFirst, UPnP.NewDeviceReadsResponse |
| app/src/main/java/com/espressif/ui/dialogs/ScheduleDialogFragment.java:498 | `setIntervalMode(true)` is the only write of the flag: saving any other frequency leaves an earlier interval flag in place | an interval schedule reopened and saved as "weekdays": Monday to Friday are stored, but the schedule still reopens as "interval" and is synced with interval mode on | the flag follows the chosen frequency | not executed; high | ScheduleForm.SaveScheduleAsWritten, ScheduleForm.SaveAsWrittenKeepsIntervalFlag | ScheduleForm.SaveSchedule, ScheduleForm.SaveThenReopenKeepsDays |

=== FILE: compartments.dfy ===
/** The dispenser's slot allocator (`CompartmentManager.java`): four slots,
    1..3 for pills and 4 for liquid, an occupancy array of five entries
    (index 0 unused) and a map from medication id to slot. The singleton is
    an immutable value; each mutator returns the next state. */
module Compartments {
  import opened Wrappers
  import MT = MedicationType
  import opened Medications

  const TOTAL_PILL_COMPARTMENTS: int := 3
  const TOTAL_COMPARTMENTS: int := 4

  type Slots = s: seq<bool> | |s| == TOTAL_COMPARTMENTS + 1 witness [false, false, false, false, false]

  datatype Occupancy = Occupancy(occupied: Slots, slotOf: map<string, int>)

  predicate InRange(n: int) {
    0 < n <= TOTAL_COMPARTMENTS
  }

  /** The freshly constructed manager: nothing occupied, nothing slotOf. */
  const EMPTY: Occupancy := Occupancy([false, false, false, false, false], map[])

  /** Every assignment names a slot that exists and is marked occupied, and
      no two medications share a slot. */
  predicate Sound(s: Occupancy) {
    && (forall id :: id in s.slotOf ==> InRange(s.slotOf[id]) && s.occupied[s.slotOf[id]])
    && (forall a, b :: a in s.slotOf && b in s.slotOf && s.slotOf[a] == s.slotOf[b] ==> a == b)
  }

  // ---------------------------------------------------------------------
  // Queries

  function IsOccupied(s: Occupancy, n: int): (r: bool)
    ensures r ==> InRange(n)
    ensures InRange(n) ==> (r <==> s.occupied[n])
  {
    n > 0 && n <= TOTAL_COMPARTMENTS && s.occupied[n]
  }

  /** `getMedicationCompartment`: the slotOf slot, or -1. */
  function MedicationCompartment(s: Occupancy, id: string): (r: int)
    ensures id !in s.slotOf ==> r == -1
    ensures id in s.slotOf ==> r == s.slotOf[id]
    ensures Sound(s) ==> (r == -1 <==> id !in s.slotOf)
    ensures Sound(s) && r != -1 ==> IsOccupied(s, r)
  {
    if id in s.slotOf then s.slotOf[id] else -1
  }

  /** `isCompartmentAvailableForType`: in range, free, and of the right kind. */
  function IsAvailableForType(s: Occupancy, n: int, medType: string): (r: bool)
    ensures r <==> InRange(n) && !s.occupied[n] && MT.IsCompatibleWithCompartment(medType, n)
  {
    if n <= 0 || n > TOTAL_COMPARTMENTS then false
    else if s.occupied[n] then false
    else if medType == MT.PILL then n <= TOTAL_PILL_COMPARTMENTS
    else if medType == MT.LIQUID then n == TOTAL_PILL_COMPARTMENTS + 1
    else false
  }

  /** `getAvailableCompartments`: the free slots of the type's kind, in
      ascending order. */
  method AvailableCompartments(s: Occupancy, medType: string) returns (r: seq<int>)
    ensures forall n :: n in r <==> IsAvailableForType(s, n, medType)
    ensures forall i, j :: 0 <= i < j < |r| ==> r[i] < r[j]
    ensures medType == MT.LIQUID ==> r == (if s.occupied[4] then [] else [4])
    ensures medType != MT.PILL && medType != MT.LIQUID ==> r == []
  {
    r := [];
    if medType == MT.PILL {
      var i := 1;
      while i <= TOTAL_PILL_COMPARTMENTS
        invariant 1 <= i <= TOTAL_PILL_COMPARTMENTS + 1
        invariant forall n :: n in r <==> 1 <= n < i && !s.occupied[n]
        invariant forall a, b :: 0 <= a < b < |r| ==> r[a] < r[b]
        invariant forall a :: 0 <= a < |r| ==> r[a] < i
      {
        if !s.occupied[i] {
          r := r + [i];
        }
        i := i + 1;
      }
    } else if medType == MT.LIQUID {
      var liquid := TOTAL_PILL_COMPARTMENTS + 1;
      if !s.occupied[liquid] {
        r := r + [liquid];
      }
    }
  }

  /** `hasAvailableCompartments`: the available list is non-empty. */
  method HasAvailableCompartments(s: Occupancy, medType: string) returns (r: bool)
    ensures r <==> exists n :: 1 <= n <= TOTAL_COMPARTMENTS && IsAvailableForType(s, n, medType)
  {
    var available := AvailableCompartments(s, medType);
    r := |available| != 0;
    if r {
      assert IsAvailableForType(s, available[0], medType);
    }
  }

  // ---------------------------------------------------------------------
  // Transitions

  /** `occupyCompartment`: a no-op out of range or for a null id. */
  function Occupy(s: Occupancy, n: int, id: Option<string>): (r: Occupancy)
    ensures !InRange(n) || id.None? ==> r == s
    ensures InRange(n) && id.Some? ==>
      && r.occupied == s.occupied[n := true]
      && r.slotOf == s.slotOf[id.value := n]
  {
    if n > 0 && n <= TOTAL_COMPARTMENTS && id.Some? then
      Occupancy(s.occupied[n := true], s.slotOf[id.value := n])
    else s
  }

  /** The first key of `order` that the map sends to `n`; `order` stands for
      the map's entry-set iteration order. */
  function FirstKeyWithValue(order: seq<string>, m: map<string, int>, n: int): (r: Option<string>)
    ensures r.Some? ==> r.value in order && r.value in m && m[r.value] == n
    ensures r.None? <==> forall k :: k in order && k in m ==> m[k] != n
  {
    if |order| == 0 then None
    else if order[0] in m && m[order[0]] == n then Some(order[0])
    else FirstKeyWithValue(order[1..], m, n)
  }

  /** `freeCompartment`: clears slot `n` and drops the first medication found
      on it; out of range it is a no-op. */
  function Free(s: Occupancy, n: int, order: seq<string>): (r: Occupancy)
    requires forall k :: k in s.slotOf <==> k in order
    ensures !InRange(n) ==> r == s
    ensures InRange(n) ==> r.occupied == s.occupied[n := false]
    ensures InRange(n) ==> r.slotOf.Keys <= s.slotOf.Keys
    ensures InRange(n) ==> |s.slotOf.Keys - r.slotOf.Keys| <= 1
    ensures InRange(n) ==> forall k :: k in s.slotOf - r.slotOf.Keys ==> s.slotOf[k] == n
    ensures InRange(n) ==> forall k :: k in r.slotOf ==> r.slotOf[k] == s.slotOf[k]
    ensures InRange(n) && (exists k :: k in s.slotOf && s.slotOf[k] == n) ==>
      exists k :: k in s.slotOf && s.slotOf[k] == n && r.slotOf == s.slotOf - {k}
  {
    if n > 0 && n <= TOTAL_COMPARTMENTS then
      var victim := FirstKeyWithValue(order, s.slotOf, n);
      var slotOf := if victim.Some? then s.slotOf - {victim.value} else s.slotOf;
      assert victim.Some? ==> s.slotOf.Keys - slotOf.Keys == {victim.value};
      Occupancy(s.occupied[n := false], slotOf)
    else s
  }

  /** `freeMedicationCompartment`: frees the id's slot and forgets the id;
      an unknown or null id changes nothing. */
  function FreeMedication(s: Occupancy, id: Option<string>): (r: Occupancy)
    requires id.Some? && id.value in s.slotOf ==> 0 <= s.slotOf[id.value] < |s.occupied|
    ensures id.None? || id.value !in s.slotOf ==> r == s
    ensures id.Some? && id.value in s.slotOf ==>
      && r.occupied == s.occupied[s.slotOf[id.value] := false]
      && r.slotOf == s.slotOf - {id.value}
  {
    if id.Some? && id.value in s.slotOf then
      Occupancy(s.occupied[s.slotOf[id.value] := false], s.slotOf - {id.value})
    else s
  }

  /** The slot and id a medication contributes to `refreshOccupation`. */
  predicate Placed(m: Medication) {
    InRange(m.compartmentNumber) && m.id.Some?
  }

  /** `m` is placed and belongs to medication `id`. */
  predicate PlacesId(m: Medication, id: string) {
    Placed(m) && m.id == Some(id)
  }

  /** The slot of the last placed entry of `meds` for `id`: with duplicate
      ids, the later entry's `put` wins. */
  function LastSlot(meds: seq<Medication>, id: string): (r: Option<int>)
    ensures r.None? <==> forall i :: 0 <= i < |meds| ==> !PlacesId(meds[i], id)
    ensures r.Some? ==> InRange(r.value)
    decreases |meds|
  {
    if |meds| == 0 then None
    else if PlacesId(meds[|meds| - 1], id) then Some(meds[|meds| - 1].compartmentNumber)
    else
      var r := LastSlot(meds[..|meds| - 1], id);
      assert forall i :: 0 <= i < |meds| - 1 ==> meds[..|meds| - 1][i] == meds[i];
      r
  }

  /** When `LastSlot` finds a slot, it is the slot of the last entry
      placed for `id`. */
  lemma {:induction false} LastSlotIsLast(meds: seq<Medication>, id: string)
    ensures LastSlot(meds, id).Some? ==>
      exists i :: 0 <= i < |meds| && PlacesId(meds[i], id) && meds[i].compartmentNumber == LastSlot(meds, id).value &&
                  (forall j :: i < j < |meds| ==> !PlacesId(meds[j], id))
    decreases |meds|
  {
    if |meds| > 0 {
      var n := |meds| - 1;
      if PlacesId(meds[n], id) {
        assert PlacesId(meds[n], id) && meds[n].compartmentNumber == LastSlot(meds, id).value;
      } else {
        var init := meds[..n];
        LastSlotIsLast(init, id);
        assert forall i :: 0 <= i < n ==> init[i] == meds[i];
        if LastSlot(init, id).Some? {
          var i :| 0 <= i < n && PlacesId(init[i], id) && init[i].compartmentNumber == LastSlot(init, id).value &&
                   (forall j :: i < j < n ==> !PlacesId(init[j], id));
          assert PlacesId(meds[i], id) && meds[i].compartmentNumber == LastSlot(meds, id).value;
        }
      }
    }
  }

  /** The marks and assignments of `meds`, applied in list order on top of `s`. */
  function Place(s: Occupancy, meds: seq<Medication>): (r: Occupancy)
    ensures forall n :: InRange(n) ==>
      (r.occupied[n] <==> s.occupied[n] || exists i :: 0 <= i < |meds| && Placed(meds[i]) && meds[i].compartmentNumber == n)
    ensures r.occupied[0] == s.occupied[0]
    ensures forall id :: id in r.slotOf <==>
      id in s.slotOf || exists i :: 0 <= i < |meds| && Placed(meds[i]) && meds[i].id == Some(id)
    decreases |meds|
  {
    if |meds| == 0 then s
    else
      var last := meds[|meds| - 1];
      var init := Place(s, meds[..|meds| - 1]);
      assert forall i :: 0 <= i < |meds| - 1 ==> meds[..|meds| - 1][i] == meds[i];
      Occupy(init, last.compartmentNumber, last.id)
  }

  /** Placing assigns each medication the slot of its last placed entry;
      ids without one keep their earlier slot. */
  lemma {:induction false} PlaceAssignsLastSlot(s: Occupancy, meds: seq<Medication>, id: string)
    ensures id in Place(s, meds).slotOf ==>
              Place(s, meds).slotOf[id] == (if LastSlot(meds, id).Some? then LastSlot(meds, id).value else s.slotOf[id])
    decreases |meds|
  {
    if |meds| > 0 {
      var last := meds[|meds| - 1];
      var init := meds[..|meds| - 1];
      if !PlacesId(last, id) {
        assert LastSlot(meds, id) == LastSlot(init, id);
        PlaceAssignsLastSlot(s, init, id);
      }
    }
  }

  /** `refreshOccupation`: clear slots 1..4 and the map, then mark every
      medication that has a slot in 1..4 and an id. */
  function Refresh(s: Occupancy, meds: Option<seq<Medication>>): (r: Occupancy)
    ensures r.occupied[0] == s.occupied[0]
    ensures forall n :: InRange(n) ==>
      (r.occupied[n] <==> meds.Some? && exists i :: 0 <= i < |meds.value| && Placed(meds.value[i]) && meds.value[i].compartmentNumber == n)
    ensures forall id :: id in r.slotOf <==>
      meds.Some? && exists i :: 0 <= i < |meds.value| && Placed(meds.value[i]) && meds.value[i].id == Some(id)
    ensures forall id :: id in r.slotOf ==> LastSlot(meds.value, id) == Some(r.slotOf[id])
  {
    var cleared := Occupancy([s.occupied[0], false, false, false, false], map[]);
    if meds.Some? then
      var r := Place(cleared, meds.value);
      forall id | id in r.slotOf
        ensures LastSlot(meds.value, id) == Some(r.slotOf[id])
      {
        PlaceAssignsLastSlot(cleared, meds.value, id);
      }
      r
    else cleared
  }

  // ---------------------------------------------------------------------
  // Properties

  /** Every assignment the allocator makes points at a slot 1..4. */
  predicate AssignmentsInRange(s: Occupancy) {
    forall id :: id in s.slotOf ==> InRange(s.slotOf[id])
  }

  lemma {:induction false} PlaceKeepsAssignmentsInRange(s: Occupancy, meds: seq<Medication>)
    requires AssignmentsInRange(s)
    ensures AssignmentsInRange(Place(s, meds))
    decreases |meds|
  {
    if |meds| > 0 {
      PlaceKeepsAssignmentsInRange(s, meds[..|meds| - 1]);
    }
  }

  /** Whatever the list, the refreshed map only names real slots. */
  lemma RefreshAssignsInRange(s: Occupancy, meds: Option<seq<Medication>>)
    ensures AssignmentsInRange(Refresh(s, meds))
  {
    if meds.Some? {
      PlaceKeepsAssignmentsInRange(Occupancy([s.occupied[0], false, false, false, false], map[]), meds.value);
    }
  }

  /** Occupying a free slot with a medication that holds none keeps the
      state sound. */
  lemma OccupyFreeSlotKeepsSound(s: Occupancy, n: int, id: string)
    requires Sound(s)
    requires InRange(n) && !s.occupied[n] && id !in s.slotOf
    ensures Sound(Occupy(s, n, Some(id)))
  {
  }

  /** Freeing a slot keeps the state sound. */
  lemma FreeKeepsSound(s: Occupancy, n: int, order: seq<string>)
    requires Sound(s)
    requires forall k :: k in s.slotOf <==> k in order
    ensures Sound(Free(s, n, order))
  {
  }

  /** Freeing a medication keeps the state sound. */
  lemma FreeMedicationKeepsSound(s: Occupancy, id: Option<string>)
    requires Sound(s)
    ensures Sound(FreeMedication(s, id))
  {
  }

  /** Occupying a free slot with a new medication and then freeing that
      medication restores the allocator exactly. */
  lemma OccupyThenFreeMedication(s: Occupancy, n: int, id: string)
    requires InRange(n) && !s.occupied[n] && id !in s.slotOf
    ensures FreeMedication(Occupy(s, n, Some(id)), Some(id)) == s
  {
    var o := Occupy(s, n, Some(id));
    assert o.occupied[n := false] == s.occupied;
    assert o.slotOf - {id} == s.slotOf;
  }

  /** After occupying, the slot is taken, the id reports it, and the slot is
      no longer offered to any type. */
  lemma OccupyThenQuery(s: Occupancy, n: int, id: string, medType: string)
    requires InRange(n)
    ensures var r := Occupy(s, n, Some(id));
      IsOccupied(r, n) && MedicationCompartment(r, id) == n && !IsAvailableForType(r, n, medType)
  {
  }
}

=== FILE: countdown.dfy ===
/** The "time until next dose" label of the schedule list
    (`ScheduleAdapter.formatCountdown`). The label is first planned as
    numbers and unit letters, then rendered as text. */
module Countdown {
  import opened Wrappers
  import JavaInt

  const MINUTE_MILLIS: int := 60 * 1000
  const HOUR_MILLIS: int := 60 * MINUTE_MILLIS
  const DAY_MILLIS: int := 24 * HOUR_MILLIS

  /** Whole days, hours of the day and minutes of the hour in `t`. */
  datatype Parts = Parts(days: int, hours: int, minutes: int)

  function Decompose(t: int): (p: Parts)
    requires t > 0
    ensures p.days >= 0 && 0 <= p.hours < 24 && 0 <= p.minutes < 60
    ensures p.days * DAY_MILLIS + p.hours * HOUR_MILLIS + p.minutes * MINUTE_MILLIS <= t
    ensures t < p.days * DAY_MILLIS + p.hours * HOUR_MILLIS + (p.minutes + 1) * MINUTE_MILLIS
  {
    var days := t / DAY_MILLIS;
    var afterDays := t % DAY_MILLIS;
    var hours := afterDays / HOUR_MILLIS;
    var afterHours := afterDays % HOUR_MILLIS;
    Parts(days, hours, afterHours / MINUTE_MILLIS)
  }

  /** One number with its unit letter, such as 3 and 'h'. */
  datatype Amount = Amount(n: int, unit: char)

  datatype Label = Now | UnderMinute | Shown(first: Amount, second: Option<Amount>)

  function UnitMillis(unit: char): int {
    if unit == 'd' then DAY_MILLIS else if unit == 'h' then HOUR_MILLIS else MINUTE_MILLIS
  }

  /** The decision part of `formatCountdown`. */
  function Plan(t: int): (l: Label)
    ensures l == Now <==> t <= 0
    ensures l == UnderMinute <==> 0 < t < MINUTE_MILLIS
    ensures l.Shown? ==> l.first.n > 0
    ensures l.Shown? ==> (l.first.unit == 'd' <==> t >= DAY_MILLIS)
    ensures l.Shown? && l.first.unit == 'd' ==>
      l.first.n == t / DAY_MILLIS &&
      (l.second.Some? <==> l.first.n <= 2 && (t % DAY_MILLIS) / HOUR_MILLIS > 0)
    ensures l.Shown? && l.first.unit == 'h' ==>
      HOUR_MILLIS <= t < DAY_MILLIS && l.first.n == t / HOUR_MILLIS &&
      (l.second.Some? <==> l.first.n < 10 && (t % HOUR_MILLIS) / MINUTE_MILLIS > 0)
    ensures l.Shown? && l.first.unit == 'm' ==>
      MINUTE_MILLIS <= t < HOUR_MILLIS && l.first.n == t / MINUTE_MILLIS && l.second.None?
    ensures l.Shown? ==> l.first.unit in "dhm"
    ensures l.Shown? && l.second.Some? ==>
      l.second.value.n > 0 && l.second.value.unit == (if l.first.unit == 'd' then 'h' else 'm')
  {
    if t <= 0 then Now
    else
      var p := Decompose(t);
      if p.days > 0 then
        Shown(Amount(p.days, 'd'), if p.days <= 2 && p.hours > 0 then Some(Amount(p.hours, 'h')) else None)
      else if p.hours > 0 then
        Shown(Amount(p.hours, 'h'), if p.hours < 10 && p.minutes > 0 then Some(Amount(p.minutes, 'm')) else None)
      else if p.minutes > 0 then
        Shown(Amount(p.minutes, 'm'), None)
      else
        UnderMinute
  }

  /** The time a label stands for. */
  function LabelMillis(l: Label): int {
    match l
    case Now => 0
    case UnderMinute => 0
    case Shown(first, second) =>
      first.n * UnitMillis(first.unit) + (if second.Some? then second.value.n * UnitMillis(second.value.unit) else 0)
  }

  /** How far below the true remaining time a label may be: a day when more
      than two days are left, an hour while hours are shown without
      minutes, a minute otherwise. */
  function Granularity(l: Label): int {
    match l
    case Now => 0
    case UnderMinute => MINUTE_MILLIS
    case Shown(first, _) =>
      if first.unit == 'd' && first.n > 2 then DAY_MILLIS
      else if first.unit == 'd' || (first.unit == 'h' && first.n >= 10) then HOUR_MILLIS
      else MINUTE_MILLIS
  }

  /** The countdown never overstates the remaining time, and falls short by
      less than its granularity. */
  lemma PlanApproximates(t: int)
    requires t > 0
    ensures LabelMillis(Plan(t)) <= t < LabelMillis(Plan(t)) + Granularity(Plan(t))
  {
    var p := Decompose(t);
    if p.days > 2 {
      assert p.hours * HOUR_MILLIS + (p.minutes + 1) * MINUTE_MILLIS <= DAY_MILLIS;
    } else if p.days > 0 || p.hours >= 10 {
      assert p.minutes + 1 <= 60;
    }
  }

  function AmountText(a: Amount): string
    requires a.n >= 0
  {
    JavaInt.NatToString(a.n) + [a.unit]
  }

  /** The `StringBuilder` part of `formatCountdown`. */
  function Render(l: Label): (r: string)
    requires l.Shown? ==> l.first.n >= 0 && (l.second.Some? ==> l.second.value.n >= 0)
    ensures l.Shown? ==> |r| >= 3 && r[..3] == "En "
    ensures r == "Ahora" <==> l == Now
    ensures r == "<1m" <==> l == UnderMinute
  {
    match l
    case Now => "Ahora"
    case UnderMinute => "<1m"
    case Shown(first, second) =>
      var r := "En " + AmountText(first) + (if second.Some? then " " + AmountText(second.value) else "");
      assert r[0] == 'E';
      r
  }

  /** `formatCountdown`. */
  function FormatCountdown(t: int): (r: string)
    ensures t <= 0 <==> r == "Ahora"
    ensures 0 < t < MINUTE_MILLIS <==> r == "<1m"
    ensures t >= MINUTE_MILLIS ==> |r| >= 3 && r[..3] == "En "
  {
    Render(Plan(t))
  }

  // ---------------------------------------------------------------------
  // Reading a label back

  /** The number of leading decimal digits of `s`. */
  function LeadingDigits(s: string): (k: nat)
    ensures k <= |s|
    ensures JavaInt.AllDigits(s[..k])
    ensures k < |s| ==> !JavaInt.IsDigit(s[k])
  {
    if |s| == 0 || !JavaInt.IsDigit(s[0]) then 0
    else
      var k := 1 + LeadingDigits(s[1..]);
      assert s[..k] == [s[0]] + s[1..][..k - 1];
      k
  }

  lemma LeadingDigitsOfNumber(n: nat, rest: string)
    requires |rest| > 0 && !JavaInt.IsDigit(rest[0])
    ensures LeadingDigits(JavaInt.NatToString(n) + rest) == |JavaInt.NatToString(n)|
  {
    var d := JavaInt.NatToString(n);
    LeadingDigitsOfDigits(d, rest);
  }

  lemma {:induction false} LeadingDigitsOfDigits(d: string, rest: string)
    requires JavaInt.AllDigits(d)
    requires |rest| > 0 && !JavaInt.IsDigit(rest[0])
    ensures LeadingDigits(d + rest) == |d|
    decreases |d|
  {
    if |d| > 0 {
      assert (d + rest)[1..] == d[1..] + rest;
      assert JavaInt.IsDigit(d[0]);
      LeadingDigitsOfDigits(d[1..], rest);
    } else {
      assert d + rest == rest;
    }
  }

  /** Reads "<digits><unit>" at the front of `s`, returning the rest. */
  function ParseAmount(s: string): Option<(Amount, string)> {
    var k := LeadingDigits(s);
    if 0 < k < |s| then Some((Amount(JavaInt.DigitsValue(s[..k]), s[k]), s[k + 1..]))
    else None
  }

  lemma ParseAmountText(a: Amount, rest: string)
    requires a.n >= 0 && !JavaInt.IsDigit(a.unit)
    ensures ParseAmount(AmountText(a) + rest) == Some((a, rest))
  {
    var d := JavaInt.NatToString(a.n);
    var s := AmountText(a) + rest;
    assert s == d + ([a.unit] + rest);
    LeadingDigitsOfNumber(a.n, [a.unit] + rest);
    assert s[..|d|] == d;
    JavaInt.NatToStringValue(a.n);
    assert s[|d| + 1..] == rest;
  }

  /** Reads a rendered label back into its numbers and units. */
  function ParseLabel(s: string): Option<Label> {
    if s == "Ahora" then Some(Now)
    else if s == "<1m" then Some(UnderMinute)
    else if |s| >= 3 && s[..3] == "En " then
      match ParseAmount(s[3..])
      case None => None
      case Some((first, rest)) =>
        if rest == [] then Some(Shown(first, None))
        else if rest[0] == ' ' then
          match ParseAmount(rest[1..])
          case Some((second, more)) => if more == [] then Some(Shown(first, Some(second))) else None
          case None => None
        else None
    else None
  }

  /** The label text loses nothing: it reads back to the planned numbers
      and units. */
  lemma FormatCountdownParses(t: int)
    ensures ParseLabel(FormatCountdown(t)) == Some(Plan(t))
  {
    var l := Plan(t);
    if l.Shown? {
      var s := FormatCountdown(t);
      var tail := if l.second.Some? then " " + AmountText(l.second.value) else "";
      assert s == "En " + (AmountText(l.first) + tail);
      assert s[3..] == AmountText(l.first) + tail;
      ParseAmountText(l.first, tail);
      if l.second.Some? {
        assert tail[1..] == AmountText(l.second.value) + [];
        ParseAmountText(l.second.value, []);
      }
    }
  }
}

=== FILE: dispenser.dfy ===
/** The dispenser screen's view model (`DispenserViewModel.java`): the four
    compartment gauges, the medication list filter, the order by next dose
    and the screen state. The calendar day is a parameter. */
module Dispenser {
  import opened Wrappers
  import JavaInt
  import MT = MedicationType
  import opened Schedules
  import opened Medications

  // ---------------------------------------------------------------------
  // Gauges

  datatype CompartmentData = CompartmentData(taken: int, total: int)

  /** `getRemaining`: what is left once the taken amount is removed. */
  function Remaining(c: CompartmentData): (r: int)
    ensures r + c.taken == c.total
    ensures r >= 0 <==> c.taken <= c.total
  {
    c.total - c.taken
  }

  datatype Gauge = GaugeA | GaugeB | GaugeC | GaugeLiquid

  /** The four gauges of the screen. */
  datatype Gauges = Gauges(a: CompartmentData, b: CompartmentData, c: CompartmentData, liquid: CompartmentData)

  function Get(g: Gauges, which: Gauge): CompartmentData {
    match which
    case GaugeA => g.a
    case GaugeB => g.b
    case GaugeC => g.c
    case GaugeLiquid => g.liquid
  }

  /** The values the gauges start with. */
  const INITIAL: Gauges := Gauges(CompartmentData(0, 4), CompartmentData(0, 3), CompartmentData(0, 2), CompartmentData(0, 300))

  /** The compartment letter a gauge listens to. */
  function Letter(which: Gauge): string {
    match which
    case GaugeA => "A"
    case GaugeB => "B"
    case GaugeC => "C"
    case GaugeLiquid => "LIQUID"
  }

  /** The medication type a gauge counts. */
  function GaugeType(which: Gauge): string {
    if which == GaugeLiquid then MT.LIQUID else MT.PILL
  }

  /** `hasTodaySchedule`: some active schedule is set for today. */
  predicate HasTodaySchedule(m: Medication, calendarDay: int)
    requires SchedulesReadable(m)
    requires 1 <= calendarDay <= 7
  {
    exists i :: 0 <= i < |m.schedules| && m.schedules[i].active && IsForToday(m.schedules[i], calendarDay)
  }

  /** A medication adds to a gauge when it is scheduled today, sits in the
      gauge's compartment and has the gauge's type. */
  predicate Contributes(m: Medication, which: Gauge, calendarDay: int)
    requires SchedulesReadable(m)
    requires 1 <= calendarDay <= 7
  {
    HasTodaySchedule(m, calendarDay) && m.compartment == Some(Letter(which)) && m.medType == GaugeType(which)
  }

  /** What a medication adds to a gauge: doses for pills, volume for liquid. */
  function Amount(m: Medication, which: Gauge): CompartmentData {
    if which == GaugeLiquid then CompartmentData(m.volumeTaken, m.totalVolume)
    else CompartmentData(m.dosesTaken, m.totalDoses)
  }

  function Plus(x: CompartmentData, y: CompartmentData): CompartmentData {
    CompartmentData(x.taken + y.taken, x.total + y.total)
  }

  /** No medication of the list adds to the gauge. */
  predicate NoContributor(meds: seq<Medication>, which: Gauge, calendarDay: int)
    requires AllSchedulesReadable(meds)
    requires 1 <= calendarDay <= 7
  {
    forall i :: 0 <= i < |meds| ==> !Contributes(meds[i], which, calendarDay)
  }

  /** The gauge's unclamped sums over the list. */
  function Tally(meds: seq<Medication>, which: Gauge, calendarDay: int): (r: CompartmentData)
    requires AllSchedulesReadable(meds)
    requires 1 <= calendarDay <= 7
    decreases |meds|
  {
    if |meds| == 0 then CompartmentData(0, 0)
    else
      var last := meds[|meds| - 1];
      var init := Tally(meds[..|meds| - 1], which, calendarDay);
      if Contributes(last, which, calendarDay) then Plus(init, Amount(last, which)) else init
  }

  /** Tallies add up over concatenated lists, so the sums do not depend on
      how the list is split. */
  lemma {:induction false} TallyAppend(xs: seq<Medication>, ys: seq<Medication>, which: Gauge, calendarDay: int)
    requires AllSchedulesReadable(xs) && AllSchedulesReadable(ys)
    requires 1 <= calendarDay <= 7
    ensures AllSchedulesReadable(xs + ys)
    ensures Tally(xs + ys, which, calendarDay) == Plus(Tally(xs, which, calendarDay), Tally(ys, which, calendarDay))
    decreases |ys|
  {
    var zs := xs + ys;
    ReadableAppend(xs, ys);
    if |ys| == 0 {
      assert zs == xs;
    } else {
      var ys' := ys[..|ys| - 1];
      ReadablePrefix(ys);
      assert zs[..|zs| - 1] == xs + ys';
      assert zs[|zs| - 1] == ys[|ys| - 1];
      TallyAppend(xs, ys', which, calendarDay);
      TallyLast(zs, which, calendarDay);
      TallyLast(ys, which, calendarDay);
    }
  }

  /** A list in which no medication adds to the gauge tallies to zero. */
  lemma {:induction false} TallyWithoutContributors(meds: seq<Medication>, which: Gauge, calendarDay: int)
    requires AllSchedulesReadable(meds)
    requires 1 <= calendarDay <= 7
    ensures NoContributor(meds, which, calendarDay) ==> Tally(meds, which, calendarDay) == CompartmentData(0, 0)
    decreases |meds|
  {
    if |meds| > 0 && NoContributor(meds, which, calendarDay) {
      ReadablePrefix(meds);
      assert NoContributor(meds[..|meds| - 1], which, calendarDay);
      TallyWithoutContributors(meds[..|meds| - 1], which, calendarDay);
    }
  }

  /** One step of the tally: the last medication is added to the tally of the rest. */
  lemma TallyLast(zs: seq<Medication>, which: Gauge, calendarDay: int)
    requires AllSchedulesReadable(zs) && |zs| > 0
    requires 1 <= calendarDay <= 7
    ensures AllSchedulesReadable(zs[..|zs| - 1])
    ensures var init := Tally(zs[..|zs| - 1], which, calendarDay);
      Tally(zs, which, calendarDay) ==
        if Contributes(zs[|zs| - 1], which, calendarDay) then Plus(init, Amount(zs[|zs| - 1], which)) else init
  {
    ReadablePrefix(zs);
  }

  lemma ReadablePrefix(zs: seq<Medication>)
    requires AllSchedulesReadable(zs) && |zs| > 0
    ensures AllSchedulesReadable(zs[..|zs| - 1])
  {
  }

  lemma ReadableAppend(xs: seq<Medication>, ys: seq<Medication>)
    requires AllSchedulesReadable(xs) && AllSchedulesReadable(ys)
    ensures AllSchedulesReadable(xs + ys)
  {
    var zs := xs + ys;
    forall i | 0 <= i < |zs| ensures SchedulesReadable(zs[i]) {
      if i < |xs| { assert zs[i] == xs[i]; } else { assert zs[i] == ys[i - |xs|]; }
    }
  }

  /** A medication that is not scheduled today leaves every gauge alone. */
  lemma {:induction false} TallyIgnoresNotToday(meds: seq<Medication>, m: Medication, which: Gauge, calendarDay: int)
    requires AllSchedulesReadable(meds) && SchedulesReadable(m)
    requires 1 <= calendarDay <= 7
    requires !HasTodaySchedule(m, calendarDay)
    ensures AllSchedulesReadable(meds + [m])
    ensures Tally(meds + [m], which, calendarDay) == Tally(meds, which, calendarDay)
  {
    var zs := meds + [m];
    assert zs[..|zs| - 1] == meds;
    assert zs[|zs| - 1] == m;
  }

  /** `Math.max(total, 1)`. */
  function AtLeastOne(c: CompartmentData): (r: CompartmentData)
    ensures r.taken == c.taken && r.total >= 1
    ensures c.total >= 1 ==> r == c
  {
    CompartmentData(c.taken, if c.total > 1 then c.total else 1)
  }

  /** `updateCompartmentStatus`, one pass over the list like the source. */
  method UpdateCompartmentStatus(meds: Option<seq<Medication>>, calendarDay: int) returns (g: Gauges)
    requires meds.Some? ==> AllSchedulesReadable(meds.value)
    requires 1 <= calendarDay <= 7
    ensures meds.None? || meds.value == [] ==>
      g == Gauges(CompartmentData(0, 1), CompartmentData(0, 1), CompartmentData(0, 1), CompartmentData(0, 1))
    ensures meds.Some? ==> forall which :: Get(g, which) == AtLeastOne(Tally(meds.value, which, calendarDay))
    ensures forall which :: Get(g, which).total >= 1
  {
    if meds.None? || |meds.value| == 0 {
      var empty := CompartmentData(0, 1);
      return Gauges(empty, empty, empty, empty);
    }
    var list := meds.value;
    var a, b, c, liquid := CompartmentData(0, 0), CompartmentData(0, 0), CompartmentData(0, 0), CompartmentData(0, 0);
    var i := 0;
    while i < |list|
      invariant 0 <= i <= |list|
      invariant AllSchedulesReadable(list[..i])
      invariant a == Tally(list[..i], GaugeA, calendarDay)
      invariant b == Tally(list[..i], GaugeB, calendarDay)
      invariant c == Tally(list[..i], GaugeC, calendarDay)
      invariant liquid == Tally(list[..i], GaugeLiquid, calendarDay)
    {
      var m := list[i];
      assert list[..i + 1][..i] == list[..i];
      assert list[..i + 1][i] == m;
      if HasTodaySchedule(m, calendarDay) && m.compartment.Some? {
        var letter := m.compartment.value;
        if letter == "A" {
          if m.medType == MT.PILL { a := Plus(a, Amount(m, GaugeA)); }
        } else if letter == "B" {
          if m.medType == MT.PILL { b := Plus(b, Amount(m, GaugeB)); }
        } else if letter == "C" {
          if m.medType == MT.PILL { c := Plus(c, Amount(m, GaugeC)); }
        } else if letter == "LIQUID" {
          if m.medType == MT.LIQUID { liquid := Plus(liquid, Amount(m, GaugeLiquid)); }
        }
      }
      i := i + 1;
    }
    assert list[..i] == list;
    g := Gauges(AtLeastOne(a), AtLeastOne(b), AtLeastOne(c), AtLeastOne(liquid));
  }

  /** `updateCompartmentAfterDispense`: one more dose on A, B or C; one more
      dose volume on the liquid gauge, only for a liquid medication. */
  function AfterDispense(g: Gauges, m: Option<Medication>): (r: Gauges)
    ensures forall which :: Get(r, which).total == Get(g, which).total
    ensures m.None? || m.value.compartment.None? ==> r == g
    ensures m.Some? && m.value.compartment.Some? ==> forall which ::
      Get(r, which).taken == Get(g, which).taken +
        (if m.value.compartment.value != Letter(which) then 0
         else if which != GaugeLiquid then 1
         else if m.value.medType == MT.LIQUID then m.value.doseVolume
         else 0)
  {
    if m.None? || m.value.compartment.None? then g
    else
      var med := m.value;
      var letter := med.compartment.value;
      if letter == "A" then g.(a := CompartmentData(g.a.taken + 1, g.a.total))
      else if letter == "B" then g.(b := CompartmentData(g.b.taken + 1, g.b.total))
      else if letter == "C" then g.(c := CompartmentData(g.c.taken + 1, g.c.total))
      else if letter == "LIQUID" && med.medType == MT.LIQUID then
        g.(liquid := CompartmentData(g.liquid.taken + med.doseVolume, g.liquid.total))
      else g
  }

  /** The remaining amount on a pill gauge drops by exactly one per dispense. */
  lemma DispenseConsumesOneDose(g: Gauges, m: Medication, which: Gauge)
    requires which != GaugeLiquid && m.compartment == Some(Letter(which))
    ensures Remaining(Get(AfterDispense(g, Some(m)), which)) == Remaining(Get(g, which)) - 1
  {
  }

  // ---------------------------------------------------------------------
  // The gauges as the source compares types

  /** The gauges' type test as written: `getType() == MedicationType.PILL`
      compares references, so it holds only when the medication's type is
      the very constant object (`sharedTypeObject`), not merely equal text. */
  predicate ContributesAsWritten(m: Medication, which: Gauge, calendarDay: int, sharedTypeObject: bool)
    requires SchedulesReadable(m)
    requires 1 <= calendarDay <= 7
  {
    HasTodaySchedule(m, calendarDay) && m.compartment == Some(Letter(which))
      && sharedTypeObject && m.medType == GaugeType(which)
  }

  /** A pill medication in compartment A scheduled today, whose type string
      was read from the database (a separate object), is not counted on the
      A gauge as written, though it is counted once types are compared by
      value. */
  lemma DatabaseTypeNotCountedAsWritten()
    ensures var s := Schedule(Some("s"), Some("m"), 8, 0, Some(seq(7, _ => true)), true,
                              false, 0, 0, false, false, 0, 0, true, false, 0, 0);
      var m := Medication(Some("m"), "Ibuprofeno", "pill", Some("ABC123"), 1, Some("A"), 0, 2, 0, 0, 0, [s]);
      SchedulesReadable(m) &&
      !ContributesAsWritten(m, GaugeA, 2, false) && Contributes(m, GaugeA, 2)
  {
    var s := Schedule(Some("s"), Some("m"), 8, 0, Some(seq(7, _ => true)), true,
                      false, 0, 0, false, false, 0, 0, true, false, 0, 0);
    var m := Medication(Some("m"), "Ibuprofeno", "pill", Some("ABC123"), 1, Some("A"), 0, 2, 0, 0, 0, [s]);
    assert m.schedules[0].active && IsForToday(m.schedules[0], 2);
  }

  /** `updateCompartmentAfterDispense` as written: the liquid branch's type
      test also compares references, so a dose of a liquid medication whose
      type came from the database leaves the liquid gauge untouched. */
  function AfterDispenseAsWritten(g: Gauges, m: Option<Medication>, sharedTypeObject: bool): (r: Gauges)
    ensures sharedTypeObject ==> r == AfterDispense(g, m)
    ensures !sharedTypeObject ==> r.liquid == g.liquid
    ensures r.a == AfterDispense(g, m).a && r.b == AfterDispense(g, m).b && r.c == AfterDispense(g, m).c
  {
    if m.None? || m.value.compartment.None? then g
    else
      var med := m.value;
      var letter := med.compartment.value;
      if letter == "A" then g.(a := CompartmentData(g.a.taken + 1, g.a.total))
      else if letter == "B" then g.(b := CompartmentData(g.b.taken + 1, g.b.total))
      else if letter == "C" then g.(c := CompartmentData(g.c.taken + 1, g.c.total))
      else if letter == "LIQUID" && sharedTypeObject && med.medType == MT.LIQUID then
        g.(liquid := CompartmentData(g.liquid.taken + med.doseVolume, g.liquid.total))
      else g
  }

  /** A 5 ml dose of a liquid medication read from the database is not
      added to the liquid gauge as written; compared by value it is. */
  lemma DatabaseLiquidDoseNotCountedAsWritten(g: Gauges)
    ensures var m := Medication(Some("m"), "Jarabe", "liquid", Some("ABC123"), 4, Some("LIQUID"), 0, 0, 0, 100, 5, []);
      && AfterDispenseAsWritten(g, Some(m), false).liquid.taken == g.liquid.taken
      && AfterDispense(g, Some(m)).liquid.taken == g.liquid.taken + 5
  {
  }

  // ---------------------------------------------------------------------
  // Filtering

  datatype FilterType = All | Pills | Liquids | Today

  predicate Keep(m: Medication, f: FilterType, calendarDay: int)
    requires SchedulesReadable(m)
    requires 1 <= calendarDay <= 7
  {
    match f
    case All => true
    case Pills => m.medType == MT.PILL
    case Liquids => m.medType == MT.LIQUID
    case Today => HasTodaySchedule(m, calendarDay)
  }

  /** The filter loop of `updateMedicationsList`: the kept medications in
      their original order. */
  function Filter(meds: seq<Medication>, f: FilterType, calendarDay: int): (r: seq<Medication>)
    requires AllSchedulesReadable(meds)
    requires 1 <= calendarDay <= 7
    ensures |r| <= |meds|
    ensures forall m :: multiset(r)[m] == if SchedulesReadable(m) && Keep(m, f, calendarDay) then multiset(meds)[m] else 0
    ensures AllSchedulesReadable(r)
    decreases |meds|
  {
    if |meds| == 0 then []
    else
      var init := meds[..|meds| - 1];
      var last := meds[|meds| - 1];
      assert meds == init + [last];
      var rest := Filter(init, f, calendarDay);
      if Keep(last, f, calendarDay) then rest + [last] else rest
  }

  /** The "all" filter keeps the whole list. */
  lemma {:induction false} FilterAllKeepsEverything(meds: seq<Medication>, calendarDay: int)
    requires AllSchedulesReadable(meds)
    requires 1 <= calendarDay <= 7
    ensures Filter(meds, All, calendarDay) == meds
    decreases |meds|
  {
    if |meds| > 0 {
      FilterAllKeepsEverything(meds[..|meds| - 1], calendarDay);
      assert meds == meds[..|meds| - 1] + [meds[|meds| - 1]];
    }
  }

  // ---------------------------------------------------------------------
  // Ordering

  /** `getNextScheduledTime`: the earliest next dose over active schedules,
      or `Long.MAX_VALUE` when there is none. */
  function NextScheduledTime(schedules: seq<Schedule>): (r: int)
    ensures r <= JavaInt.LONG_MAX
    ensures forall i :: 0 <= i < |schedules| && schedules[i].active ==> r <= schedules[i].nextScheduled
    ensures r < JavaInt.LONG_MAX ==>
      exists i :: 0 <= i < |schedules| && schedules[i].active && schedules[i].nextScheduled == r
    decreases |schedules|
  {
    if |schedules| == 0 then JavaInt.LONG_MAX
    else
      var last := schedules[|schedules| - 1];
      var best := NextScheduledTime(schedules[..|schedules| - 1]);
      if last.active && last.nextScheduled < best then last.nextScheduled else best
  }

  /** Java's `String.compareTo`, reduced to its sign: the first differing
      character decides, otherwise the shorter string comes first. */
  function CompareNames(a: string, b: string): (r: int)
    ensures r == 0 <==> a == b
    ensures -1 <= r <= 1
  {
    if |a| == 0 || |b| == 0 then
      (if |a| < |b| then -1 else if |a| > |b| then 1 else 0)
    else if a[0] != b[0] then
      (if a[0] < b[0] then -1 else 1)
    else
      var r := CompareNames(a[1..], b[1..]);
      assert a == [a[0]] + a[1..] && b == [b[0]] + b[1..];
      r
  }

  /** Swapping the arguments flips the sign. */
  lemma {:induction false} CompareNamesAntisymmetric(a: string, b: string)
    ensures CompareNames(a, b) == -CompareNames(b, a)
    decreases |a|
  {
    if |a| > 0 && |b| > 0 && a[0] == b[0] {
      CompareNamesAntisymmetric(a[1..], b[1..]);
    }
  }

  lemma {:induction false} CompareNamesTransitive(a: string, b: string, c: string)
    requires CompareNames(a, b) <= 0 && CompareNames(b, c) <= 0
    ensures CompareNames(a, c) <= 0
    decreases |a|
  {
    if |a| > 0 && |b| > 0 && |c| > 0 && a[0] == b[0] && b[0] == c[0] {
      CompareNamesTransitive(a[1..], b[1..], c[1..]);
    }
  }

  /** `a` sorts before `b` lexicographically: after a common prefix of
      length `k`, either `a` ends while `b` goes on or `a`'s next character
      is the smaller one. */
  predicate LexLess(a: string, b: string) {
    exists k :: 0 <= k <= |a| && k <= |b| && a[..k] == b[..k] &&
      ((k == |a| && k < |b|) || (k < |a| && k < |b| && a[k] < b[k]))
  }

  /** The name order is the lexicographic order of `String.compareTo`. */
  lemma {:induction false} CompareNamesIsLexicographic(a: string, b: string)
    ensures CompareNames(a, b) < 0 <==> LexLess(a, b)
    decreases |a|
  {
    if |a| == 0 || |b| == 0 {
      if |a| == 0 && |b| > 0 {
        assert a[..0] == b[..0];
      }
    } else if a[0] != b[0] {
      if a[0] < b[0] {
        assert a[..0] == b[..0];
      } else if LexLess(a, b) {
        var k :| 0 <= k <= |a| && k <= |b| && a[..k] == b[..k] &&
          ((k == |a| && k < |b|) || (k < |a| && k < |b| && a[k] < b[k]));
        assert false;
      }
    } else {
      CompareNamesIsLexicographic(a[1..], b[1..]);
      if LexLess(a, b) {
        var k :| 0 <= k <= |a| && k <= |b| && a[..k] == b[..k] &&
          ((k == |a| && k < |b|) || (k < |a| && k < |b| && a[k] < b[k]));
        assert k > 0;
        assert a[1..][..k - 1] == a[..k][1..];
        assert b[1..][..k - 1] == b[..k][1..];
        assert a[1..][..k - 1] == b[1..][..k - 1];
        assert LexLess(a[1..], b[1..]);
      }
      if LexLess(a[1..], b[1..]) {
        var k :| 0 <= k <= |a[1..]| && k <= |b[1..]| && a[1..][..k] == b[1..][..k] &&
          ((k == |a[1..]| && k < |b[1..]|) || (k < |a[1..]| && k < |b[1..]| && a[1..][k] < b[1..][k]));
        assert a[..k + 1] == [a[0]] + a[1..][..k];
        assert b[..k + 1] == [b[0]] + b[1..][..k];
        if k < |a[1..]| && k < |b[1..]| {
          assert a[k + 1] == a[1..][k] && b[k + 1] == b[1..][k];
        }
        assert LexLess(a, b);
      }
    }
  }

  /** `Long.compare`. */
  function CompareLongs(x: int, y: int): int {
    if x < y then -1 else if x > y then 1 else 0
  }

  /** The comparator of `updateMedicationsList`: earlier next dose first;
      medications without an active schedule last, by name. */
  function CompareMeds(m1: Medication, m2: Medication): (r: int)
    ensures -1 <= r <= 1
    ensures r == 0 ==> NextScheduledTime(m1.schedules) == NextScheduledTime(m2.schedules)
    ensures r < 0 ==> NextScheduledTime(m1.schedules) <= NextScheduledTime(m2.schedules)
    ensures NextScheduledTime(m1.schedules) == JavaInt.LONG_MAX && NextScheduledTime(m2.schedules) == JavaInt.LONG_MAX ==>
      r == CompareNames(m1.name, m2.name)
    ensures NextScheduledTime(m1.schedules) < JavaInt.LONG_MAX && NextScheduledTime(m2.schedules) == JavaInt.LONG_MAX ==> r < 0
    ensures NextScheduledTime(m1.schedules) == JavaInt.LONG_MAX && NextScheduledTime(m2.schedules) < JavaInt.LONG_MAX ==> r > 0
    ensures NextScheduledTime(m1.schedules) < JavaInt.LONG_MAX && NextScheduledTime(m2.schedules) < JavaInt.LONG_MAX ==>
      (r < 0 <==> NextScheduledTime(m1.schedules) < NextScheduledTime(m2.schedules))
  {
    var t1 := NextScheduledTime(m1.schedules);
    var t2 := NextScheduledTime(m2.schedules);
    if t1 == JavaInt.LONG_MAX && t2 == JavaInt.LONG_MAX then CompareNames(m1.name, m2.name)
    else if t1 == JavaInt.LONG_MAX then 1
    else if t2 == JavaInt.LONG_MAX then -1
    else CompareLongs(t1, t2)
  }

  predicate Le(m1: Medication, m2: Medication) {
    CompareMeds(m1, m2) <= 0
  }

  /** The comparator is total: of any two medications one may go first. */
  lemma LeTotal(m1: Medication, m2: Medication)
    ensures Le(m1, m2) || Le(m2, m1)
  {
    CompareNamesAntisymmetric(m1.name, m2.name);
  }

  lemma LeTransitive(m1: Medication, m2: Medication, m3: Medication)
    requires Le(m1, m2) && Le(m2, m3)
    ensures Le(m1, m3)
  {
    if NextScheduledTime(m1.schedules) == JavaInt.LONG_MAX {
      CompareNamesTransitive(m1.name, m2.name, m3.name);
    }
  }

  predicate Sorted(s: seq<Medication>) {
    forall i, j :: 0 <= i < j < |s| ==> Le(s[i], s[j])
  }

  /** Puts `x` before the first element it does not come after. */
  function Insert(x: Medication, s: seq<Medication>): (r: seq<Medication>)
    ensures multiset(r) == multiset(s) + multiset{x}
    ensures |r| == |s| + 1
    decreases |s|
  {
    if |s| == 0 then [x]
    else if Le(x, s[0]) then [x] + s
    else
      assert s == [s[0]] + s[1..];
      [s[0]] + Insert(x, s[1..])
  }

  /** Inserting into an ordered list keeps it ordered. */
  lemma {:induction false} InsertSorted(x: Medication, s: seq<Medication>)
    requires Sorted(s)
    ensures Sorted(Insert(x, s))
    decreases |s|
  {
    if |s| == 0 {
    } else if Le(x, s[0]) {
      forall j | 0 < j < |s| ensures Le(x, s[j]) { LeTransitive(x, s[0], s[j]); }
    } else {
      var rest := Insert(x, s[1..]);
      InsertSorted(x, s[1..]);
      LeTotal(x, s[0]);
      forall j | 0 <= j < |rest| ensures Le(s[0], rest[j]) {
        assert rest[j] in multiset(rest);
        if rest[j] != x {
          assert rest[j] in multiset(s[1..]);
          var k :| 0 <= k < |s[1..]| && s[1..][k] == rest[j];
          assert s[k + 1] == rest[j];
        }
      }
      assert Insert(x, s) == [s[0]] + rest;
    }
  }

  /** `Collections.sort` with the comparator above: an ordered permutation. */
  function Sort(s: seq<Medication>): (r: seq<Medication>)
    ensures multiset(r) == multiset(s)
    ensures Sorted(r)
    decreases |s|
  {
    if |s| == 0 then []
    else
      assert s == [s[0]] + s[1..];
      var t := Sort(s[1..]);
      InsertSorted(s[0], t);
      Insert(s[0], t)
  }

  /** Medications with an active schedule come before those without. */
  lemma ScheduledBeforeUnscheduled(s: seq<Medication>, i: int, j: int)
    requires Sorted(s)
    requires 0 <= i < |s| && 0 <= j < |s|
    requires NextScheduledTime(s[i].schedules) < JavaInt.LONG_MAX
    requires NextScheduledTime(s[j].schedules) == JavaInt.LONG_MAX
    ensures i < j
  {
  }

  /** In a sorted list, the medications without an active schedule appear
      in name order: no later one has a lexicographically smaller name. */
  lemma UnscheduledInNameOrder(s: seq<Medication>, i: int, j: int)
    requires Sorted(s)
    requires 0 <= i < j < |s|
    requires NextScheduledTime(s[i].schedules) == JavaInt.LONG_MAX
    requires NextScheduledTime(s[j].schedules) == JavaInt.LONG_MAX
    ensures !LexLess(s[j].name, s[i].name)
  {
    assert Le(s[i], s[j]);
    CompareNamesAntisymmetric(s[j].name, s[i].name);
    CompareNamesIsLexicographic(s[j].name, s[i].name);
  }

  // ---------------------------------------------------------------------
  // The list update

  datatype UiState = Loading | Content | Empty | Error

  datatype ListUpdate = ListUpdate(shown: seq<Medication>, gauges: Gauges, state: UiState)

  /** `updateMedicationsList`: filter, sort, recount the gauges over the
      whole list, and pick the screen state. */
  method UpdateMedicationsList(meds: Option<seq<Medication>>, f: FilterType, calendarDay: int) returns (u: ListUpdate)
    requires meds.Some? ==> AllSchedulesReadable(meds.value)
    requires 1 <= calendarDay <= 7
    ensures var list := if meds.Some? then meds.value else [];
      multiset(u.shown) == multiset(Filter(list, f, calendarDay))
    ensures Sorted(u.shown)
    ensures u.state == Empty <==> u.shown == []
    ensures u.state == Content <==> u.shown != []
    ensures meds.Some? ==> forall which :: Get(u.gauges, which) == AtLeastOne(Tally(meds.value, which, calendarDay))
  {
    var list := if meds.Some? then meds.value else [];
    var shown := Sort(Filter(list, f, calendarDay));
    var gauges := UpdateCompartmentStatus(meds, calendarDay);
    var state := if shown == [] then Empty else Content;
    u := ListUpdate(shown, gauges, state);
  }
}

=== FILE: esp_provision_manager.dfy ===
/** The decision logic of the provisioning manager: reading a scanned QR
    code into a device description, mapping the numeric security level to
    the security enum, and the bounded retry of the device search. */
module ProvisionManager {
  import opened Wrappers
  import opened JavaText

  datatype TransportType = Softap | Ble

  /** Declared in the order SECURITY_0, SECURITY_1, SECURITY_2. */
  datatype SecurityType = Security0 | Security1 | Security2

  /** The enum's `ordinal()`. */
  function Ordinal(t: SecurityType): (r: int)
    ensures 0 <= r <= 2
  {
    match t
    case Security0 => 0
    case Security1 => 1
    case Security2 => 2
  }

  /** `setSecurityType`: 0 and 1 select the matching level, every other
      number the strongest one. */
  function SetSecurityType(security: int): (r: SecurityType)
    ensures r == Security0 <==> security == 0
    ensures r == Security1 <==> security == 1
    ensures r == Security2 <==> security != 0 && security != 1
  {
    if security == 0 then Security0
    else if security == 1 then Security1
    else Security2
  }

  /** The mapping inverts the enum's ordinal. */
  lemma SetSecurityTypeOfOrdinal(t: SecurityType)
    ensures SetSecurityType(Ordinal(t)) == t
  {
  }

  /** ... and the ordinal inverts the mapping on 0..2, while any other
      number is read as level 2. */
  lemma OrdinalOfSetSecurityType(security: int)
    ensures 0 <= security <= 2 ==> Ordinal(SetSecurityType(security)) == security
    ensures !(0 <= security <= 2) ==> Ordinal(SetSecurityType(security)) == 2
  {
  }

  datatype WifiAp = WifiAp(ssid: string, password: string)

  /** The fields of an `ESPDevice` that the QR flow and the search fill. */
  datatype EspDevice = EspDevice(
    transport: TransportType,
    security: SecurityType,
    name: string,
    pop: string,
    userName: string,
    wifi: Option<WifiAp>)

  /** A scanned QR payload: either text that is not a JSON object, or the
      object's fields. A field is `None` when absent; for `security`, also
      when it is not a number (both make `optInt` use its default). */
  datatype QrCode =
    | NotJson
    | QrJson(
        name: Option<string>,
        pop: Option<string>,
        transport: Option<string>,
        security: Option<int>,
        userName: Option<string>,
        password: Option<string>)

  const QR_NOT_VALID: string := "QR code is not valid"
  const TRANSPORT_MISSING: string := "QR code is not valid. Transport is not available"
  const TRANSPORT_UNSUPPORTED: string := "Transport type is not supported"

  /** `Build.VERSION_CODES.Q`: from this release on a SoftAP device from a
      QR code is used without scanning for it. */
  const ANDROID_Q: int := 29

  /** `optString`: an absent field reads as "". */
  function OptString(f: Option<string>): (r: string)
    ensures f.Some? ==> r == f.value
    ensures f.None? ==> r == ""
  {
    f.GetOr("")
  }

  /** The transport named by a non-empty QR field, compared ignoring case. */
  function ParseTransport(text: string): (r: Option<TransportType>)
    ensures r == Some(Softap) <==> EqualsIgnoreCase(text, "softap")
    ensures r == Some(Ble) <==> EqualsIgnoreCase(text, "ble") && !EqualsIgnoreCase(text, "softap")
  {
    if EqualsIgnoreCase(text, "softap") then Some(Softap)
    else if EqualsIgnoreCase(text, "ble") then Some(Ble)
    else None
  }

  datatype QrOutcome =
    | QrFailed(message: string)
    /** The device is reported at once, with its access point filled in. */
    | Detected(device: EspDevice)
    /** The device must first be found by scanning (see `SearchDevice`). */
    | Searching(device: EspDevice, password: string)

  /** `processQrCode`. */
  function ProcessQrCode(qr: QrCode, sdk: int): (r: QrOutcome)
    ensures qr.NotJson? ==> r == QrFailed(QR_NOT_VALID)
    ensures qr.QrJson? && OptString(qr.transport) == "" ==> r == QrFailed(TRANSPORT_MISSING)
    ensures qr.QrJson? && OptString(qr.transport) != "" ==>
              (ParseTransport(OptString(qr.transport)).None? <==> r == QrFailed(TRANSPORT_UNSUPPORTED))
    ensures !r.QrFailed? ==>
              && qr.QrJson?
              && Some(r.device.transport) == ParseTransport(OptString(qr.transport))
              && r.device.security == SetSecurityType(qr.security.GetOr(2))
              && r.device.name == OptString(qr.name)
              && r.device.pop == OptString(qr.pop)
              && r.device.userName == OptString(qr.userName)
    ensures r.Detected? <==> (!r.QrFailed? && sdk >= ANDROID_Q && r.device.transport == Softap)
    ensures r.Detected? ==> r.device.wifi == Some(WifiAp(OptString(qr.name), OptString(qr.password)))
    ensures r.Searching? ==> r.device.wifi.None? && r.password == OptString(qr.password)
  {
    match qr
    case NotJson => QrFailed(QR_NOT_VALID)
    case QrJson(name, pop, transport, security, userName, password) =>
      var text := OptString(transport);
      if text == "" then QrFailed(TRANSPORT_MISSING)
      else match ParseTransport(text)
        case None => QrFailed(TRANSPORT_UNSUPPORTED)
        case Some(t) =>
          var device := EspDevice(t, SetSecurityType(security.GetOr(Ordinal(Security2))),
                                  OptString(name), OptString(pop), OptString(userName), None);
          if sdk >= ANDROID_Q && t == Softap then
            Detected(device.(wifi := Some(WifiAp(OptString(name), OptString(password)))))
          else
            Searching(device, OptString(password))
  }

  /** The transport as a QR code writes it. */
  function TransportName(t: TransportType): (r: string)
    ensures ParseTransport(r) == Some(t)
  {
    match t
    case Softap => "softap"
    case Ble => "ble"
  }

  /** The QR code that describes a device, the partner of `ProcessQrCode`. */
  function QrOf(d: EspDevice, password: string): (r: QrCode)
    ensures r.QrJson?
  {
    QrJson(Some(d.name), Some(d.pop), Some(TransportName(d.transport)),
           Some(Ordinal(d.security)), Some(d.userName), Some(password))
  }

  /** Reading the QR code of a device gives that device back. */
  lemma QrRoundTrip(d: EspDevice, password: string, sdk: int)
    requires d.wifi.None?
    ensures var r := ProcessQrCode(QrOf(d, password), sdk);
            && !r.QrFailed?
            && r.device.(wifi := None) == d
            && (r.Searching? ==> r.password == password)
            && (r.Detected? ==> r.device.wifi == Some(WifiAp(d.name, password)))
  {
    SetSecurityTypeOfOrdinal(d.security);
  }

  /** The number of scans after which the search gives up. */
  const MAX_SEARCHES: nat := 3
  const BLUETOOTH_OFF: string := "Please turn on bluetooth and try again."

  /** What one scan reported: the advertised names (BLE device names or
      SoftAP network names), a failed scan, or a BLE scan that could not
      start. */
  datatype Scan = Advertised(names: seq<string>) | ScanFailed | StartFailed

  /** How the search ended: the scan (1-based) that found the device or
      that could not start, or giving up after the last scan. */
  datatype SearchOutcome = Found(attempt: nat) | ScanNotStarted(attempt: nat) | GaveUp

  /** A scan sees the device when its name is advertised; a BLE scan only
      reports records that carry a non-empty name. */
  predicate Sees(d: EspDevice, s: Scan) {
    s.Advertised? && d.name in s.names && (d.transport == Ble ==> d.name != "")
  }

  predicate Aborts(d: EspDevice, s: Scan) {
    s.StartFailed? && d.transport == Ble
  }

  /** A scan that ends the search, one way or the other. */
  predicate Settles(d: EspDevice, s: Scan) {
    Sees(d, s) || Aborts(d, s)
  }

  /** Scan `cnt` (1-based) of the device search, the value of `searchCnt`
      after the task's constructor ran. */
  function SearchFrom(d: EspDevice, scans: seq<Scan>, cnt: nat): (r: SearchOutcome)
    requires 1 <= cnt <= MAX_SEARCHES <= |scans|
    decreases MAX_SEARCHES - cnt
    ensures r.GaveUp? <==> forall i :: cnt - 1 <= i < MAX_SEARCHES ==> !Settles(d, scans[i])
    ensures !r.GaveUp? ==>
              && cnt <= r.attempt <= MAX_SEARCHES
              && Settles(d, scans[r.attempt - 1])
              && forall i :: cnt - 1 <= i < r.attempt - 1 ==> !Settles(d, scans[i])
    ensures r.Found? ==> Sees(d, scans[r.attempt - 1])
    ensures r.ScanNotStarted? ==> Aborts(d, scans[r.attempt - 1])
  {
    var s := scans[cnt - 1];
    if Aborts(d, s) then ScanNotStarted(cnt)
    else if Sees(d, s) then Found(cnt)
    else if cnt != MAX_SEARCHES then SearchFrom(d, scans, cnt + 1)
    else GaveUp
  }

  /** `isDeviceAvailable`: resets the counter and runs the first search
      task, which retries until the third scan. */
  function SearchDevice(d: EspDevice, scans: seq<Scan>): (r: SearchOutcome)
    requires |scans| >= MAX_SEARCHES
    ensures r.GaveUp? <==> forall i :: 0 <= i < MAX_SEARCHES ==> !Settles(d, scans[i])
    ensures !r.GaveUp? ==>
              && 1 <= r.attempt <= MAX_SEARCHES
              && Settles(d, scans[r.attempt - 1])
              && forall i :: 0 <= i < r.attempt - 1 ==> !Settles(d, scans[i])
    ensures r.Found? ==> Sees(d, scans[r.attempt - 1])
    ensures r.ScanNotStarted? ==> Aborts(d, scans[r.attempt - 1])
  {
    SearchFrom(d, scans, 1)
  }

  /** The failure the listener is told when the search does not find the
      device. */
  function SearchFailure(d: EspDevice, r: SearchOutcome): (msg: string)
    requires !r.Found?
    ensures r.GaveUp? ==> msg == d.name + " device not found"
    ensures r.ScanNotStarted? ==> msg == BLUETOOTH_OFF
  {
    if r.GaveUp? then d.name + " device not found" else BLUETOOTH_OFF
  }

  /** The search reports the first scan that saw the device, provided no
      earlier scan ended it. */
  lemma SearchFindsFirstSighting(d: EspDevice, scans: seq<Scan>, k: nat)
    requires |scans| >= MAX_SEARCHES
    requires 1 <= k <= MAX_SEARCHES && Sees(d, scans[k - 1])
    requires forall i :: 0 <= i < k - 1 ==> !Settles(d, scans[i])
    ensures SearchDevice(d, scans) == Found(k)
  {
    assert Settles(d, scans[k - 1]);
  }

  /** Only the first three scans matter: the search never looks further. */
  lemma {:induction false} SearchIgnoresLaterScans(d: EspDevice, scans: seq<Scan>, more: seq<Scan>, cnt: nat)
    requires 1 <= cnt <= MAX_SEARCHES <= |scans|
    ensures SearchFrom(d, scans, cnt) == SearchFrom(d, scans[..MAX_SEARCHES] + more, cnt)
    decreases MAX_SEARCHES - cnt
  {
    var other := scans[..MAX_SEARCHES] + more;
    assert other[cnt - 1] == scans[cnt - 1];
    if cnt != MAX_SEARCHES {
      SearchIgnoresLaterScans(d, scans, more, cnt + 1);
    }
  }

  /** The device after a successful search: a SoftAP device gets the network
      that matched and the password from the QR code. */
  function FoundDevice(d: EspDevice, password: string): (r: EspDevice)
    ensures r.(wifi := d.wifi) == d
    ensures d.transport == Softap ==> r.wifi == Some(WifiAp(d.name, password))
  {
    if d.transport == Softap then d.(wifi := Some(WifiAp(d.name, password))) else d
  }

  /** A QR code followed, when needed, by the search: the device the
      listener finally receives, or the failure it is told. */
  function ScanQrCode(qr: QrCode, sdk: int, scans: seq<Scan>): (r: Result<EspDevice>)
    requires |scans| >= MAX_SEARCHES
    ensures r.Success? ==> qr.QrJson? && r.value.name == OptString(qr.name)
    ensures r.Success? ==> r.value.security == SetSecurityType(qr.security.GetOr(2))
    ensures r.Success? && r.value.transport == Softap ==>
              r.value.wifi == Some(WifiAp(OptString(qr.name), OptString(qr.password)))
    ensures ProcessQrCode(qr, sdk).QrFailed? ==> r == Failure(ProcessQrCode(qr, sdk).message)
    ensures ProcessQrCode(qr, sdk).Detected? ==> r == Success(ProcessQrCode(qr, sdk).device)
    ensures ProcessQrCode(qr, sdk).Searching? ==>
              var d := ProcessQrCode(qr, sdk).device;
              && (r.Success? <==> SearchDevice(d, scans).Found?)
              && (SearchDevice(d, scans).Found? ==> r == Success(FoundDevice(d, ProcessQrCode(qr, sdk).password)))
              && (!SearchDevice(d, scans).Found? ==> r == Failure(SearchFailure(d, SearchDevice(d, scans))))
  {
    match ProcessQrCode(qr, sdk)
    case QrFailed(message) => Failure(message)
    case Detected(d) => Success(d)
    case Searching(d, password) =>
      var outcome := SearchDevice(d, scans);
      if outcome.Found? then Success(FoundDevice(d, password))
      else Failure(SearchFailure(d, outcome))
  }

  /** Scanning the QR code of a device that the first scan sees delivers
      that device, a SoftAP one with its network and the code's password. */
  lemma ScanQrOfSeenDevice(d: EspDevice, password: string, sdk: int, scans: seq<Scan>)
    requires d.wifi.None?
    requires |scans| >= MAX_SEARCHES && Sees(d, scans[0])
    ensures ScanQrCode(QrOf(d, password), sdk, scans) ==
      Success(if d.transport == Softap then d.(wifi := Some(WifiAp(d.name, password))) else d)
  {
    QrRoundTrip(d, password, sdk);
    var q := ProcessQrCode(QrOf(d, password), sdk);
    if q.Searching? {
      SearchFindsFirstSighting(q.device, scans, 1);
    }
  }
}

=== FILE: hex_dump.dfy ===
/** `byteArrayToDs`: a byte array as lower-case hexadecimal text, two digits
    per byte, together with the decoder it is the inverse of. */
module HexDump {
  import opened Wrappers

  /** A Java `byte`: signed, -128..127. */
  newtype JByte = x: int | -128 <= x < 128

  /** The value `%02x` prints for a byte: the byte read as unsigned. */
  function Unsigned(b: JByte): (u: nat)
    ensures u < 256
    ensures (u - b as int) % 256 == 0
  {
    if b < 0 then b as int + 256 else b as nat
  }

  /** The byte an unsigned value 0..255 is stored as. */
  function Signed(u: nat): (b: JByte)
    requires u < 256
    ensures Unsigned(b) == u
  {
    if u < 128 then u as JByte else (u - 256) as JByte
  }

  predicate IsLowerHex(c: char) {
    ('0' <= c <= '9') || ('a' <= c <= 'f')
  }

  function HexDigit(n: nat): (c: char)
    requires n < 16
    ensures IsLowerHex(c)
  {
    if n < 10 then ('0' as int + n) as char else ('a' as int + n - 10) as char
  }

  function HexValue(c: char): (n: nat)
    requires IsLowerHex(c)
    ensures n < 16 && HexDigit(n) == c
  {
    if c <= '9' then c as int - '0' as int else c as int - 'a' as int + 10
  }

  lemma HexValueOfDigit(n: nat)
    requires n < 16
    ensures HexValue(HexDigit(n)) == n
  {
  }

  /** `String.format("%02x", b)`. */
  function ByteHex(b: JByte): (r: string)
    ensures |r| == 2 && IsLowerHex(r[0]) && IsLowerHex(r[1])
    ensures HexValue(r[0]) * 16 + HexValue(r[1]) == Unsigned(b)
  {
    var u := Unsigned(b);
    HexValueOfDigit(u / 16);
    HexValueOfDigit(u % 16);
    [HexDigit(u / 16), HexDigit(u % 16)]
  }

  /** `byteArrayToDs`. */
  function ByteArrayToDs(bs: seq<JByte>): (r: string)
    ensures |r| == 2 * |bs|
    ensures forall i :: 0 <= i < |r| ==> IsLowerHex(r[i])
    ensures bs == [] ==> r == ""
  {
    if bs == [] then "" else ByteHex(bs[0]) + ByteArrayToDs(bs[1..])
  }

  /** Byte `i` is printed at positions 2i and 2i+1. */
  lemma {:induction false} ByteAtPosition(bs: seq<JByte>, i: nat)
    requires i < |bs|
    ensures ByteArrayToDs(bs)[2 * i..2 * i + 2] == ByteHex(bs[i])
  {
    if i > 0 {
      ByteAtPosition(bs[1..], i - 1);
      assert ByteArrayToDs(bs) == ByteHex(bs[0]) + ByteArrayToDs(bs[1..]);
      assert ByteArrayToDs(bs)[2 * i..2 * i + 2] == ByteArrayToDs(bs[1..])[2 * (i - 1)..2 * (i - 1) + 2];
    }
  }

  /** Printing distributes over concatenation of arrays. */
  lemma {:induction false} ByteArrayToDsAppend(a: seq<JByte>, b: seq<JByte>)
    ensures ByteArrayToDs(a + b) == ByteArrayToDs(a) + ByteArrayToDs(b)
  {
    if a == [] {
      assert a + b == b;
    } else {
      assert (a + b)[1..] == a[1..] + b;
      ByteArrayToDsAppend(a[1..], b);
    }
  }

  /** Reads hexadecimal text back, two digits per byte; text of odd length
      or with other characters is rejected. */
  function DecodeHex(s: string): (r: Option<seq<JByte>>)
    ensures r.Some? ==> 2 * |r.value| == |s|
  {
    if s == [] then Some([])
    else if |s| < 2 || !IsLowerHex(s[0]) || !IsLowerHex(s[1]) then None
    else
      match DecodeHex(s[2..])
      case None => None
      case Some(rest) => Some([Signed(HexValue(s[0]) * 16 + HexValue(s[1]))] + rest)
  }

  lemma ByteHexDecodes(b: JByte)
    ensures var h := ByteHex(b); Signed(HexValue(h[0]) * 16 + HexValue(h[1])) == b
  {
  }

  /** Decoding the printed text gives the bytes back. */
  lemma {:induction false} DecodePrinted(bs: seq<JByte>)
    ensures DecodeHex(ByteArrayToDs(bs)) == Some(bs)
  {
    if bs != [] {
      var s := ByteArrayToDs(bs);
      assert s[2..] == ByteArrayToDs(bs[1..]);
      DecodePrinted(bs[1..]);
      ByteHexDecodes(bs[0]);
      assert [bs[0]] + bs[1..] == bs;
    }
  }

  /** Any text the decoder accepts is exactly what printing its bytes gives:
      the two directions together make printing a bijection onto
      even-length lower-case hexadecimal text. */
  lemma {:induction false} PrintDecoded(s: string)
    requires DecodeHex(s).Some?
    ensures ByteArrayToDs(DecodeHex(s).value) == s
  {
    if s != [] {
      PrintDecoded(s[2..]);
      var bs := DecodeHex(s).value;
      var u := HexValue(s[0]) * 16 + HexValue(s[1]);
      assert bs[0] == Signed(u) && bs[1..] == DecodeHex(s[2..]).value;
      var h := ByteHex(bs[0]);
      assert HexValue(h[0]) == HexValue(s[0]) && HexValue(h[1]) == HexValue(s[1]);
      assert h == s[..2];
      assert s == s[..2] + s[2..];
    }
  }
}

=== FILE: java_int.dfy ===
/** The pieces of Java's integer semantics the model needs: 32-bit
    wrap-around, truncating `%`, `Math.abs`, decimal rendering as done by
    `String.valueOf`/`%d`/`%02d`, and `Integer.parseInt`. */
module JavaInt {
  import opened Wrappers

  const TWO_32: int := 0x1_0000_0000
  const INT_MIN: int := -0x8000_0000
  const INT_MAX: int := 0x7FFF_FFFF
  /** `Long.MAX_VALUE`, used by the source as a "no value" sentinel. */
  const LONG_MAX: int := 0x7FFF_FFFF_FFFF_FFFF

  predicate IsInt32(x: int) {
    INT_MIN <= x <= INT_MAX
  }

  /** Two's-complement reduction of `x` into the range of a Java `int`. */
  function Wrap32(x: int): (r: int)
    ensures IsInt32(r)
    ensures (r - x) % TWO_32 == 0
    ensures IsInt32(x) ==> r == x
  {
    var m := (x - INT_MIN) % TWO_32;
    m + INT_MIN
  }

  /** Java's `a % b`: truncates toward zero, so the result takes the sign of `a`. */
  function Rem(a: int, b: int): (r: int)
    requires b != 0
    ensures a >= 0 ==> 0 <= r < Abs(b)
    ensures a < 0 ==> -Abs(b) < r <= 0
    ensures Abs(r) == Abs(a) % Abs(b)
  {
    if a >= 0 then a % Abs(b) else -((-a) % Abs(b))
  }

  /** `Math.abs` on values that cannot be `Integer.MIN_VALUE`. */
  function Abs(x: int): (r: int)
    ensures r >= 0 && (r == x || r == -x)
  {
    if x < 0 then -x else x
  }

  // ---------------------------------------------------------------------
  // Decimal digits

  predicate IsDigit(c: char) {
    '0' <= c <= '9'
  }

  function DigitChar(d: nat): (c: char)
    requires d < 10
    ensures IsDigit(c) && DigitValue(c) == d
  {
    ['0', '1', '2', '3', '4', '5', '6', '7', '8', '9'][d]
  }

  function DigitValue(c: char): nat
    requires IsDigit(c)
  {
    (c as int) - ('0' as int)
  }

  predicate AllDigits(s: string) {
    forall i :: 0 <= i < |s| ==> IsDigit(s[i])
  }

  /** The value of a string of decimal digits, most significant first. */
  function DigitsValue(s: string): nat
    requires AllDigits(s)
  {
    if |s| == 0 then 0 else DigitsValue(s[..|s| - 1]) * 10 + DigitValue(s[|s| - 1])
  }

  /** `String.valueOf(n)` for a non-negative `n`: no leading zeros. */
  function NatToString(n: nat): (s: string)
    ensures |s| > 0 && AllDigits(s)
    ensures n < 10 <==> |s| == 1
    ensures |s| > 1 ==> s[0] != '0'
    decreases n
  {
    if n < 10 then [DigitChar(n)] else NatToString(n / 10) + [DigitChar(n % 10)]
  }

  lemma {:induction false} NatToStringValue(n: nat)
    ensures DigitsValue(NatToString(n)) == n
    decreases n
  {
    if n >= 10 {
      var s := NatToString(n);
      assert s[..|s| - 1] == NatToString(n / 10);
      NatToStringValue(n / 10);
    }
  }

  /** `String.valueOf(i)` / `%d` for any integer. */
  function IntToString(i: int): (s: string)
    ensures |s| > 0
    ensures i >= 0 ==> s == NatToString(i)
    ensures i < 0 ==> s == "-" + NatToString(-i)
  {
    if i < 0 then "-" + NatToString(-i) else NatToString(i)
  }

  /** `String.format("%02d", n)`: width two, zero padded, sign kept. */
  function Format02d(n: int): (s: string)
    ensures 0 <= n < 100 ==> |s| == 2 && AllDigits(s) && DigitsValue(s) == n
    ensures n >= 10 || n < 0 ==> s == IntToString(n)
  {
    if 0 <= n < 10 then
      var s := "0" + NatToString(n);
      assert s[..|s| - 1] == "0";
      assert DigitsValue("0") == 0 by {
        assert "0"[..0] == [];
      }
      s
    else
      NatToStringValue(if n < 0 then 0 else n);
      IntToString(n)
  }

  /** `Integer.parseInt(s)`: an optional `+` or `-`, then one or more ASCII
      digits, with a value that fits in an `int`; anything else is a
      `NumberFormatException`, here `None`. */
  function ParseInt(s: string): (r: Option<int>)
    ensures r.Some? ==> IsInt32(r.value)
  {
    if |s| == 0 then None
    else
      var neg := s[0] == '-';
      var body := if s[0] == '-' || s[0] == '+' then s[1..] else s;
      if |body| == 0 || !AllDigits(body) then None
      else
        var v: int := if neg then -(DigitsValue(body) as int) else DigitsValue(body);
        if IsInt32(v) then Some(v) else None
  }

  lemma IntToStringParses(i: int)
    requires IsInt32(i)
    ensures ParseInt(IntToString(i)) == Some(i)
  {
    var s := IntToString(i);
    if i < 0 {
      assert s[1..] == NatToString(-i);
      NatToStringValue(-i);
    } else {
      NatToStringValue(i);
    }
  }
}

=== FILE: java_text.dfy ===
/** The `java.lang.String` operations the app relies on, with the case
    mappings restricted to ASCII letters. */
module JavaText {
  import opened Wrappers

  predicate IsBlank(c: char) {
    c <= ' '
  }

  /** `r` is `s[i..j]` and everything cut off on either side is blank. */
  predicate TrimmedSlice(s: string, r: string, i: int, j: int) {
    && 0 <= i <= j <= |s|
    && r == s[i..j]
    && (forall k :: 0 <= k < i ==> IsBlank(s[k]))
    && (forall k :: j <= k < |s| ==> IsBlank(s[k]))
  }

  /** `String.trim()`: drops every leading and trailing char at or below ' '. */
  function Trim(s: string): (r: string)
    ensures |r| <= |s|
    ensures r != [] ==> !IsBlank(r[0]) && !IsBlank(r[|r| - 1])
    ensures exists i, j :: TrimmedSlice(s, r, i, j)
    decreases |s|
  {
    if |s| > 0 && IsBlank(s[0]) then
      var r := Trim(s[1..]);
      ghost var i, j :| TrimmedSlice(s[1..], r, i, j);
      TrimmedSliceFront(s, r, i, j);
      r
    else if |s| > 0 && IsBlank(s[|s| - 1]) then
      var r := Trim(s[..|s| - 1]);
      ghost var i, j :| TrimmedSlice(s[..|s| - 1], r, i, j);
      TrimmedSliceBack(s, r, i, j);
      r
    else
      assert TrimmedSlice(s, s, 0, |s|);
      s
  }

  /** A blank in front widens the cut-off prefix by one. */
  lemma TrimmedSliceFront(s: string, r: string, i: int, j: int)
    requires |s| > 0 && IsBlank(s[0])
    requires TrimmedSlice(s[1..], r, i, j)
    ensures TrimmedSlice(s, r, i + 1, j + 1)
  {
  }

  /** A blank at the end widens the cut-off suffix by one. */
  lemma TrimmedSliceBack(s: string, r: string, i: int, j: int)
    requires |s| > 0 && IsBlank(s[|s| - 1])
    requires TrimmedSlice(s[..|s| - 1], r, i, j)
    ensures TrimmedSlice(s, r, i, j)
  {
  }

  /** A text that starts and ends with visible characters is its own trim. */
  lemma TrimOfTrimmed(s: string)
    requires s != [] ==> !IsBlank(s[0]) && !IsBlank(s[|s| - 1])
    ensures Trim(s) == s
  {
  }

  /** Trimming twice is trimming once. */
  lemma TrimIdempotent(s: string)
    ensures Trim(Trim(s)) == Trim(s)
  {
    TrimOfTrimmed(Trim(s));
  }

  predicate IsAsciiUpper(c: char) {
    'A' <= c <= 'Z'
  }

  predicate IsAsciiLower(c: char) {
    'a' <= c <= 'z'
  }

  function ToLowerChar(c: char): (r: char)
    ensures IsAsciiUpper(c) ==> IsAsciiLower(r) && r as int == c as int + 32
    ensures !IsAsciiUpper(c) ==> r == c
  {
    if IsAsciiUpper(c) then (c as int + 32) as char else c
  }

  function ToUpperChar(c: char): (r: char)
    ensures IsAsciiLower(c) ==> IsAsciiUpper(r) && r as int == c as int - 32
    ensures !IsAsciiLower(c) ==> r == c
  {
    if IsAsciiLower(c) then (c as int - 32) as char else c
  }

  /** `toLowerCase()` on ASCII letters. */
  function ToLower(s: string): (r: string)
    ensures |r| == |s|
    ensures forall i :: 0 <= i < |s| ==> r[i] == ToLowerChar(s[i])
  {
    seq(|s|, i requires 0 <= i < |s| => ToLowerChar(s[i]))
  }

  /** `toUpperCase()` on ASCII letters. */
  function ToUpper(s: string): (r: string)
    ensures |r| == |s|
    ensures forall i :: 0 <= i < |s| ==> r[i] == ToUpperChar(s[i])
    ensures forall i :: 0 <= i < |r| ==> !IsAsciiLower(r[i])
  {
    seq(|s|, i requires 0 <= i < |s| => ToUpperChar(s[i]))
  }

  /** Lower-casing changes nothing a second time. */
  lemma ToLowerIdempotent(s: string)
    ensures ToLower(ToLower(s)) == ToLower(s)
  {
  }

  /** `equalsIgnoreCase` on ASCII letters. */
  predicate EqualsIgnoreCase(a: string, b: string) {
    ToLower(a) == ToLower(b)
  }

  predicate OccursAt(s: string, key: string, i: int) {
    0 <= i && i + |key| <= |s| && s[i..i + |key|] == key
  }

  /** `indexOf(key, from)`: the first occurrence at or after `from`, or None for -1. */
  function IndexOfFrom(s: string, key: string, from: nat): (r: Option<nat>)
    ensures r.Some? ==> from <= r.value && OccursAt(s, key, r.value)
    ensures r.Some? ==> forall k :: from <= k < r.value ==> !OccursAt(s, key, k)
    ensures r.None? ==> forall k :: from <= k ==> !OccursAt(s, key, k)
    decreases |s| - from
  {
    if from + |key| > |s| then None
    else if s[from..from + |key|] == key then Some(from)
    else IndexOfFrom(s, key, from + 1)
  }

  /** `indexOf(key)`. */
  function IndexOf(s: string, key: string): (r: Option<nat>)
    ensures r.Some? ==> OccursAt(s, key, r.value)
    ensures r.Some? ==> forall k :: 0 <= k < r.value ==> !OccursAt(s, key, k)
    ensures r.None? <==> forall k :: 0 <= k ==> !OccursAt(s, key, k)
  {
    IndexOfFrom(s, key, 0)
  }
}

=== FILE: medication.dfy ===
/** The medication record the dispenser screens, the compartment allocator
    and the repository read (`Medication.java`, plus the per-compartment
    counters that the dispenser view model reads from it). */
module Medications {
  import opened Wrappers
  import opened Schedules

  /** `compartment` is the dispenser's letter ("A", "B", "C" or "LIQUID");
      `compartmentNumber` the allocator's slot 1..4. `schedules` is
      `getScheduleList()`, in the iteration order of the backing map. */
  datatype Medication = Medication(
    id: Option<string>,
    name: string,
    medType: string,
    patientId: Option<string>,
    compartmentNumber: int,
    compartment: Option<string>,
    dosesTaken: int,
    totalDoses: int,
    volumeTaken: int,
    totalVolume: int,
    doseVolume: int,
    schedules: seq<Schedule>)

  /** Every schedule's mask can be read for all seven weekdays. */
  predicate SchedulesReadable(m: Medication) {
    forall i :: 0 <= i < |m.schedules| ==> Readable(m.schedules[i].daysOfWeek)
  }

  predicate AllSchedulesReadable(meds: seq<Medication>) {
    forall i :: 0 <= i < |meds| ==> SchedulesReadable(meds[i])
  }
}

=== FILE: medication_repository.dfy ===
/** The checks and field maps of the medication repository
    (`MedicationRepository.java`). A schedule's database node is a map from
    field name to value; `updateChildren` overwrites the given fields. */
module MedicationRepository {
  import opened Wrappers
  import MT = MedicationType
  import opened PatientIds
  import opened Schedules
  import opened Medications

  /** A value written to the database; `ServerTimestamp` is
      `ServerValue.TIMESTAMP`, filled in by the server. */
  datatype FieldValue = Bool(b: bool) | Text(s: string) | Millis(t: int) | ServerTimestamp

  type Node = map<string, FieldValue>

  const INVALID_IDS: string := "IDs no válidos"
  const INVALID_PATIENT: string := "El ID del paciente no es válido"
  const INVALID_MEDICATION: string := "ID de medicamento no válido"

  const TAKEN: string := "taken"
  const SCHEDULED: string := "scheduled"
  const DISPENSED: string := "dispensed"
  const MISSED: string := "missed"

  /** `updateChildren`: the update's fields replace the node's. */
  function UpdateChildren(node: Node, updates: Node): (r: Node)
    ensures r.Keys == node.Keys + updates.Keys
    ensures forall k :: k in updates ==> r[k] == updates[k]
    ensures forall k :: k in node && k !in updates ==> r[k] == node[k]
  {
    node + updates
  }

  /** A boolean field that reads as `true`. */
  predicate IsSet(node: Node, field: string) {
    field in node && node[field] == Bool(true)
  }

  predicate IdsPresent(patientId: Option<string>, medicationId: Option<string>, scheduleId: Option<string>) {
    patientId.Some? && medicationId.Some? && scheduleId.Some?
  }

  // ---------------------------------------------------------------------
  // Schedule status

  /** The fields a status adds besides `status` and `statusUpdatedAt`. */
  function StatusFields(status: string): (r: Node)
    ensures status == DISPENSED ==> r == map["dispensed" := Bool(true), "dispensedAt" := ServerTimestamp]
    ensures status == TAKEN ==> r == map["takingConfirmed" := Bool(true), "lastTaken" := ServerTimestamp]
    ensures status == MISSED ==> r == map["missed" := Bool(true), "missedAt" := ServerTimestamp]
    ensures status !in {DISPENSED, TAKEN, MISSED} ==> r == map[]
    ensures "status" !in r && "statusUpdatedAt" !in r
  {
    if status == DISPENSED then map["dispensed" := Bool(true), "dispensedAt" := ServerTimestamp]
    else if status == TAKEN then map["takingConfirmed" := Bool(true), "lastTaken" := ServerTimestamp]
    else if status == MISSED then map["missed" := Bool(true), "missedAt" := ServerTimestamp]
    else map[]
  }

  /** `updateScheduleStatus`: the update written to the schedule's node, or
      the error reported when an id is missing. */
  function UpdateScheduleStatus(patientId: Option<string>, medicationId: Option<string>, scheduleId: Option<string>,
                                status: string): (r: Result<Node>)
    ensures r.Failure? <==> !IdsPresent(patientId, medicationId, scheduleId)
    ensures r.Failure? ==> r.error == INVALID_IDS
    ensures r.Success? ==>
      && "status" in r.value && r.value["status"] == Text(status)
      && "statusUpdatedAt" in r.value && r.value["statusUpdatedAt"] == ServerTimestamp
      && r.value.Keys == {"status", "statusUpdatedAt"} + StatusFields(status).Keys
      && forall k :: k in StatusFields(status) ==> r.value[k] == StatusFields(status)[k]
  {
    if !IdsPresent(patientId, medicationId, scheduleId) then Failure(INVALID_IDS)
    else Success(map["status" := Text(status), "statusUpdatedAt" := ServerTimestamp] + StatusFields(status))
  }

  /** `updateMedicationTaken`: a status update with "taken" or "scheduled". */
  function UpdateMedicationTaken(patientId: Option<string>, medicationId: Option<string>, scheduleId: Option<string>,
                                 taken: bool): (r: Result<Node>)
    ensures r.Success? ==> "status" in r.value && r.value["status"] == Text(if taken then TAKEN else SCHEDULED)
    ensures r.Success? && taken ==> IsSet(r.value, "takingConfirmed")
    ensures r.Success? && !taken ==> r.value.Keys == {"status", "statusUpdatedAt"}
  {
    UpdateScheduleStatus(patientId, medicationId, scheduleId, if taken then TAKEN else SCHEDULED)
  }

  /** Marking a dose as not taken only rewrites the status: a confirmation
      already stored stays in place. */
  lemma UntakingKeepsConfirmation(node: Node, patientId: string, medicationId: string, scheduleId: string)
    requires IsSet(node, "takingConfirmed")
    ensures var u := UpdateMedicationTaken(Some(patientId), Some(medicationId), Some(scheduleId), false);
      u.Success? && IsSet(UpdateChildren(node, u.value), "takingConfirmed")
  {
  }

  /** `registerMissedMedication`: the same fields as a "missed" status update. */
  function RegisterMissedMedication(patientId: Option<string>, medicationId: Option<string>, scheduleId: Option<string>): (r: Result<Node>)
    ensures r == UpdateScheduleStatus(patientId, medicationId, scheduleId, MISSED)
    ensures r.Success? ==> IsSet(r.value, "missed") && "status" in r.value && r.value["status"] == Text(MISSED)
  {
    if !IdsPresent(patientId, medicationId, scheduleId) then Failure(INVALID_IDS)
    else
      var updates := map["status" := Text(MISSED), "missed" := Bool(true),
                         "missedAt" := ServerTimestamp, "statusUpdatedAt" := ServerTimestamp];
      assert updates == map["status" := Text(MISSED), "statusUpdatedAt" := ServerTimestamp] + StatusFields(MISSED);
      Success(updates)
  }

  /** `updateDispensationStatus`, with the app's clock as `now`. */
  function UpdateDispensationStatus(patientId: Option<string>, medicationId: Option<string>, scheduleId: Option<string>,
                                    dispensed: bool, detected: bool, now: int): (r: Result<Node>)
    ensures r.Failure? <==> !IdsPresent(patientId, medicationId, scheduleId)
    ensures r.Failure? ==> r.error == INVALID_IDS
    ensures r.Success? ==> "dispensed" in r.value && r.value["dispensed"] == Bool(dispensed)
    ensures r.Success? ==> ("dispensedAt" in r.value <==> dispensed)
    ensures r.Success? ==> (IsSet(r.value, "takingConfirmed") <==> detected)
    ensures r.Success? ==> (IsSet(r.value, "detectedBySensor") <==> detected)
    ensures r.Success? && !detected ==> "takingConfirmed" !in r.value && "lastTaken" !in r.value
    ensures r.Success? ==>
      r.value.Keys == {"dispensed"} + (if dispensed then {"dispensedAt"} else {})
                      + (if detected then {"detectedBySensor", "detectedAt", "takingConfirmed", "lastTaken"} else {})
    ensures r.Success? ==> forall k :: k in r.value && k != "dispensed" && k != "detectedBySensor" && k != "takingConfirmed" ==>
      r.value[k] == Millis(now)
  {
    if !IdsPresent(patientId, medicationId, scheduleId) then Failure(INVALID_IDS)
    else
      var base := map["dispensed" := Bool(dispensed)];
      var withDispensed := if dispensed then base["dispensedAt" := Millis(now)] else base;
      var updates := if detected then
        withDispensed["detectedBySensor" := Bool(true)]["detectedAt" := Millis(now)]
                     ["takingConfirmed" := Bool(true)]["lastTaken" := Millis(now)]
      else withDispensed;
      Success(updates)
  }

  /** The database update agrees with the schedule model's own setters:
      the flags written are those `setDispensed` and `setDetectedBySensor`
      leave on the schedule. */
  lemma DispensationMatchesScheduleSetters(s: Schedule, node: Node, p: string, m: string, id: string,
                                           dispensed: bool, detected: bool, now: int)
    requires detected
    ensures var u := UpdateDispensationStatus(Some(p), Some(m), Some(id), dispensed, detected, now);
      var s' := SetDetectedBySensor(SetDispensed(s, dispensed, now), detected, now);
      u.Success? &&
      (IsSet(UpdateChildren(node, u.value), "takingConfirmed") <==> s'.takingConfirmed) &&
      (IsSet(UpdateChildren(node, u.value), "detectedBySensor") <==> s'.detectedBySensor) &&
      UpdateChildren(node, u.value)["dispensed"] == Bool(s'.dispensed)
  {
  }

  // ---------------------------------------------------------------------
  // Reading a schedule

  predicate HasSchedule(m: Medication, scheduleId: string) {
    exists i :: 0 <= i < |m.schedules| && m.schedules[i].id == Some(scheduleId)
  }

  /** Entry `i` is the first schedule in `ss` with the id. */
  predicate FirstWithId(ss: seq<Schedule>, id: string, i: int) {
    0 <= i < |ss| && ss[i].id == Some(id) && forall j :: 0 <= j < i ==> ss[j].id != Some(id)
  }

  /** The first schedule with the id is taken exactly when `taken` says so. */
  predicate ReportsTaken(m: Medication, scheduleId: string, taken: bool) {
    exists i :: 0 <= i < |m.schedules| && FirstWithId(m.schedules, scheduleId, i) &&
      taken == (m.schedules[i].takingConfirmed || m.schedules[i].detectedBySensor)
  }

  /** `checkMedicationTaken` once the medication has been loaded: taken
      means confirmed by the user or seen by the sensor; a missing schedule
      is an error. */
  function CheckMedicationTaken(lookup: Result<Option<Medication>>, scheduleId: string): (r: Result<bool>)
    ensures lookup.Failure? ==> r == Failure(lookup.error)
    ensures lookup.Success? && lookup.value.Some? && HasSchedule(lookup.value.value, scheduleId) ==> r.Success?
    ensures r.Success? ==> lookup.Success? && lookup.value.Some? && ReportsTaken(lookup.value.value, scheduleId, r.value)
    ensures lookup.Success? && r.Failure? ==> r.error == "Horario no encontrado: " + scheduleId
  {
    if lookup.Failure? then Failure(lookup.error)
    else if lookup.value.Some? && FindSchedule(lookup.value.value.schedules, scheduleId).Some? then
      FindScheduleIsFirst(lookup.value.value.schedules, scheduleId);
      var s := FindSchedule(lookup.value.value.schedules, scheduleId).value;
      Success(s.takingConfirmed || s.detectedBySensor)
    else if lookup.value.None? then Failure("Horario no encontrado: " + scheduleId)
    else Failure("Horario no encontrado: " + scheduleId)
  }

  /** The first schedule with the given id. */
  function FindSchedule(ss: seq<Schedule>, id: string): (r: Option<Schedule>)
    ensures r.Some? ==> r.value in ss && r.value.id == Some(id)
    ensures r.None? <==> forall i :: 0 <= i < |ss| ==> ss[i].id != Some(id)
    decreases |ss|
  {
    if |ss| == 0 then None
    else if ss[0].id == Some(id) then Some(ss[0])
    else
      assert forall i :: 1 <= i < |ss| ==> ss[i] == ss[1..][i - 1];
      FindSchedule(ss[1..], id)
  }

  /** The schedule found is the first one with the id. */
  lemma {:induction false} FindScheduleIsFirst(ss: seq<Schedule>, id: string)
    ensures FindSchedule(ss, id).Some? ==> exists i :: FirstWithId(ss, id, i) && ss[i] == FindSchedule(ss, id).value
    decreases |ss|
  {
    if |ss| > 0 && ss[0].id != Some(id) && FindSchedule(ss, id).Some? {
      FindScheduleIsFirst(ss[1..], id);
      var i :| FirstWithId(ss[1..], id, i) && ss[1..][i] == FindSchedule(ss, id).value;
      assert FirstWithId(ss, id, i + 1);
    } else if |ss| > 0 && ss[0].id == Some(id) {
      assert FirstWithId(ss, id, 0);
    }
  }

  // ---------------------------------------------------------------------
  // Saving a medication

  /** The write common to add and update: a usable patient id, and liquid
      always in compartment 4. */
  function Normalize(m: Medication): (r: Result<Medication>)
    ensures r.Failure? <==> !IsUsablePatientId(m.patientId)
    ensures r.Failure? ==> r.error == INVALID_PATIENT
    ensures r.Success? && m.medType == MT.LIQUID ==> r.value == m.(compartmentNumber := MT.LIQUID_COMPARTMENT)
    ensures r.Success? && m.medType != MT.LIQUID ==> r.value == m
  {
    if !IsUsablePatientId(m.patientId) then Failure(INVALID_PATIENT)
    else if m.medType == MT.LIQUID then Success(m.(compartmentNumber := 4))
    else Success(m)
  }

  /** `addMedication`: a missing id gets `newId` (the random UUID). */
  function AddMedication(m: Medication, newId: string): (r: Result<Medication>)
    ensures r.Failure? <==> !IsUsablePatientId(m.patientId)
    ensures r.Success? ==> r.value.id == (if m.id.None? then Some(newId) else m.id)
    ensures r.Success? && m.medType == MT.LIQUID ==> r.value.compartmentNumber == 4
    ensures r.Success? && m.medType != MT.LIQUID ==> r.value.compartmentNumber == m.compartmentNumber
    ensures r.Success? ==> r.value.(id := m.id, compartmentNumber := m.compartmentNumber) == m
  {
    Normalize(if m.id.None? then m.(id := Some(newId)) else m)
  }

  /** `updateMedication`: the medication must already have an id. */
  function UpdateMedication(m: Medication): (r: Result<Medication>)
    ensures m.id.None? ==> r == Failure(INVALID_MEDICATION)
    ensures m.id.Some? ==> (r.Failure? <==> !IsUsablePatientId(m.patientId))
    ensures r.Success? && m.medType == MT.LIQUID ==> r.value.compartmentNumber == 4
    ensures r.Success? && m.medType != MT.LIQUID ==> r.value == m
    ensures r.Success? ==> r.value.(compartmentNumber := m.compartmentNumber) == m
  {
    if m.id.None? then Failure(INVALID_MEDICATION) else Normalize(m)
  }

  /** Updating a medication exactly as it was added stores it unchanged. */
  lemma AddThenUpdateIsStable(m: Medication, newId: string)
    requires AddMedication(m, newId).Success?
    ensures UpdateMedication(AddMedication(m, newId).value) == AddMedication(m, newId)
  {
  }

  /** Every stored liquid medication sits in a compartment that accepts liquid. */
  lemma StoredLiquidIsCompatible(m: Medication, newId: string)
    requires m.medType == MT.LIQUID
    requires AddMedication(m, newId).Success?
    ensures MT.IsCompatibleWithCompartment(MT.LIQUID, AddMedication(m, newId).value.compartmentNumber)
  {
  }
}

=== FILE: medication_type.dfy ===
/** Medication kinds and units understood by the dispenser: compartments
    1-3 hold pills, compartment 4 holds liquid. Types and units are plain
    strings in the app, so anything other than the constants below is
    treated as "not liquid" (and "not pill") exactly as the app does. */
module MedicationType {
  import JavaInt

  const PILL: string := "pill"
  const LIQUID: string := "liquid"

  const UNIT: string := "unit"
  const MILLIGRAM: string := "mg"
  const MILLILITER: string := "ml"

  /** ARGB colours as the Java `int` values the app stores (both are
      negative because the alpha byte is 0xFF). */
  const COLOR_PILL: int := JavaInt.Wrap32(0xFF4CAF50)
  const COLOR_LIQUID: int := JavaInt.Wrap32(0xFF2196F3)

  const PILL_COMPARTMENTS: int := 3
  const LIQUID_COMPARTMENT: int := 4
  const TOTAL_COMPARTMENTS: int := 4

  /** Any colour other than the liquid one is the pill colour. */
  function ColorForType(medType: string): (r: int)
    ensures r == COLOR_LIQUID <==> medType == LIQUID
    ensures r == COLOR_PILL <==> medType != LIQUID
  {
    assert COLOR_PILL != COLOR_LIQUID;
    if medType == LIQUID then COLOR_LIQUID else COLOR_PILL
  }

  function TypeLabel(medType: string): (r: string)
    ensures medType == LIQUID ==> r == "Líquido"
    ensures medType != LIQUID ==> r == "Pastilla/Cápsula"
  {
    if medType == LIQUID then "Líquido" else "Pastilla/Cápsula"
  }

  /** Display label of a unit; unknown units are shown as given. */
  function UnitLabel(unit: string): (r: string)
    ensures unit !in {UNIT, MILLIGRAM, MILLILITER} ==> r == unit
    ensures unit == UNIT ==> r == "Unidades"
    ensures unit in {MILLIGRAM, MILLILITER} ==> r == unit
  {
    if unit == UNIT then "Unidades"
    else if unit == MILLIGRAM then "mg"
    else if unit == MILLILITER then "ml"
    else unit
  }

  function IsCompatibleWithCompartment(medType: string, compartment: int): (r: bool)
    ensures !(1 <= compartment <= TOTAL_COMPARTMENTS) ==> !r
    ensures 1 <= compartment <= PILL_COMPARTMENTS ==> (r <==> medType == PILL)
    ensures compartment == LIQUID_COMPARTMENT ==> (r <==> medType == LIQUID)
  {
    if compartment < 1 || compartment > 4 then false
    else if compartment <= 3 then medType == PILL
    else medType == LIQUID
  }

  function MaxCompartmentsForType(medType: string): (r: int)
    ensures medType == LIQUID ==> r == 1
    ensures medType != LIQUID ==> r == PILL_COMPARTMENTS
  {
    if medType == LIQUID then 1 else 3
  }

  function FirstCompartmentForType(medType: string): (r: int)
    ensures medType == LIQUID ==> r == LIQUID_COMPARTMENT
    ensures medType != LIQUID ==> r == 1
  {
    if medType == LIQUID then 4 else 1
  }

  /** For the two real kinds, the compartments a medication may occupy are
      exactly the `Max` consecutive slots starting at `First`; for any other
      type string no compartment is compatible, although `First`/`Max`
      still answer as for a pill. */
  lemma CompatibleSlotsAreFirstToMax(medType: string, c: int)
    ensures medType in {PILL, LIQUID} ==>
      (IsCompatibleWithCompartment(medType, c) <==>
         FirstCompartmentForType(medType) <= c < FirstCompartmentForType(medType) + MaxCompartmentsForType(medType))
    ensures medType !in {PILL, LIQUID} ==> !IsCompatibleWithCompartment(medType, c)
  {
  }

  lemma FirstCompartmentIsCompatible(medType: string)
    requires medType in {PILL, LIQUID}
    ensures IsCompatibleWithCompartment(medType, FirstCompartmentForType(medType))
  {
  }
}

=== FILE: mqtt_sync.dfy ===
/** The schedule sync command the app publishes to the dispenser
    (`MqttViewModel.syncSchedules`). The JSON object is modelled as a
    record; timestamps and the MQTT publish are left to the caller. */
module MqttSync {
  import opened Wrappers
  import JavaText
  import opened PatientIds
  import opened Schedules
  import opened Medications

  const SYNC_COMMAND: string := "syncSchedules"
  const DEFAULT_PILLS_PER_DOSE: int := 1
  const DEFAULT_TOTAL_PILLS: int := 30

  datatype SchedulePayload = SchedulePayload(id: Option<string>, time: int, intervalMode: bool, days: seq<int>)

  datatype MedicationPayload = MedicationPayload(
    id: Option<string>,
    name: string,
    medType: string,
    compartment: int,
    pillsPerDose: int,
    totalPills: int,
    schedules: seq<SchedulePayload>)

  datatype SyncPayload = SyncPayload(cmd: string, autoDispense: bool, patientId: string, medications: seq<MedicationPayload>)

  /** Nothing to send, a refusal with the message shown to the user, or the
      payload to publish. */
  datatype SyncOutcome = Skipped | Refused(message: string) | Sent(payload: SyncPayload)

  // ---------------------------------------------------------------------
  // Patient id

  predicate NoneUsableBefore(meds: seq<Medication>, i: int)
    requires 0 <= i <= |meds|
  {
    forall j :: 0 <= j < i ==> !IsUsablePatientId(meds[j].patientId)
  }

  /** `obtainPatientIdFromMedications`: the first usable patient id in list order. */
  function PatientIdFromMedications(meds: seq<Medication>): (r: Option<string>)
    ensures r.Some? ==> IsUsablePatientId(r)
    ensures r.Some? ==> exists i :: 0 <= i < |meds| && meds[i].patientId == r && NoneUsableBefore(meds, i)
    ensures r.None? <==> NoneUsableBefore(meds, |meds|)
    decreases |meds|
  {
    if |meds| == 0 then None
    else if IsUsablePatientId(meds[0].patientId) then
      assert NoneUsableBefore(meds, 0);
      meds[0].patientId
    else
      var r := PatientIdFromMedications(meds[1..]);
      assert forall i :: 1 <= i <= |meds| ==> (NoneUsableBefore(meds, i) <==> NoneUsableBefore(meds[1..], i - 1));
      r
  }

  /** `getValidPatientId`: the selected id, else the connected one, else the
      one in preferences, whichever is usable first. */
  function ValidPatientId(selected: Option<string>, connected: Option<string>, preferences: Option<string>): (r: Option<string>)
    ensures r.Some? ==> IsUsablePatientId(r)
    ensures IsUsablePatientId(selected) ==> r == selected
    ensures !IsUsablePatientId(selected) && IsUsablePatientId(connected) ==> r == connected
    ensures !IsUsablePatientId(selected) && !IsUsablePatientId(connected) ==>
      r == (if IsUsablePatientId(preferences) then preferences else None)
  {
    if IsUsablePatientId(selected) then selected
    else if IsUsablePatientId(connected) then connected
    else if IsUsablePatientId(preferences) then preferences
    else None
  }

  // ---------------------------------------------------------------------
  // Time and days

  /** Minutes since midnight. */
  function EncodeTime(hour: int, minute: int): (t: int)
    ensures 0 <= hour < 24 && 0 <= minute < 60 ==> 0 <= t < 24 * 60
  {
    hour * 60 + minute
  }

  /** How the dispenser reads a time back. */
  function DecodeTime(t: int): (r: (int, int))
    ensures 0 <= r.1 < 60 && r.0 * 60 + r.1 == t
    ensures 0 <= t < 24 * 60 ==> 0 <= r.0 < 24
  {
    (t / 60, t % 60)
  }

  lemma TimeRoundTrip(hour: int, minute: int)
    requires 0 <= hour < 24 && 0 <= minute < 60
    ensures DecodeTime(EncodeTime(hour, minute)) == (hour, minute)
  {
  }

  /** The 1-based days (Monday = 1) set among mask entries `from`..6. */
  function SetDaysFrom(d: seq<bool>, from: nat): (r: seq<int>)
    requires |d| >= 7 && from <= 7
    ensures forall k :: k in r <==> from < k <= 7 && d[k - 1]
    ensures forall i :: 0 <= i < |r| ==> from < r[i] <= 7
    ensures forall i, j :: 0 <= i < j < |r| ==> r[i] < r[j]
    decreases 7 - from
  {
    if from == 7 then []
    else if d[from] then [from + 1] + SetDaysFrom(d, from + 1)
    else SetDaysFrom(d, from + 1)
  }

  /** The "days" array of a schedule: the set days when the mask has seven
      entries, otherwise every day. */
  function EncodeDays(days: Option<seq<bool>>): (r: seq<int>)
    ensures days.Some? && |days.value| >= 7 ==> forall k :: k in r <==> 1 <= k <= 7 && days.value[k - 1]
    ensures days.None? || |days.value| < 7 ==> r == [1, 2, 3, 4, 5, 6, 7]
    ensures forall i, j :: 0 <= i < j < |r| ==> r[i] < r[j]
  {
    if days.Some? && |days.value| >= 7 then SetDaysFrom(days.value, 0)
    else [1, 2, 3, 4, 5, 6, 7]
  }

  /** How the dispenser turns a day list back into a Monday-first mask. */
  function DecodeDays(r: seq<int>): (d: seq<bool>)
    ensures |d| == 7
  {
    seq(7, i => (i + 1) in r)
  }

  /** The day list keeps exactly the first seven entries of the mask. */
  lemma DaysRoundTrip(d: seq<bool>)
    requires |d| >= 7
    ensures DecodeDays(EncodeDays(Some(d))) == d[..7]
  {
  }

  // ---------------------------------------------------------------------
  // Payload

  predicate HasActiveSchedule(m: Medication) {
    exists i :: 0 <= i < |m.schedules| && m.schedules[i].active
  }

  function SchedulePayloadOf(s: Schedule): (p: SchedulePayload)
    ensures p.id == s.id && p.intervalMode == s.intervalMode
    ensures 0 <= s.hour < 24 && 0 <= s.minute < 60 ==> DecodeTime(p.time) == (s.hour, s.minute)
    ensures p.days == EncodeDays(s.daysOfWeek)
    ensures s.daysOfWeek.Some? && |s.daysOfWeek.value| >= 7 ==> DecodeDays(p.days) == s.daysOfWeek.value[..7]
    ensures s.daysOfWeek.None? || |s.daysOfWeek.value| < 7 ==> DecodeDays(p.days) == seq(7, i => true)
  {
    TimeRoundTripOf(s);
    DaysRoundTripOf(s.daysOfWeek);
    SchedulePayload(s.id, EncodeTime(s.hour, s.minute), s.intervalMode, EncodeDays(s.daysOfWeek))
  }

  lemma DaysRoundTripOf(days: Option<seq<bool>>)
    ensures days.Some? && |days.value| >= 7 ==> DecodeDays(EncodeDays(days)) == days.value[..7]
    ensures days.None? || |days.value| < 7 ==> DecodeDays(EncodeDays(days)) == seq(7, i => true)
  {
    if days.Some? && |days.value| >= 7 {
      DaysRoundTrip(days.value);
    }
  }

  lemma TimeRoundTripOf(s: Schedule)
    ensures 0 <= s.hour < 24 && 0 <= s.minute < 60 ==> DecodeTime(EncodeTime(s.hour, s.minute)) == (s.hour, s.minute)
  {
    if 0 <= s.hour < 24 && 0 <= s.minute < 60 {
      TimeRoundTrip(s.hour, s.minute);
    }
  }

  /** The payloads of the active schedules, in order. */
  function ActiveSchedules(ss: seq<Schedule>): (r: seq<SchedulePayload>)
    ensures |r| <= |ss|
    ensures forall p :: p in r ==> exists s :: s in ss && s.active && p == SchedulePayloadOf(s)
    ensures forall s :: s in ss && s.active ==> SchedulePayloadOf(s) in r
    ensures r == [] <==> forall i :: 0 <= i < |ss| ==> !ss[i].active
    decreases |ss|
  {
    if |ss| == 0 then []
    else
      var rest := ActiveSchedules(ss[1..]);
      assert ss == [ss[0]] + ss[1..];
      if ss[0].active then [SchedulePayloadOf(ss[0])] + rest else rest
  }

  function MedicationPayloadOf(m: Medication): (p: MedicationPayload)
    ensures p.id == m.id && p.name == m.name && p.compartment == m.compartmentNumber
    ensures p.medType == JavaText.ToLower(m.medType)
    ensures p.pillsPerDose == DEFAULT_PILLS_PER_DOSE && p.totalPills == DEFAULT_TOTAL_PILLS
    ensures p.schedules == ActiveSchedules(m.schedules)
  {
    MedicationPayload(m.id, m.name, JavaText.ToLower(m.medType), m.compartmentNumber,
                      DEFAULT_PILLS_PER_DOSE, DEFAULT_TOTAL_PILLS, ActiveSchedules(m.schedules))
  }

  /** The medications array: those with an active schedule, in order. */
  function MedicationsPayload(meds: seq<Medication>): (r: seq<MedicationPayload>)
    ensures |r| <= |meds|
    ensures forall p :: p in r ==> p.schedules != []
    decreases |meds|
  {
    if |meds| == 0 then []
    else
      var rest := MedicationsPayload(meds[1..]);
      if HasActiveSchedule(meds[0]) then [MedicationPayloadOf(meds[0])] + rest else rest
  }

  /** The medications array holds the payload of every medication with an
      active schedule and nothing else. */
  lemma {:induction false} MedicationsPayloadMembers(meds: seq<Medication>)
    ensures forall p :: p in MedicationsPayload(meds) ==>
      exists m :: m in meds && HasActiveSchedule(m) && p == MedicationPayloadOf(m)
    ensures forall m :: m in meds && HasActiveSchedule(m) ==> MedicationPayloadOf(m) in MedicationsPayload(meds)
    decreases |meds|
  {
    if |meds| > 0 {
      MedicationsPayloadMembers(meds[1..]);
      assert meds == [meds[0]] + meds[1..];
    }
  }

  /** `syncSchedules`: the patient id comes from the medications first and
      from the user's stored ids otherwise. */
  function SyncSchedules(meds: Option<seq<Medication>>, selected: Option<string>,
                         connected: Option<string>, preferences: Option<string>): (r: SyncOutcome)
    ensures meds.None? || meds.value == [] <==> r == Skipped
    ensures r.Refused? <==>
      meds.Some? && meds.value != [] &&
      PatientIdFromMedications(meds.value).None? && ValidPatientId(selected, connected, preferences).None?
    ensures r.Sent? ==>
      && r.payload.cmd == SYNC_COMMAND && r.payload.autoDispense
      && IsUsablePatientId(Some(r.payload.patientId))
      && r.payload.medications == MedicationsPayload(meds.value)
    ensures r.Sent? && PatientIdFromMedications(meds.value).Some? ==>
      Some(r.payload.patientId) == PatientIdFromMedications(meds.value)
    ensures r.Sent? && PatientIdFromMedications(meds.value).None? ==>
      Some(r.payload.patientId) == ValidPatientId(selected, connected, preferences)
  {
    if meds.None? || |meds.value| == 0 then Skipped
    else
      var fromMeds := PatientIdFromMedications(meds.value);
      var patientId := if fromMeds.Some? then fromMeds else ValidPatientId(selected, connected, preferences);
      if patientId.None? then Refused("No se puede sincronizar: ID de paciente inválido")
      else Sent(SyncPayload(SYNC_COMMAND, true, patientId.value, MedicationsPayload(meds.value)))
  }
}

=== FILE: notification_ids.dfy ===
/** The notification ids and pending-intent request codes of the medication
    reminders: a per-type base plus a three-digit offset mixed from the
    medication's and the schedule's id hashes. */
module NotificationIds {
  import opened JavaInt

  const NOTIFICATION_TYPE_UPCOMING: int := 1
  const NOTIFICATION_TYPE_MISSED: int := 2

  const REMINDER_NOTIFICATION_ID_BASE: int := 1000
  const MISSED_NOTIFICATION_ID_BASE: int := 2000
  const UPCOMING_REQUEST_CODE_BASE: int := 3000
  const MISSED_REQUEST_CODE_BASE: int := 4000

  /** `String.hashCode`: `h = 31 * h + c` over the characters, wrapping at
      32 bits after every step. */
  function HashCode(s: string): (h: int)
    ensures IsInt32(h)
  {
    if s == [] then 0 else Wrap32(31 * HashCode(s[..|s| - 1]) + s[|s| - 1] as int)
  }

  /** Two 32-bit values that agree modulo 2^32 are equal. */
  lemma Int32Congruent(a: int, b: int)
    requires IsInt32(a) && IsInt32(b) && (a - b) % TWO_32 == 0
    ensures a == b
  {
  }

  /** Wrapping after each operation is the same as wrapping once. */
  lemma WrapTwice(x: int, y: int)
    ensures Wrap32(Wrap32(x) + y) == Wrap32(x + y)
  {
    var a := Wrap32(Wrap32(x) + y);
    var b := Wrap32(x + y);
    var w := Wrap32(x);
    assert (a - (w + y)) % TWO_32 == 0;
    assert (w - x) % TWO_32 == 0;
    assert (b - (x + y)) % TWO_32 == 0;
    assert a - b == (a - (w + y)) + (w - x) - (b - (x + y));
    ModSum(a - (w + y), w - x, b - (x + y));
    Int32Congruent(a, b);
  }

  lemma ModSum(p: int, q: int, r: int)
    requires p % TWO_32 == 0 && q % TWO_32 == 0 && r % TWO_32 == 0
    ensures (p + q - r) % TWO_32 == 0
  {
    var i, j, k := p / TWO_32, q / TWO_32, r / TWO_32;
    assert p == i * TWO_32 && q == j * TWO_32 && r == k * TWO_32;
    assert p + q - r == (i + j - k) * TWO_32;
  }

  /** `medHash * 31 + schedHash` in Java `int` arithmetic. */
  function MixHashes(medHash: int, schedHash: int): (m: int)
    ensures IsInt32(m)
  {
    Wrap32(Wrap32(medHash * 31) + schedHash)
  }

  /** The wrapped multiply-then-add is the mathematical sum reduced once. */
  lemma MixWrapsOnce(medHash: int, schedHash: int)
    ensures MixHashes(medHash, schedHash) == Wrap32(medHash * 31 + schedHash)
  {
    WrapTwice(medHash * 31, schedHash);
  }

  function Mix(medicationId: string, scheduleId: string): int {
    MixHashes(HashCode(medicationId), HashCode(scheduleId))
  }

  /** `Math.abs(mix % 1000)`: Java's `%` keeps the sign of the mix. */
  function Offset(medicationId: string, scheduleId: string): (o: int)
    ensures 0 <= o < 1000
    ensures o == Abs(Mix(medicationId, scheduleId)) % 1000
  {
    Abs(Rem(Mix(medicationId, scheduleId), 1000))
  }

  /** `generateNotificationId`: every type other than "upcoming" uses the
      missed base. */
  function NotificationId(notificationType: int, medicationId: string, scheduleId: string): (id: int)
    ensures notificationType == NOTIFICATION_TYPE_UPCOMING ==> 1000 <= id <= 1999
    ensures notificationType != NOTIFICATION_TYPE_UPCOMING ==> 2000 <= id <= 2999
    ensures id % 1000 == Offset(medicationId, scheduleId)
  {
    var base := if notificationType == NOTIFICATION_TYPE_UPCOMING
                then REMINDER_NOTIFICATION_ID_BASE else MISSED_NOTIFICATION_ID_BASE;
    base + Offset(medicationId, scheduleId)
  }

  /** `generateRequestCode`. */
  function RequestCode(notificationType: int, medicationId: string, scheduleId: string): (code: int)
    ensures notificationType == NOTIFICATION_TYPE_UPCOMING ==> 3000 <= code <= 3999
    ensures notificationType != NOTIFICATION_TYPE_UPCOMING ==> 4000 <= code <= 4999
    ensures code % 1000 == Offset(medicationId, scheduleId)
  {
    var base := if notificationType == NOTIFICATION_TYPE_UPCOMING
                then UPCOMING_REQUEST_CODE_BASE else MISSED_REQUEST_CODE_BASE;
    base + Offset(medicationId, scheduleId)
  }

  /** An id tells which kind of notification it belongs to: upcoming and
      missed ids never collide, whatever the medications. */
  function IsUpcomingId(id: int): bool {
    id < MISSED_NOTIFICATION_ID_BASE
  }

  lemma IdsSeparateTypes(t1: int, m1: string, s1: string, t2: int, m2: string, s2: string)
    requires (t1 == NOTIFICATION_TYPE_UPCOMING) != (t2 == NOTIFICATION_TYPE_UPCOMING)
    ensures NotificationId(t1, m1, s1) != NotificationId(t2, m2, s2)
    ensures IsUpcomingId(NotificationId(t1, m1, s1)) <==> t1 == NOTIFICATION_TYPE_UPCOMING
  {
  }

  /** A request code is its notification's id shifted by 2000, so codes and
      ids never collide either. */
  lemma RequestCodeShiftsId(t: int, medicationId: string, scheduleId: string)
    ensures RequestCode(t, medicationId, scheduleId) == NotificationId(t, medicationId, scheduleId) + 2000
    ensures RequestCode(t, medicationId, scheduleId) != NotificationId(t, medicationId, scheduleId)
  {
  }

  /** The id only depends on the type and the two ids' hashes, so cancelling
      with a schedule's ids targets the notification shown for it. */
  lemma SameHashesSameId(t: int, m1: string, s1: string, m2: string, s2: string)
    requires HashCode(m1) == HashCode(m2) && HashCode(s1) == HashCode(s2)
    ensures NotificationId(t, m1, s1) == NotificationId(t, m2, s2)
  {
  }

  /** Distinct schedules may share an id: "Aa" and "BB" have the same hash. */
  lemma HashCollision()
    ensures HashCode("Aa") == HashCode("BB")
    ensures NotificationId(NOTIFICATION_TYPE_UPCOMING, "m", "Aa") == NotificationId(NOTIFICATION_TYPE_UPCOMING, "m", "BB")
  {
    assert HashCode("A") == 65;
    assert HashCode("B") == 66;
    assert "Aa"[..1] == "A" && "BB"[..1] == "B";
    assert HashCode("Aa") == 31 * 65 + 97;
    assert HashCode("BB") == 31 * 66 + 66;
  }
}

=== FILE: patient_ids.dfy ===
/** The patient-id checks shared by the view models, the schedule dialog
    and the repositories. */
module PatientIds {
  import opened Wrappers

  /** The placeholder some screens store before a real id is known. */
  const CURRENT_USER_ID: string := "current_user_id"

  /** The loose check: present, non-empty and not the placeholder. */
  predicate IsUsablePatientId(id: Option<string>) {
    id.Some? && id.value != [] && id.value != CURRENT_USER_ID
  }

  predicate IsIdChar(c: char) {
    ('A' <= c <= 'Z') || ('0' <= c <= '9')
  }

  /** The user repository's check: the loose one plus `[A-Z0-9]{6}`. */
  predicate IsWellFormedPatientId(id: Option<string>) {
    IsUsablePatientId(id) && |id.value| == 6 && forall i :: 0 <= i < 6 ==> IsIdChar(id.value[i])
  }

  /** The format alone already rules out null, empty and the placeholder. */
  lemma FormatImpliesUsable(id: Option<string>)
    requires id.Some? && |id.value| == 6 && forall i :: 0 <= i < 6 ==> IsIdChar(id.value[i])
    ensures IsWellFormedPatientId(id)
  {
    assert |CURRENT_USER_ID| != 6;
  }
}

=== FILE: provision_flow.dfy ===
/** The provisioning screens' decisions once a device is connected: the
    security level read from the device's version information, the check
    against the user's secure/insecure preference, and the screen chosen
    from the device's capabilities. */
module ProvisionFlow {
  import opened Wrappers
  import opened ProvisionManager

  const SEC_TYPE_0: int := 0
  const SEC_TYPE_1: int := 1
  const SEC_TYPE_2: int := 2
  const SEC_TYPE_DEFAULT: int := SEC_TYPE_2

  const CAPABILITY_WIFI_SCAN: string := "wifi_scan"
  const CAPABILITY_THREAD_SCAN: string := "thread_scan"
  const CAPABILITY_THREAD_PROV: string := "thread_prov"
  const CAPABILITY_NO_POP: string := "no_pop"

  const DEFAULT_USER_NAME_WIFI: string := "wifiprov"
  const DEFAULT_USER_NAME_THREAD: string := "threadprov"

  /** The parsed version string: not JSON, JSON without a "prov" object, or
      the "prov" object. `secVer` is what `optInt("sec_ver")` returns
      (0 for a value that is not a number) and only matters when
      `hasSecVer` holds. */
  datatype VersionInfo =
    | Unparsable
    | NoProv
    | Prov(hasSecVer: bool, secVer: int)

  /** The connected device's state the version check reads and writes. */
  datatype Connected = Connected(security: SecurityType, userName: string, caps: Option<seq<string>>)

  /** The stored user names; `None` when the preference was never set. */
  datatype UserNamePrefs = UserNamePrefs(thread: Option<string>, wifi: Option<string>)

  predicate HasThreadCaps(caps: Option<seq<string>>) {
    caps.Some? && |caps.value| > 0
    && (CAPABILITY_THREAD_SCAN in caps.value || CAPABILITY_THREAD_PROV in caps.value)
  }

  /** The user name chosen on the level-2 path: the Thread name for a Thread
      device, otherwise the Wi-Fi name when none is set yet. */
  function Sec2UserName(dev: Connected, prefs: UserNamePrefs): (r: string)
    ensures HasThreadCaps(dev.caps) ==> r == prefs.thread.GetOr(DEFAULT_USER_NAME_THREAD)
    ensures !HasThreadCaps(dev.caps) && dev.userName == "" ==> r == prefs.wifi.GetOr(DEFAULT_USER_NAME_WIFI)
    ensures !HasThreadCaps(dev.caps) && dev.userName != "" ==> r == dev.userName
  {
    if HasThreadCaps(dev.caps) then prefs.thread.GetOr(DEFAULT_USER_NAME_THREAD)
    else if dev.userName == "" then prefs.wifi.GetOr(DEFAULT_USER_NAME_WIFI)
    else dev.userName
  }

  datatype SecurityState = SecurityState(securityType: int, device: Connected)

  /** `setSecurityTypeFromVersionInfo` of the manual-provisioning screens:
      `securityType` is the screen's current level. */
  function ApplyVersionInfo(info: VersionInfo, securityType: int, dev: Connected, prefs: UserNamePrefs): (r: SecurityState)
    ensures !info.Prov? ==> r == SecurityState(securityType, dev)
    ensures info.Prov? && info.hasSecVer ==>
              && r.securityType == Ordinal(SetSecurityType(info.secVer))
              && r.device.security == SetSecurityType(info.secVer)
              && r.device.caps == dev.caps
    ensures info.Prov? && info.hasSecVer && r.securityType != SEC_TYPE_2 ==> r.device.userName == dev.userName
    ensures info.Prov? && info.hasSecVer && r.securityType == SEC_TYPE_2 ==> r.device.userName == Sec2UserName(dev, prefs)
    ensures info.Prov? && !info.hasSecVer && securityType == SEC_TYPE_2 ==>
              r == SecurityState(SEC_TYPE_1, dev.(security := Security1))
    ensures info.Prov? && !info.hasSecVer && securityType != SEC_TYPE_2 ==> r == SecurityState(securityType, dev)
  {
    match info
    case Unparsable => SecurityState(securityType, dev)
    case NoProv => SecurityState(securityType, dev)
    case Prov(hasSecVer, secVer) =>
      if hasSecVer then
        if secVer == SEC_TYPE_0 then SecurityState(SEC_TYPE_0, dev.(security := Security0))
        else if secVer == SEC_TYPE_1 then SecurityState(SEC_TYPE_1, dev.(security := Security1))
        else SecurityState(SEC_TYPE_2, dev.(security := Security2, userName := Sec2UserName(dev, prefs)))
      else if securityType == SEC_TYPE_2 then SecurityState(SEC_TYPE_1, dev.(security := Security1))
      else SecurityState(securityType, dev)
  }

  /** The screen's level and the device's level agree after any change. */
  lemma ApplyVersionInfoAgrees(info: VersionInfo, securityType: int, dev: Connected, prefs: UserNamePrefs)
    requires securityType == Ordinal(dev.security)
    ensures var r := ApplyVersionInfo(info, securityType, dev, prefs);
            r.securityType == Ordinal(r.device.security)
  {
  }

  /** Reading the same version information twice changes nothing more. */
  lemma ApplyVersionInfoIdempotent(info: VersionInfo, securityType: int, dev: Connected, prefs: UserNamePrefs)
    ensures var once := ApplyVersionInfo(info, securityType, dev, prefs);
            ApplyVersionInfo(info, once.securityType, once.device, prefs) == once
  {
    var once := ApplyVersionInfo(info, securityType, dev, prefs);
    if info.Prov? && info.hasSecVer && once.securityType == SEC_TYPE_2 {
      assert once.device.caps == dev.caps;
    }
  }

  /** The add-device screen runs the same check from level 2: "sec_ver" 0
      and 1 select their level, any other number level 2 with the level-2
      user name; without a "sec_ver" it settles on level 1, and without a
      "prov" object it stays at level 2 with the device untouched. */
  function AddDeviceSecurity(info: VersionInfo, dev: Connected, prefs: UserNamePrefs): (r: SecurityState)
    ensures info.Prov? && info.hasSecVer ==>
              && r.securityType == Ordinal(SetSecurityType(info.secVer))
              && r.device.security == SetSecurityType(info.secVer)
              && r.device.caps == dev.caps
    ensures info.Prov? && info.hasSecVer && info.secVer == SEC_TYPE_0 ==> r == SecurityState(SEC_TYPE_0, dev.(security := Security0))
    ensures info.Prov? && info.hasSecVer && info.secVer == SEC_TYPE_1 ==> r == SecurityState(SEC_TYPE_1, dev.(security := Security1))
    ensures info.Prov? && info.hasSecVer && info.secVer != SEC_TYPE_0 && info.secVer != SEC_TYPE_1 ==>
              r == SecurityState(SEC_TYPE_2, dev.(security := Security2, userName := Sec2UserName(dev, prefs)))
    ensures info.Prov? && !info.hasSecVer ==> r == SecurityState(SEC_TYPE_1, dev.(security := Security1))
    ensures !info.Prov? ==> r == SecurityState(SEC_TYPE_2, dev)
  {
    ApplyVersionInfo(info, SEC_TYPE_DEFAULT, dev, prefs)
  }

  /** The add-device screen decides exactly as the manual screens do when
      they start from level 2, and for a device that starts at level 2 the
      screen's level and the device's agree afterwards. */
  lemma AddDeviceSecurityIsManualFromLevel2(info: VersionInfo, dev: Connected, prefs: UserNamePrefs)
    ensures AddDeviceSecurity(info, dev, prefs) == ApplyVersionInfo(info, SEC_TYPE_2, dev, prefs)
    ensures dev.security == Security2 ==>
              AddDeviceSecurity(info, dev, prefs).securityType == Ordinal(AddDeviceSecurity(info, dev, prefs).device.security)
  {
    if dev.security == Security2 {
      ApplyVersionInfoAgrees(info, SEC_TYPE_2, dev, prefs);
    }
  }

  /** The security-mismatch check: a secure preference refuses level 0, an
      insecure one refuses every other level. */
  predicate SecurityMismatch(isSecure: bool, securityType: int) {
    if isSecure then securityType == SEC_TYPE_0 else securityType != SEC_TYPE_0
  }

  lemma MismatchIffPreferenceDisagrees(isSecure: bool, securityType: int)
    ensures SecurityMismatch(isSecure, securityType) <==> (isSecure <==> securityType == SEC_TYPE_0)
  {
  }

  datatype Screen =
    | WifiScan
    | ThreadScan(scanFirst: bool)
    | WifiConfig
    | PopEntry
    | MismatchError

  /** The add-device screen's `processDeviceCapabilities`. */
  function CapabilityRoute(caps: Option<seq<string>>): (r: Screen)
    ensures r == WifiScan <==> caps.Some? && CAPABILITY_WIFI_SCAN in caps.value
    ensures r == ThreadScan(true) <==>
              caps.Some? && CAPABILITY_WIFI_SCAN !in caps.value && CAPABILITY_THREAD_SCAN in caps.value
    ensures r == ThreadScan(false) <==>
              caps.Some? && CAPABILITY_WIFI_SCAN !in caps.value && CAPABILITY_THREAD_SCAN !in caps.value
              && CAPABILITY_THREAD_PROV in caps.value
    ensures r == WifiConfig <==>
              caps.None? || (CAPABILITY_WIFI_SCAN !in caps.value && CAPABILITY_THREAD_SCAN !in caps.value
                             && CAPABILITY_THREAD_PROV !in caps.value)
  {
    if caps.Some? && CAPABILITY_WIFI_SCAN in caps.value then WifiScan
    else if caps.Some? && CAPABILITY_THREAD_SCAN in caps.value then ThreadScan(true)
    else if caps.Some? && CAPABILITY_THREAD_PROV in caps.value then ThreadScan(false)
    else WifiConfig
  }

  /** The add-device screen after the version check. */
  function AddDeviceConnected(isSecure: bool, securityType: int, caps: Option<seq<string>>): (r: Screen)
    ensures r == MismatchError <==> SecurityMismatch(isSecure, securityType)
    ensures r != MismatchError ==> r == CapabilityRoute(caps)
  {
    if SecurityMismatch(isSecure, securityType) then MismatchError else CapabilityRoute(caps)
  }

  /** The landing screen's `processDeviceCapabilities`: the screen chosen and
      the proof of possession stored on the device, if any. */
  datatype LandingChoice = LandingChoice(screen: Screen, storedPop: Option<string>)

  function LandingRoute(caps: Option<seq<string>>, pop: string, securityType: int): (r: LandingChoice)
    ensures caps.None? ==> r == LandingChoice(WifiConfig, None)
    ensures r.storedPop.Some? <==> caps.Some? && pop != ""
    ensures r.storedPop.Some? ==> r.storedPop.value == pop
    ensures r.screen == PopEntry <==>
              caps.Some? && pop == "" && CAPABILITY_NO_POP !in caps.value && securityType != SEC_TYPE_0
    ensures r.screen != PopEntry ==> r.screen == CapabilityRoute(caps)
  {
    if caps.None? then LandingChoice(WifiConfig, None)
    else if pop != "" then LandingChoice(CapabilityRoute(caps), Some(pop))
    else if CAPABILITY_NO_POP !in caps.value && securityType != SEC_TYPE_0 then LandingChoice(PopEntry, None)
    else LandingChoice(CapabilityRoute(caps), None)
  }

  /** Without the PoP screen, both screens route by the same priority. */
  lemma LandingMatchesAddDevice(caps: Option<seq<string>>, pop: string, securityType: int)
    requires pop != "" || caps.None? || CAPABILITY_NO_POP in caps.value || securityType == SEC_TYPE_0
    ensures LandingRoute(caps, pop, securityType).screen == CapabilityRoute(caps)
  {
  }

  /** The landing screen's connected event: the version check, then the
      mismatch check, then the capability routing. */
  function LandingConnected(
    info: VersionInfo, securityType: int, dev: Connected, prefs: UserNamePrefs,
    isSecure: bool, pop: string): (r: LandingChoice)
    ensures var st := ApplyVersionInfo(info, securityType, dev, prefs);
            && (r.screen == MismatchError <==> SecurityMismatch(isSecure, st.securityType))
            && (r.screen != MismatchError ==> r == LandingRoute(dev.caps, pop, st.securityType))
  {
    var st := ApplyVersionInfo(info, securityType, dev, prefs);
    assert st.device.caps == dev.caps;
    if SecurityMismatch(isSecure, st.securityType) then LandingChoice(MismatchError, None)
    else LandingRoute(dev.caps, pop, st.securityType)
  }

  /** Once the check passes, a secure preference never skips the PoP screen
      for a device that asks for one and brings no PoP. */
  lemma SecureLandingAsksForPop(
    info: VersionInfo, securityType: int, dev: Connected, prefs: UserNamePrefs)
    requires dev.caps.Some? && CAPABILITY_NO_POP !in dev.caps.value
    ensures var r := LandingConnected(info, securityType, dev, prefs, true, "");
            r.screen == MismatchError || r.screen == PopEntry
  {
  }

  /** The manual fallback: the device's security enum as the landing screen's
      level; no enum value reads as level 2. */
  function ManualSecurityType(t: Option<SecurityType>): (r: int)
    ensures t.Some? ==> SetSecurityType(r) == t.value
    ensures t.None? ==> r == SEC_TYPE_2
  {
    match t
    case Some(Security0) => SEC_TYPE_0
    case Some(Security1) => SEC_TYPE_1
    case Some(Security2) => SEC_TYPE_2
    case None => SEC_TYPE_2
  }

  /** The fallback is the enum's ordinal, so it inverts `SetSecurityType` on
      the levels 0..2. */
  lemma ManualSecurityTypeRoundTrip(level: int)
    requires SEC_TYPE_0 <= level <= SEC_TYPE_2
    ensures ManualSecurityType(Some(SetSecurityType(level))) == level
  {
  }

  const DEVICE_TYPE_BLE: string := "ble"
  const DEVICE_TYPE_SOFTAP: string := "softap"

  /** The device created and the level handed to the landing screen. */
  datatype Started = Started(transport: TransportType, security: SecurityType, securityType: int)

  /** `startProvisioningFlow`: a single stored device type creates the device
      directly; any other setting asks the user first (`None`). */
  function StartProvisioning(deviceType: string, isSecure: bool): (r: Option<Started>)
    ensures r.Some? <==> deviceType == DEVICE_TYPE_BLE || deviceType == DEVICE_TYPE_SOFTAP
    ensures r.Some? ==> (r.value.transport == Ble <==> deviceType == DEVICE_TYPE_BLE)
    ensures r.Some? ==> (r.value.security == Security2 <==> isSecure)
    ensures r.Some? ==> (r.value.security == Security0 <==> !isSecure)
  {
    var security := if isSecure then Security2 else Security0;
    var level := if isSecure then SEC_TYPE_DEFAULT else SEC_TYPE_0;
    if deviceType == DEVICE_TYPE_BLE then Some(Started(Ble, security, level))
    else if deviceType == DEVICE_TYPE_SOFTAP then Some(Started(Softap, security, level))
    else None
  }

  /** A flow started from the preference hands over a level that agrees with
      the device it created and passes the mismatch check for the same
      preference. */
  lemma StartedFlowIsConsistent(deviceType: string, isSecure: bool)
    requires StartProvisioning(deviceType, isSecure).Some?
    ensures var s := StartProvisioning(deviceType, isSecure).value;
            && s.securityType == ManualSecurityType(Some(s.security))
            && !SecurityMismatch(isSecure, s.securityType)
  {
  }
}

=== FILE: schedule.dfy ===
/** A dose time for one medication (`Schedule.java`): hour and minute, a
    Monday-first mask of weekdays, flags set by the dispenser and its
    sensor, and the cached timestamp of the next occurrence. The wall
    clock is a `Clock` parameter instead of `Calendar.getInstance()`. */
module Schedules {
  import opened Wrappers
  import JavaInt
  import JavaText

  const MINUTE_MILLIS: int := 60 * 1000
  const DAY_MILLIS: int := 24 * 60 * MINUTE_MILLIS

  /** `daysOfWeek` is indexed 0 = Monday … 6 = Sunday; `None` is Java's `null`. */
  datatype Schedule = Schedule(
    id: Option<string>,
    medicationId: Option<string>,
    hour: int,
    minute: int,
    daysOfWeek: Option<seq<bool>>,
    active: bool,
    takingConfirmed: bool,
    lastTaken: int,
    nextScheduled: int,
    dispensed: bool,
    detectedBySensor: bool,
    dispensedAt: int,
    detectedAt: int,
    use24HourFormat: bool,
    intervalMode: bool,
    intervalHours: int,
    treatmentDays: int)

  /** The fields of `Calendar.getInstance()` that the schedule reads.
      `dayOfWeek` uses Calendar's numbering (1 = Sunday … 7 = Saturday);
      `yearLater` is the instant that `add(Calendar.YEAR, 1)` yields. */
  datatype Clock = Clock(
    millis: int,
    dayOfWeek: int,
    hour: int,
    minute: int,
    second: int,
    milli: int,
    yearLater: int)

  predicate ValidClock(c: Clock) {
    && 1 <= c.dayOfWeek <= 7
    && 0 <= c.hour < 24 && 0 <= c.minute < 60
    && 0 <= c.second < 60 && 0 <= c.milli < 1000
    && c.yearLater > c.millis
  }

  /** Midnight of the clock's day. */
  function StartOfDay(c: Clock): int {
    c.millis - ((c.hour * 60 + c.minute) * 60 + c.second) * 1000 - c.milli
  }

  /** A mask that `get(i)` can read for every weekday without throwing. */
  predicate Readable(days: Option<seq<bool>>) {
    days.Some? ==> |days.value| >= 7
  }

  // ---------------------------------------------------------------------
  // Day of week

  /** Calendar's DAY_OF_WEEK mapped onto the Monday-first mask index. */
  function DayIndex(calendarDay: int): (r: int)
    requires 1 <= calendarDay <= 7
    ensures 0 <= r < 7
    ensures calendarDay >= 2 ==> r == calendarDay - 2
    ensures calendarDay == 1 ==> r == 6
  {
    (calendarDay + 5) % 7
  }

  /** Distinct calendar days land on distinct mask entries. */
  lemma DayIndexInjective(d1: int, d2: int)
    requires 1 <= d1 <= 7 && 1 <= d2 <= 7
    ensures DayIndex(d1) == DayIndex(d2) <==> d1 == d2
  {
  }

  function IsForToday(s: Schedule, calendarDay: int): (r: bool)
    requires 1 <= calendarDay <= 7
    requires Readable(s.daysOfWeek)
    ensures r <==> s.daysOfWeek.Some? && s.daysOfWeek.value[DayIndex(calendarDay)]
  {
    s.daysOfWeek != None && s.daysOfWeek.value[(calendarDay + 5) % 7]
  }

  // ---------------------------------------------------------------------
  // Next occurrence

  /** Where the next dose falls relative to the clock's day. */
  datatype Slot = Today | InDays(days: int) | NextYear

  predicate Selected(days: Option<seq<bool>>, i: int)
    requires Readable(days)
    requires 0 <= i < 7
  {
    days.Some? && days.value[i]
  }

  /** The weekday `j` days after `today` is selected. */
  predicate SelectedAfter(days: Option<seq<bool>>, today: int, j: int)
    requires Readable(days)
    requires 0 <= today < 7
  {
    Selected(days, (today + j) % 7)
  }

  predicate LaterToday(hour: int, minute: int, c: Clock) {
    hour > c.hour || (hour == c.hour && minute > c.minute)
  }

  /** The search loop of `updateNextScheduledTime`: try `daysToAdd` = k, k+1,
      …, 7 and give up (one year later) once it passes 7. */
  function SearchFrom(days: Option<seq<bool>>, today: int, k: int): (r: Slot)
    requires Readable(days)
    requires 0 <= today < 7 && 1 <= k <= 7
    ensures r != Today
    ensures r.InDays? ==> k <= r.days <= 7 && SelectedAfter(days, today, r.days)
    ensures r.InDays? ==> forall j :: k <= j < r.days ==> !SelectedAfter(days, today, j)
    ensures r.NextYear? <==> forall j :: k <= j <= 7 ==> !SelectedAfter(days, today, j)
    decreases 8 - k
  {
    if SelectedAfter(days, today, k) then InDays(k)
    else if k + 1 > 7 then NextYear
    else SearchFrom(days, today, k + 1)
  }

  /** `updateNextScheduledTime`'s choice: today, a number of days ahead,
      or one year later. */
  function NextSlot(days: Option<seq<bool>>, hour: int, minute: int, c: Clock): (r: Slot)
    requires Readable(days)
    requires ValidClock(c)
    ensures r == Today <==> Selected(days, DayIndex(c.dayOfWeek)) && LaterToday(hour, minute, c)
    ensures r.InDays? ==>
      && 1 <= r.days <= 7
      && SelectedAfter(days, DayIndex(c.dayOfWeek), r.days)
      && forall j :: 1 <= j < r.days ==> !SelectedAfter(days, DayIndex(c.dayOfWeek), j)
  {
    var today := DayIndex(c.dayOfWeek);
    if Selected(days, today) && LaterToday(hour, minute, c) then Today
    else SearchFrom(days, today, 1)
  }

  /** The next occurrence is today exactly when today is selected and the
      dose time is strictly after the clock's hour:minute; otherwise it is
      the smallest `daysToAdd` in 1..7 that lands on a selected weekday. */
  lemma NextSlotChoosesEarliest(days: Option<seq<bool>>, hour: int, minute: int, c: Clock)
    requires Readable(days)
    requires ValidClock(c)
    ensures var today := DayIndex(c.dayOfWeek);
      NextSlot(days, hour, minute, c) == Today <==> Selected(days, today) && LaterToday(hour, minute, c)
    ensures var r := NextSlot(days, hour, minute, c); var today := DayIndex(c.dayOfWeek);
      r.InDays? ==>
        && 1 <= r.days <= 7
        && SelectedAfter(days, today, r.days)
        && forall j :: 1 <= j < r.days ==> !SelectedAfter(days, today, j)
  {
  }

  /** Giving up after a week happens exactly when no weekday is selected. */
  lemma {:induction false} NextYearIffNoDay(days: Option<seq<bool>>, hour: int, minute: int, c: Clock)
    requires Readable(days)
    requires ValidClock(c)
    ensures NextSlot(days, hour, minute, c) == NextYear <==> forall i :: 0 <= i < 7 ==> !Selected(days, i)
  {
    var today := DayIndex(c.dayOfWeek);
    if forall j :: 1 <= j <= 7 ==> !SelectedAfter(days, today, j) {
      forall i | 0 <= i < 7
        ensures !Selected(days, i)
      {
        var j := if i > today then i - today else i - today + 7;
        assert 1 <= j <= 7 && (today + j) % 7 == i;
        assert !SelectedAfter(days, today, j);
      }
    }
  }

  /** `calendar.getTimeInMillis()` after the adjustments, for a time zone
      without daylight-saving jumps. */
  function SlotMillis(slot: Slot, hour: int, minute: int, c: Clock): int {
    match slot
    case Today => StartOfDay(c) + (hour * 60 + minute) * MINUTE_MILLIS
    case InDays(k) => StartOfDay(c) + k * DAY_MILLIS + (hour * 60 + minute) * MINUTE_MILLIS
    case NextYear => c.yearLater
  }

  /** No weekday of the mask is selected. */
  predicate NoDaySelected(days: Option<seq<bool>>)
    requires Readable(days)
  {
    forall i :: 0 <= i < 7 ==> !Selected(days, i)
  }

  /** The `nextScheduled` time stamp `updateNextScheduledTime` stores: one
      year later exactly when no weekday is selected, otherwise within a
      week of today's midnight; for a real time of day always in the future. */
  function NextScheduledMillis(days: Option<seq<bool>>, hour: int, minute: int, c: Clock): (r: int)
    requires Readable(days)
    requires ValidClock(c)
    ensures NoDaySelected(days) ==> r == c.yearLater
    ensures !NoDaySelected(days) ==> r <= StartOfDay(c) + 7 * DAY_MILLIS + (hour * 60 + minute) * MINUTE_MILLIS
    ensures 0 <= hour < 24 && 0 <= minute < 60 ==> r > c.millis
  {
    NextYearIffNoDay(days, hour, minute, c);
    NextSlotIsFuture(days, hour, minute, c);
    SlotMillis(NextSlot(days, hour, minute, c), hour, minute, c)
  }

  /** Every slot the search can choose lies strictly after the clock. */
  lemma SlotMillisIsFuture(slot: Slot, hour: int, minute: int, c: Clock)
    requires ValidClock(c)
    requires 0 <= hour < 24 && 0 <= minute < 60
    requires slot == Today ==> LaterToday(hour, minute, c)
    requires slot.InDays? ==> slot.days >= 1
    ensures SlotMillis(slot, hour, minute, c) > c.millis
  {
    var nowMinute := c.hour * 60 + c.minute;
    var elapsed := nowMinute * MINUTE_MILLIS + c.second * 1000 + c.milli;
    assert elapsed < (nowMinute + 1) * MINUTE_MILLIS;
    assert c.millis == StartOfDay(c) + elapsed;
    match slot
    case Today =>
      assert hour * 60 + minute >= nowMinute + 1;
    case InDays(k) =>
      assert nowMinute + 1 <= 24 * 60;
      assert elapsed < DAY_MILLIS;
      assert k * DAY_MILLIS >= DAY_MILLIS;
    case NextYear =>
  }

  lemma NextSlotIsFuture(days: Option<seq<bool>>, hour: int, minute: int, c: Clock)
    requires Readable(days)
    requires ValidClock(c)
    ensures 0 <= hour < 24 && 0 <= minute < 60 ==> SlotMillis(NextSlot(days, hour, minute, c), hour, minute, c) > c.millis
  {
    if 0 <= hour < 24 && 0 <= minute < 60 {
      SlotMillisIsFuture(NextSlot(days, hour, minute, c), hour, minute, c);
    }
  }

  /** For a real clock time the computed next dose is strictly in the future. */
  lemma NextScheduledIsFuture(days: Option<seq<bool>>, hour: int, minute: int, c: Clock)
    requires Readable(days)
    requires ValidClock(c)
    requires 0 <= hour < 24 && 0 <= minute < 60
    ensures NextScheduledMillis(days, hour, minute, c) > c.millis
  {
    NextSlotChoosesEarliest(days, hour, minute, c);
    SlotMillisIsFuture(NextSlot(days, hour, minute, c), hour, minute, c);
  }

  // ---------------------------------------------------------------------
  // Setters

  /** `setHour`: stores the hour and recomputes the next occurrence. */
  function SetHour(s: Schedule, hour: int, c: Clock): (r: Schedule)
    requires Readable(s.daysOfWeek)
    requires ValidClock(c)
    ensures r.hour == hour
    ensures r.nextScheduled == NextScheduledMillis(s.daysOfWeek, hour, s.minute, c)
    ensures r.(hour := s.hour, nextScheduled := s.nextScheduled) == s
  {
    s.(hour := hour, nextScheduled := NextScheduledMillis(s.daysOfWeek, hour, s.minute, c))
  }

  /** `setMinute`: stores the minute and recomputes the next occurrence. */
  function SetMinute(s: Schedule, minute: int, c: Clock): (r: Schedule)
    requires Readable(s.daysOfWeek)
    requires ValidClock(c)
    ensures r.minute == minute
    ensures r.nextScheduled == NextScheduledMillis(s.daysOfWeek, s.hour, minute, c)
    ensures r.(minute := s.minute, nextScheduled := s.nextScheduled) == s
  {
    s.(minute := minute, nextScheduled := NextScheduledMillis(s.daysOfWeek, s.hour, minute, c))
  }

  /** `setDaysOfWeek`: stores the mask and recomputes the next occurrence. */
  function SetDaysOfWeek(s: Schedule, days: Option<seq<bool>>, c: Clock): (r: Schedule)
    requires Readable(days)
    requires ValidClock(c)
    ensures r.daysOfWeek == days
    ensures r.nextScheduled == NextScheduledMillis(days, s.hour, s.minute, c)
    ensures r.(daysOfWeek := s.daysOfWeek, nextScheduled := s.nextScheduled) == s
  {
    s.(daysOfWeek := days, nextScheduled := NextScheduledMillis(days, s.hour, s.minute, c))
  }

  /** `setActive` only flips the flag; the cached next occurrence is kept. */
  function SetActive(s: Schedule, active: bool): (r: Schedule)
    ensures r.active == active && r.nextScheduled == s.nextScheduled
    ensures r.(active := s.active) == s
  {
    s.(active := active)
  }

  /** `setDispensed`: a positive report also stamps `dispensedAt`. */
  function SetDispensed(s: Schedule, dispensed: bool, nowMillis: int): (r: Schedule)
    ensures r.dispensed == dispensed
    ensures dispensed ==> r.dispensedAt == nowMillis
    ensures !dispensed ==> r == s.(dispensed := false)
  {
    if dispensed then s.(dispensed := true, dispensedAt := nowMillis)
    else s.(dispensed := false)
  }

  /** `setDetectedBySensor`: a detection confirms the dose; clearing the
      flag leaves the confirmation as it was. */
  function SetDetectedBySensor(s: Schedule, detected: bool, nowMillis: int): (r: Schedule)
    ensures r.detectedBySensor == detected
    ensures detected ==> r.takingConfirmed && r.lastTaken == nowMillis && r.detectedAt == nowMillis
    ensures !detected ==> r.takingConfirmed == s.takingConfirmed && r.lastTaken == s.lastTaken
    ensures !detected ==> r == s.(detectedBySensor := false)
  {
    if detected then
      s.(detectedBySensor := true, detectedAt := nowMillis, takingConfirmed := true, lastTaken := nowMillis)
    else
      s.(detectedBySensor := false)
  }

  // ---------------------------------------------------------------------
  // Time of day as text

  /** The hour shown on a 12-hour clock: Java's `hour % 12`, with 0 shown as 12. */
  function DisplayHour12(hour: int): (r: int)
    ensures 0 <= hour < 24 ==> 1 <= r <= 12
    ensures 0 <= hour < 24 ==> hour == r % 12 + (if hour >= 12 then 12 else 0)
  {
    var h := JavaInt.Rem(hour, 12);
    if h == 0 then 12 else h
  }

  function Meridiem(hour: int): (r: string)
    ensures r == "AM" <==> hour < 12
    ensures r == "PM" <==> hour >= 12
  {
    if hour >= 12 then "PM" else "AM"
  }

  /** `getFormattedTime`: "HH:MM" in 24-hour mode, "h:MM AM|PM" otherwise. */
  function FormattedTime(hour: int, minute: int, use24HourFormat: bool): (r: string)
    ensures use24HourFormat && 0 <= hour < 24 && 0 <= minute < 60 ==>
      |r| == 5 && r[2] == ':' && JavaInt.AllDigits(r[..2]) && JavaInt.AllDigits(r[3..])
    ensures !use24HourFormat ==> |r| >= 3 && r[|r| - 3] == ' ' && r[|r| - 2..] == Meridiem(hour)
  {
    if use24HourFormat then
      JavaInt.Format02d(hour) + ":" + JavaInt.Format02d(minute)
    else
      var prefix := JavaInt.IntToString(DisplayHour12(hour)) + ":" + JavaInt.Format02d(minute);
      var t := prefix + " " + Meridiem(hour);
      assert t[|t| - 2..] == Meridiem(hour) && t[|t| - 3] == ' ';
      t
  }

  /** Reads an "HH:MM" text back into hour and minute. */
  function ParseTime24(t: string): Option<(int, int)> {
    if |t| == 5 && t[2] == ':' && JavaInt.AllDigits(t[..2]) && JavaInt.AllDigits(t[3..]) then
      Some((JavaInt.DigitsValue(t[..2]), JavaInt.DigitsValue(t[3..])))
    else
      None
  }

  /** The 24-hour text loses nothing: it reads back to the same time. */
  lemma FormattedTime24RoundTrip(hour: int, minute: int)
    requires 0 <= hour < 24 && 0 <= minute < 60
    ensures ParseTime24(FormattedTime(hour, minute, true)) == Some((hour, minute))
  {
    var t := FormattedTime(hour, minute, true);
    assert t[..2] == JavaInt.Format02d(hour);
    assert t[3..] == JavaInt.Format02d(minute);
  }

  /** Reads an "h:MM AM|PM" text back into a 24-hour hour and a minute. */
  function ParseTime12(t: string): Option<(int, int)> {
    if |t| >= 7 && t[|t| - 3] == ' ' && (t[|t| - 2..] == "AM" || t[|t| - 2..] == "PM") then
      var clock := t[..|t| - 3];
      var n := |clock|;
      if clock[n - 3] == ':' && JavaInt.AllDigits(clock[..n - 3]) && JavaInt.AllDigits(clock[n - 2..]) then
        var h12 := JavaInt.DigitsValue(clock[..n - 3]);
        var m := JavaInt.DigitsValue(clock[n - 2..]);
        if 1 <= h12 <= 12 then Some((h12 % 12 + (if t[|t| - 2..] == "PM" then 12 else 0), m))
        else None
      else None
    else None
  }

  /** The 12-hour text loses nothing either: the display hour and the
      meridiem together give back the hour of the day. */
  lemma FormattedTime12RoundTrip(hour: int, minute: int)
    requires 0 <= hour < 24 && 0 <= minute < 60
    ensures ParseTime12(FormattedTime(hour, minute, false)) == Some((hour, minute))
  {
    var dh := DisplayHour12(hour);
    var a := JavaInt.IntToString(dh);
    var mm := JavaInt.Format02d(minute);
    var t := FormattedTime(hour, minute, false);
    assert t == a + ":" + mm + " " + Meridiem(hour);
    var clock := t[..|t| - 3];
    assert clock == a + ":" + mm;
    var n := |clock|;
    assert clock[..n - 3] == a;
    assert clock[n - 2..] == mm;
    JavaInt.NatToStringValue(dh);
  }

  // ---------------------------------------------------------------------
  // Days as text

  const DAY_LETTERS: seq<char> := ['L', 'M', 'X', 'J', 'V', 'S', 'D']

  /** The letters of the selected days, Monday first. */
  function SelectedLetters(days: seq<bool>): (r: seq<char>)
    requires |days| <= 7
    ensures |r| <= |days|
    ensures forall i :: 0 <= i < |days| ==> (DAY_LETTERS[i] in r <==> days[i])
    ensures forall c :: c in r ==> c in DAY_LETTERS[..|days|]
  {
    if |days| == 0 then []
    else
      var init := SelectedLetters(days[..|days| - 1]);
      assert DAY_LETTERS[..|days|] == DAY_LETTERS[..|days| - 1] + [DAY_LETTERS[|days| - 1]];
      if days[|days| - 1] then init + [DAY_LETTERS[|days| - 1]] else init
  }

  /** Characters separated by single spaces. */
  function Spaced(cs: seq<char>): (r: string)
    ensures |cs| > 0 ==> |r| == 2 * |cs| - 1
  {
    if |cs| <= 1 then cs else Spaced(cs[..|cs| - 1]) + [' ', cs[|cs| - 1]]
  }

  /** What the `StringBuilder` holds before `trim()`: each letter followed by a space. */
  function Builder(cs: seq<char>): (r: string)
    ensures |r| == 2 * |cs|
  {
    if |cs| == 0 then [] else Builder(cs[..|cs| - 1]) + [cs[|cs| - 1], ' ']
  }

  lemma {:induction false} BuilderIsSpacedPlusBlank(cs: seq<char>)
    requires |cs| > 0
    ensures Builder(cs) == Spaced(cs) + [' ']
    decreases |cs|
  {
    if |cs| > 1 {
      BuilderIsSpacedPlusBlank(cs[..|cs| - 1]);
    }
  }

  lemma {:induction false} SpacedEnds(cs: seq<char>)
    requires |cs| > 0
    ensures Spaced(cs)[0] == cs[0]
    ensures Spaced(cs)[|Spaced(cs)| - 1] == cs[|cs| - 1]
    decreases |cs|
  {
    if |cs| > 1 {
      SpacedEnds(cs[..|cs| - 1]);
    }
  }

  /** Trimming a text that ends in one blank, and otherwise starts and ends
      with visible characters, removes just that blank. */
  lemma TrimOneBlank(s: string)
    requires |s| > 0 && s[0] > ' ' && s[|s| - 1] > ' '
    ensures JavaText.Trim(s + [' ']) == s
  {
    var t := s + [' '];
    assert t[0] > ' ';
    assert t[..|t| - 1] == s;
    assert JavaText.Trim(s) == s;
  }

  /** Trimming the builder leaves exactly the spaced letters. */
  lemma TrimBuilder(cs: seq<char>)
    requires |cs| > 0
    requires forall c :: c in cs ==> c > ' '
    ensures JavaText.Trim(Builder(cs)) == Spaced(cs)
  {
    BuilderIsSpacedPlusBlank(cs);
    SpacedEnds(cs);
    var sp := Spaced(cs);
    assert cs[0] in cs && cs[|cs| - 1] in cs;
    assert sp[0] > ' ' && sp[|sp| - 1] > ' ';
    TrimOneBlank(sp);
  }

  predicate AllTrue(days: seq<bool>) {
    forall i :: 0 <= i < |days| ==> days[i]
  }

  predicate NoneTrue(days: seq<bool>) {
    forall i :: 0 <= i < |days| ==> !days[i]
  }

  /** `getFormattedDays`. Entries past Sunday are allowed only while unset:
      the app would index past its seven letters otherwise. */
  function FormattedDays(days: Option<seq<bool>>): (r: string)
    requires days.Some? ==> forall i :: 7 <= i < |days.value| ==> !days.value[i]
    ensures days.None? || NoneTrue(days.value) ==> r == "Sin días"
    ensures days.Some? && !NoneTrue(days.value) && AllTrue(days.value) ==> r == "Todos los días"
    ensures days.Some? && !NoneTrue(days.value) && !AllTrue(days.value) ==>
      var d := days.value[..if |days.value| < 7 then |days.value| else 7];
      r == Spaced(SelectedLetters(d))
  {
    if days.None? then "Sin días"
    else
      var d := days.value;
      var week := d[..if |d| < 7 then |d| else 7];
      if NoneTrue(d) then "Sin días"
      else if AllTrue(d) then "Todos los días"
      else
        var letters := SelectedLetters(week);
        assert exists i :: 0 <= i < |week| && week[i];
        TrimBuilder(letters);
        JavaText.Trim(Builder(letters))
  }

  // ---------------------------------------------------------------------
  // The pattern helpers

  /** The mask the two pattern helpers write: the first seven entries say
      whether the day is on the weekend (or a weekday), later entries are
      kept, and a null mask is first read as seven unset days. */
  function PatternMask(days: Option<seq<bool>>, weekend: bool): (r: seq<bool>)
    requires Readable(days)
    ensures |r| == (if days.Some? then |days.value| else 7)
    ensures forall i :: 0 <= i < 7 ==> r[i] == (if weekend then i >= 5 else i < 5)
    ensures forall i :: 7 <= i < |r| ==> r[i] == days.value[i]
  {
    var d := if days.Some? then days.value else seq(7, _ => false);
    seq(|d|, i requires 0 <= i < |d| => if i < 7 then (if weekend then i >= 5 else i < 5) else d[i])
  }

  /** `setWeekdaySchedule`: Monday to Friday on, weekend off. */
  function SetWeekdaySchedule(s: Schedule, c: Clock): (r: Schedule)
    requires ValidClock(c)
    requires Readable(s.daysOfWeek)
    ensures r.daysOfWeek.Some? && |r.daysOfWeek.value| == (if s.daysOfWeek.Some? then |s.daysOfWeek.value| else 7)
    ensures forall i :: 0 <= i < 7 ==> r.daysOfWeek.value[i] == (i < 5)
    ensures forall i :: 7 <= i < |r.daysOfWeek.value| ==> r.daysOfWeek.value[i] == s.daysOfWeek.value[i]
    ensures r.nextScheduled == NextScheduledMillis(r.daysOfWeek, s.hour, s.minute, c)
    ensures r.(daysOfWeek := s.daysOfWeek, nextScheduled := s.nextScheduled) == s
  {
    SetDaysOfWeek(s, Some(PatternMask(s.daysOfWeek, false)), c)
  }

  /** `setWeekendSchedule`: Monday to Friday off, weekend on. */
  function SetWeekendSchedule(s: Schedule, c: Clock): (r: Schedule)
    requires ValidClock(c)
    requires Readable(s.daysOfWeek)
    ensures r.daysOfWeek.Some? && |r.daysOfWeek.value| == (if s.daysOfWeek.Some? then |s.daysOfWeek.value| else 7)
    ensures forall i :: 0 <= i < 7 ==> r.daysOfWeek.value[i] == (i >= 5)
    ensures forall i :: 7 <= i < |r.daysOfWeek.value| ==> r.daysOfWeek.value[i] == s.daysOfWeek.value[i]
    ensures r.nextScheduled == NextScheduledMillis(r.daysOfWeek, s.hour, s.minute, c)
    ensures r.(daysOfWeek := s.daysOfWeek, nextScheduled := s.nextScheduled) == s
  {
    SetDaysOfWeek(s, Some(PatternMask(s.daysOfWeek, true)), c)
  }

  /** What `updateNextScheduledTime` throws when it unboxes a null day. */
  const NULL_DAY: string := "NullPointerException"

  /** `setDailySchedule` as written: `Arrays.fill` writes into the copy that
      `toArray` returned, so the stored mask keeps its old contents; a null
      mask becomes a list of seven nulls, and the first `get` that
      `updateNextScheduledTime` unboxes throws. */
  function SetDailyScheduleAsWritten(s: Schedule, c: Clock): (r: Result<Schedule>)
    requires ValidClock(c)
    requires Readable(s.daysOfWeek)
    ensures r.Failure? <==> s.daysOfWeek.None?
    ensures r.Failure? ==> r.error == NULL_DAY
    ensures r.Success? ==> r.value.daysOfWeek == s.daysOfWeek
    ensures r.Success? ==> r.value.nextScheduled == NextScheduledMillis(s.daysOfWeek, s.hour, s.minute, c)
    ensures r.Success? ==> r.value.(nextScheduled := s.nextScheduled) == s
  {
    if s.daysOfWeek.None? then Failure(NULL_DAY)
    else Success(SetDaysOfWeek(s, s.daysOfWeek, c))
  }

  /** A schedule with no day selected stays without days after the "daily"
      helper, so it never fires. */
  lemma SetDailyScheduleAsWrittenKeepsEmptyMask(c: Clock)
    requires ValidClock(c)
    ensures var s := Schedule(Some("s1"), Some("m1"), 8, 0, Some(seq(7, _ => false)), true,
                              false, 0, 0, false, false, 0, 0, true, false, 8, 2);
      var r := SetDailyScheduleAsWritten(s, c);
      r.Success? && !r.value.daysOfWeek.value[0] && NextSlot(r.value.daysOfWeek, 8, 0, c) == NextYear
  {
    var s := Schedule(Some("s1"), Some("m1"), 8, 0, Some(seq(7, _ => false)), true,
                      false, 0, 0, false, false, 0, 0, true, false, 8, 2);
    NextYearIffNoDay(s.daysOfWeek, 8, 0, c);
  }

  /** `setDailySchedule` as intended: every weekday selected. */
  function SetDailySchedule(s: Schedule, c: Clock): (r: Schedule)
    requires ValidClock(c)
    requires Readable(s.daysOfWeek)
    ensures r.daysOfWeek.Some? && |r.daysOfWeek.value| == (if s.daysOfWeek.Some? then |s.daysOfWeek.value| else 7)
    ensures AllTrue(r.daysOfWeek.value)
    ensures NextSlot(r.daysOfWeek, r.hour, r.minute, c) != NextYear
  {
    var n := if s.daysOfWeek.Some? then |s.daysOfWeek.value| else 7;
    var r := SetDaysOfWeek(s, Some(seq(n, _ => true)), c);
    NextYearIffNoDay(r.daysOfWeek, r.hour, r.minute, c);
    assert Selected(r.daysOfWeek, 0);
    r
  }
}

=== FILE: schedule_form.dfy ===
/** The add/edit schedule dialog (`ScheduleDialogFragment.java`): how a
    stored day mask is shown as a frequency choice when the dialog opens,
    and how the choice is turned back into a seven-day mask on save. */
module ScheduleForm {
  import opened Wrappers
  import JavaInt
  import opened Schedules

  /** The frequency radio group. */
  datatype Frequency = Interval | Daily | Weekdays | Weekends | Custom

  /** The interval radio group; `Eight` is also the default. */
  datatype IntervalChoice = Four | Six | Eight | Twelve

  /** What the dialog holds when the user presses save. */
  datatype Form = Form(
    frequency: Frequency,
    checks: seq<bool>,
    interval: IntervalChoice,
    treatmentText: string,
    hour: int,
    minute: int,
    use24HourFormat: bool,
    active: bool)

  predicate IsMask(d: seq<bool>) {
    |d| == 7
  }

  predicate WeekdaysAll(d: seq<bool>)
    requires |d| >= 7
  {
    d[0] && d[1] && d[2] && d[3] && d[4]
  }

  predicate WeekdaysNone(d: seq<bool>)
    requires |d| >= 7
  {
    !d[0] && !d[1] && !d[2] && !d[3] && !d[4]
  }

  // ---------------------------------------------------------------------
  // Time display

  /** `updateTimeDisplay`: the same text as the schedule's own formatter. */
  function TimeDisplay(hour: int, minute: int, use24HourFormat: bool): (r: string)
    ensures r == FormattedTime(hour, minute, use24HourFormat)
    ensures !use24HourFormat && 0 <= hour < 24 ==> 1 <= DisplayHour12(hour) <= 12
  {
    if use24HourFormat then
      JavaInt.Format02d(hour) + ":" + JavaInt.Format02d(minute)
    else
      var displayHour := if JavaInt.Rem(hour, 12) == 0 then 12 else JavaInt.Rem(hour, 12);
      var amPm := if hour >= 12 then "PM" else "AM";
      JavaInt.IntToString(displayHour) + ":" + JavaInt.Format02d(minute) + " " + amPm
  }

  // ---------------------------------------------------------------------
  // Loading: mask -> radio button

  /** `populateFormWithSchedule` as written: the weekend flag looks only at
      Saturday and Sunday, so a mask with weekdays and the whole weekend
      (but not every day) is shown as "weekends". */
  function ClassifyAsWritten(d: seq<bool>): (f: Frequency)
    requires |d| >= 7
    ensures f == Daily <==> WeekdaysAll(d) && d[5] && d[6]
    ensures f == Weekdays <==> WeekdaysAll(d) && !d[5] && !d[6]
    ensures f == Weekends <==> !WeekdaysAll(d) && d[5] && d[6]
    ensures f != Interval
  {
    var isDaily := WeekdaysAll(d) && d[5] && d[6];
    var isWeekday := WeekdaysAll(d) && !d[5] && !d[6];
    var isWeekend := d[5] && d[6];
    if isDaily then Daily
    else if isWeekday then Weekdays
    else if isWeekend then Weekends
    else Custom
  }

  /** The classification as intended: "weekends" only when Monday to Friday
      are all clear. */
  function Classify(d: seq<bool>): (f: Frequency)
    requires |d| >= 7
    ensures f == Daily <==> WeekdaysAll(d) && d[5] && d[6]
    ensures f == Weekdays <==> WeekdaysAll(d) && !d[5] && !d[6]
    ensures f == Weekends <==> WeekdaysNone(d) && d[5] && d[6]
    ensures f != Interval
  {
    if WeekdaysAll(d) && d[5] && d[6] then Daily
    else if WeekdaysAll(d) && !d[5] && !d[6] then Weekdays
    else if WeekdaysNone(d) && d[5] && d[6] then Weekends
    else Custom
  }

  /** The radio button the stored mask selects when the dialog opens, by the
      given classification; a null or short mask selects none, and the
      dialog keeps its default choice. */
  function MaskChoice(days: Option<seq<bool>>, intended: bool): (c: Option<Frequency>)
    ensures c.None? <==> days.None? || |days.value| < 7
    ensures c.Some? && intended ==> c.value == Classify(days.value)
    ensures c.Some? && !intended ==> c.value == ClassifyAsWritten(days.value)
  {
    if days.None? || |days.value| < 7 then None
    else if intended then Some(Classify(days.value))
    else Some(ClassifyAsWritten(days.value))
  }

  /** `populateFormWithSchedule` once the mask's radio button is known: time,
      switches and, for "custom", the checkboxes come from the schedule; an
      interval-mode schedule then overrides the choice with "interval", its
      hours and its treatment length. */
  function Populate(s: Schedule, choice: Option<Frequency>, rest: Form): (f: Form)
    requires choice == Some(Custom) ==> s.daysOfWeek.Some? && |s.daysOfWeek.value| >= 7
    ensures f.hour == s.hour && f.minute == s.minute
    ensures f.active == s.active && f.use24HourFormat == s.use24HourFormat
    ensures choice == Some(Custom) ==> f.checks == s.daysOfWeek.value[..7]
    ensures choice != Some(Custom) ==> f.checks == rest.checks
    ensures s.intervalMode ==>
      && f.frequency == Interval
      && f.interval == IntervalChoiceFor(s.intervalHours)
      && f.treatmentText == JavaInt.IntToString(s.treatmentDays)
    ensures !s.intervalMode ==>
      && f.frequency == (if choice.Some? then choice.value else rest.frequency)
      && f.interval == rest.interval && f.treatmentText == rest.treatmentText
  {
    var f := rest.(hour := s.hour, minute := s.minute, active := s.active,
                   use24HourFormat := s.use24HourFormat);
    var f := match choice
      case None => f
      case Some(Custom) => f.(frequency := Custom, checks := s.daysOfWeek.value[..7])
      case Some(c) => f.(frequency := c);
    if s.intervalMode then
      f.(frequency := Interval, interval := IntervalChoiceFor(s.intervalHours),
         treatmentText := JavaInt.IntToString(s.treatmentDays))
    else f
  }

  /** The dialog opening on a stored schedule, with the corrected
      classification. */
  function Load(s: Schedule, rest: Form): (f: Form)
    ensures f.hour == s.hour && f.minute == s.minute
    ensures f.active == s.active && f.use24HourFormat == s.use24HourFormat
    ensures s.intervalMode ==>
      && f.frequency == Interval
      && f.interval == IntervalChoiceFor(s.intervalHours)
      && f.treatmentText == JavaInt.IntToString(s.treatmentDays)
    ensures !s.intervalMode && s.daysOfWeek.Some? && |s.daysOfWeek.value| >= 7 ==>
      f.frequency == Classify(s.daysOfWeek.value)
    ensures s.daysOfWeek.Some? && |s.daysOfWeek.value| >= 7 && Classify(s.daysOfWeek.value) == Custom ==>
      f.checks == s.daysOfWeek.value[..7]
    ensures !s.intervalMode && (s.daysOfWeek.None? || |s.daysOfWeek.value| < 7) ==>
      f.frequency == rest.frequency && f.checks == rest.checks
  {
    Populate(s, MaskChoice(s.daysOfWeek, true), rest)
  }

  /** The dialog opening on a stored schedule, as written. */
  function LoadAsWritten(s: Schedule, rest: Form): (f: Form)
    ensures f.hour == s.hour && f.minute == s.minute
    ensures f.active == s.active && f.use24HourFormat == s.use24HourFormat
    ensures s.intervalMode ==> f.frequency == Interval
    ensures !s.intervalMode && s.daysOfWeek.Some? && |s.daysOfWeek.value| >= 7 ==>
      f.frequency == ClassifyAsWritten(s.daysOfWeek.value)
    ensures s.daysOfWeek.Some? && |s.daysOfWeek.value| >= 7 && ClassifyAsWritten(s.daysOfWeek.value) == Custom ==>
      f.checks == s.daysOfWeek.value[..7]
    ensures !s.intervalMode && (s.daysOfWeek.None? || |s.daysOfWeek.value| < 7) ==>
      f.frequency == rest.frequency && f.checks == rest.checks
  {
    Populate(s, MaskChoice(s.daysOfWeek, false), rest)
  }

  // ---------------------------------------------------------------------
  // Saving: radio button -> mask

  /** The day mask `saveSchedule` builds; it always has seven entries. */
  function BuildMask(f: Form): (d: seq<bool>)
    requires f.frequency == Custom ==> |f.checks| >= 7
    ensures IsMask(d)
    ensures f.frequency == Interval || f.frequency == Daily ==> AllTrue(d)
    ensures f.frequency == Weekdays ==> forall i :: 0 <= i < 7 ==> d[i] == (i < 5)
    ensures f.frequency == Weekends ==> forall i :: 0 <= i < 7 ==> d[i] == (i >= 5)
    ensures f.frequency == Custom ==> d == f.checks[..7]
  {
    match f.frequency
    case Interval => seq(7, _ => true)
    case Daily => seq(7, _ => true)
    case Weekdays => seq(7, i => i < 5)
    case Weekends => seq(7, i => i >= 5)
    case Custom => f.checks[..7]
  }

  /** Opening a day-based schedule and saving it untouched keeps its days. */
  lemma LoadThenSaveKeepsMask(s: Schedule, rest: Form)
    requires !s.intervalMode
    requires s.daysOfWeek.Some? && IsMask(s.daysOfWeek.value)
    ensures BuildMask(Load(s, rest)) == s.daysOfWeek.value
  {
    var d := s.daysOfWeek.value;
    var m := BuildMask(Load(s, rest));
    assert forall i :: 0 <= i < 7 ==> m[i] == d[i];
  }

  /** An interval-mode schedule reopens as "interval" whatever its mask, so
      an untouched save stores every day. */
  lemma IntervalScheduleReopensAsInterval(s: Schedule, rest: Form)
    requires s.intervalMode
    ensures Load(s, rest).frequency == Interval
    ensures AllTrue(BuildMask(Load(s, rest)))
  {
  }

  /** As written, Monday + Saturday + Sunday reopens as "weekends" and an
      untouched save drops Monday. */
  lemma ClassifyAsWrittenLosesMonday(s: Schedule, rest: Form)
    requires !s.intervalMode
    requires s.daysOfWeek == Some([true, false, false, false, false, true, true])
    ensures LoadAsWritten(s, rest).frequency == Weekends
    ensures BuildMask(LoadAsWritten(s, rest)) == [false, false, false, false, false, true, true]
    ensures BuildMask(Load(s, rest)) == s.daysOfWeek.value
  {
    var m := BuildMask(LoadAsWritten(s, rest));
    assert m == seq(7, i => i >= 5);
    LoadThenSaveKeepsMask(s, rest);
  }

  /** `validateForm`: "custom" needs at least one checked day. */
  function ValidateForm(f: Form): (ok: bool)
    requires f.frequency == Custom ==> |f.checks| >= 7
    ensures ok <==> f.frequency != Custom || exists i :: 0 <= i < 7 && f.checks[i]
  {
    if f.frequency == Custom then
      f.checks[0] || f.checks[1] || f.checks[2] || f.checks[3] || f.checks[4] || f.checks[5] || f.checks[6]
    else true
  }

  /** A form that passes validation saves a mask with at least one day. */
  lemma ValidFormSavesSomeDay(f: Form)
    requires f.frequency == Custom ==> |f.checks| >= 7
    requires ValidateForm(f)
    ensures exists i :: 0 <= i < 7 && BuildMask(f)[i]
  {
    var d := BuildMask(f);
    if f.frequency == Weekdays || f.frequency == Weekends {
      assert d[5] || d[0];
    } else if f.frequency != Custom {
      assert d[0];
    }
  }

  // ---------------------------------------------------------------------
  // Interval settings

  function IntervalHours(c: IntervalChoice): (h: int)
    ensures h in {4, 6, 8, 12}
    ensures c == Eight <==> h == 8
  {
    match c
    case Four => 4
    case Six => 6
    case Eight => 8
    case Twelve => 12
  }

  /** The interval radio button shown for stored hours; anything unusual
      shows the default. */
  function IntervalChoiceFor(hours: int): (c: IntervalChoice)
    ensures hours !in {4, 6, 12} <==> c == Eight
  {
    if hours == 4 then Four
    else if hours == 6 then Six
    else if hours == 12 then Twelve
    else Eight
  }

  /** Loading and saving agree on the four offered intervals; any other
      stored value becomes 8 hours. */
  lemma IntervalRoundTrip(hours: int, c: IntervalChoice)
    ensures IntervalChoiceFor(IntervalHours(c)) == c
    ensures IntervalHours(IntervalChoiceFor(hours)) == (if hours in {4, 6, 8, 12} then hours else 8)
  {
  }

  const DEFAULT_TREATMENT_DAYS: int := 2
  const MAX_TREATMENT_DAYS: int := 30

  /** The treatment length typed in the dialog: empty or not a number gives
      2, otherwise the number clamped to 1..30. */
  function TreatmentDays(text: string): (r: int)
    ensures 1 <= r <= MAX_TREATMENT_DAYS
    ensures text == [] || JavaInt.ParseInt(text).None? ==> r == DEFAULT_TREATMENT_DAYS
    ensures text != [] && JavaInt.ParseInt(text).Some? ==>
      var v := JavaInt.ParseInt(text).value;
      r == (if v <= 0 then 1 else if v > MAX_TREATMENT_DAYS then MAX_TREATMENT_DAYS else v)
  {
    if text == [] then DEFAULT_TREATMENT_DAYS
    else match JavaInt.ParseInt(text)
      case None => DEFAULT_TREATMENT_DAYS
      case Some(v) =>
        var a := if v <= 0 then 1 else v;
        if a > MAX_TREATMENT_DAYS then MAX_TREATMENT_DAYS else a
  }

  /** The dialog shows the stored treatment length as `String.valueOf`; an
      allowed length reads back unchanged. */
  lemma TreatmentDaysRoundTrip(days: int)
    requires 1 <= days <= MAX_TREATMENT_DAYS
    ensures TreatmentDays(JavaInt.IntToString(days)) == days
  {
    JavaInt.IntToStringParses(days);
  }

  // ---------------------------------------------------------------------
  // Saving

  /** `isValidSchedule`: ids present and non-empty, a seven-day mask. */
  predicate IsValidSchedule(s: Option<Schedule>) {
    && s.Some?
    && s.value.id.Some? && s.value.id.value != []
    && s.value.medicationId.Some? && s.value.medicationId.value != []
    && s.value.daysOfWeek.Some? && |s.value.daysOfWeek.value| == 7
  }

  /** A new schedule before the form is applied: the no-argument
      constructor's field defaults (only the 24-hour flag starts true) with
      the fresh id. */
  function NewSchedule(id: string): Schedule {
    Schedule(Some(id), None, 0, 0, None, false, false, 0, 0, false, false, 0, 0, true, false, 0, 0)
  }

  /** The schedule the dialog writes into: the one being edited, or a new one. */
  function SaveBase(existing: Option<Schedule>, newId: string): Schedule {
    if existing.Some? then existing.value else NewSchedule(newId)
  }

  /** The fields the dialog never writes keep their values from `base`; the
      interval length and treatment days are kept unless "interval" is
      chosen. (`nextScheduled` is rewritten by the dialog and is not stated.) */
  predicate KeepsUntouched(base: Schedule, s: Schedule, f: Form) {
    && s.id == base.id
    && s.takingConfirmed == base.takingConfirmed && s.lastTaken == base.lastTaken
    && s.dispensed == base.dispensed && s.dispensedAt == base.dispensedAt
    && s.detectedBySensor == base.detectedBySensor && s.detectedAt == base.detectedAt
    && (f.frequency != Interval ==> s.intervalHours == base.intervalHours && s.treatmentDays == base.treatmentDays)
  }

  /** `saveSchedule` as written, up to the validity gate: an existing
      schedule is updated, otherwise a new one gets `newId` (the random
      UUID). The interval flag is set for "interval" and never cleared. The
      result is `None` when the final check refuses to store it. */
  function SaveScheduleAsWritten(existing: Option<Schedule>, newId: string, medicationId: Option<string>, f: Form): (r: Option<Schedule>)
    requires f.frequency == Custom ==> |f.checks| >= 7
    ensures r.Some? ==> IsValidSchedule(r)
    ensures r.Some? ==>
      && r.value.daysOfWeek == Some(BuildMask(f))
      && r.value.hour == f.hour && r.value.minute == f.minute
      && r.value.medicationId == medicationId
      && r.value.active == f.active
      && r.value.use24HourFormat == f.use24HourFormat
    ensures r.Some? && f.frequency != Interval && existing.Some? ==>
      r.value.intervalMode == existing.value.intervalMode
    ensures r.Some? && f.frequency == Interval ==>
      r.value.intervalMode &&
      r.value.intervalHours == IntervalHours(f.interval) && r.value.treatmentDays == TreatmentDays(f.treatmentText)
    ensures r.None? <==>
      (if existing.Some? then existing.value.id.None? || existing.value.id.value == [] else newId == [])
      || medicationId.None? || medicationId.value == []
    ensures r.Some? ==> r.value.id == (if existing.Some? then existing.value.id else Some(newId))
    ensures r.Some? ==> KeepsUntouched(SaveBase(existing, newId), r.value, f)
  {
    var base := SaveBase(existing, newId);
    var s := base.(medicationId := medicationId, hour := f.hour, minute := f.minute,
                   use24HourFormat := f.use24HourFormat);
    var s := if f.frequency == Interval then
      s.(intervalMode := true, intervalHours := IntervalHours(f.interval), treatmentDays := TreatmentDays(f.treatmentText))
    else s;
    var s := s.(daysOfWeek := Some(BuildMask(f)), active := f.active);
    if IsValidSchedule(Some(s)) then Some(s) else None
  }

  /** As written, an interval schedule switched to "weekdays" keeps its
      interval flag: it reopens as "interval", and saving it untouched then
      stores every day. */
  lemma SaveAsWrittenKeepsIntervalFlag(rest: Form)
    ensures
      var prior := NewSchedule("s1").(medicationId := Some("m1"), intervalMode := true, intervalHours := 8, treatmentDays := 2);
      var f := Form(Weekdays, [], Eight, "", 8, 0, true, true);
      var saved := SaveScheduleAsWritten(Some(prior), "s2", Some("m1"), f);
      && saved.Some?
      && saved.value.daysOfWeek == Some(seq(7, i => i < 5))
      && saved.value.intervalMode
      && LoadAsWritten(saved.value, rest).frequency == Interval
      && AllTrue(BuildMask(LoadAsWritten(saved.value, rest)))
  {
  }

  /** `saveSchedule` as intended: the interval flag follows the chosen
      frequency, so a schedule moved off "interval" is day-based again. */
  function SaveSchedule(existing: Option<Schedule>, newId: string, medicationId: Option<string>, f: Form): (r: Option<Schedule>)
    requires f.frequency == Custom ==> |f.checks| >= 7
    ensures r.Some? <==> SaveScheduleAsWritten(existing, newId, medicationId, f).Some?
    ensures r.Some? ==> IsValidSchedule(r)
    ensures r.Some? ==> r.value.intervalMode == (f.frequency == Interval)
    ensures r.Some? ==> r.value.id == (if existing.Some? then existing.value.id else Some(newId))
    ensures r.Some? ==> KeepsUntouched(SaveBase(existing, newId), r.value, f)
    ensures r.Some? ==>
      r.value == SaveScheduleAsWritten(existing, newId, medicationId, f).value.(intervalMode := f.frequency == Interval)
  {
    match SaveScheduleAsWritten(existing, newId, medicationId, f)
    case None => None
    case Some(s) => Some(s.(intervalMode := f.frequency == Interval))
  }

  /** Saving a form and opening the saved schedule again shows a form that
      saves the same days: the dialog's round trip. */
  lemma SaveThenReopenKeepsDays(existing: Option<Schedule>, newId: string, medicationId: Option<string>, f: Form, rest: Form)
    requires f.frequency == Custom ==> |f.checks| >= 7
    requires SaveSchedule(existing, newId, medicationId, f).Some?
    ensures var s := SaveSchedule(existing, newId, medicationId, f).value;
      BuildMask(Load(s, rest)) == BuildMask(f) && s.daysOfWeek == Some(BuildMask(f))
  {
    var s := SaveSchedule(existing, newId, medicationId, f).value;
    if f.frequency == Interval {
      assert BuildMask(Load(s, rest)) == BuildMask(f);
    } else {
      LoadThenSaveKeepsMask(s, rest);
    }
  }
}

=== FILE: upnp.dfy ===
/** The SSDP answer of a UPnP device: the header fields read from the raw
    response text (section 1.3.3 of the UPnP Device Architecture 1.1 lists
    LOCATION, SERVER, ST and USN among the response's header fields). */
module UPnP {
  import opened Wrappers
  import opened JavaText

  const LOCATION_TEXT: string := "LOCATION: "
  const SERVER_TEXT: string := "SERVER: "
  const USN_TEXT: string := "USN: "
  const ST_TEXT: string := "ST: "
  const LINE_END: string := "\r\n"

  /** Stands for the exception `substring` raises when no line end follows
      the key. */
  const UNTERMINATED: string := "header line has no line end"

  predicate NoCr(s: string) {
    forall i :: 0 <= i < |s| ==> s[i] != '\r'
  }

  /** A match of `LINE_END` inside `s[a..b]` is one inside `s`. */
  lemma OccursInSlice(s: string, a: nat, b: nat, k: nat)
    requires a <= b <= |s| && OccursAt(s[a..b], LINE_END, k)
    ensures OccursAt(s, LINE_END, a + k)
  {
    assert s[a..b][k] == s[a + k] && s[a..b][k + 1] == s[a + k + 1];
    assert s[a..b][k..k + 2] == LINE_END;
    assert s[a + k] == '\r' && s[a + k + 1] == '\n';
    assert s[a + k..a + k + 2] == LINE_END;
  }

  /** `parseHeader` as written: the text after the FIRST occurrence of `key`
      anywhere in the answer, up to the next line end. */
  function ParseHeaderAsWritten(answer: string, key: string): (r: Result<string>)
    ensures IndexOf(answer, key).None? ==> r == Success("")
    ensures IndexOf(answer, key).Some? ==>
              var start := IndexOf(answer, key).value + |key|;
              && (r.Failure? <==> forall k :: start <= k ==> !OccursAt(answer, LINE_END, k))
              && (r.Success? ==>
                    && start + |r.value| <= |answer|
                    && answer[start..start + |r.value|] == r.value
                    && OccursAt(answer, LINE_END, start + |r.value|))
    ensures r.Success? ==> forall k :: 0 <= k ==> !OccursAt(r.value, LINE_END, k)
  {
    match IndexOf(answer, key)
    case None => Success("")
    case Some(pos) =>
      var start := pos + |key|;
      match IndexOfFrom(answer, LINE_END, start)
      case None => Failure(UNTERMINATED)
      case Some(end) =>
        assert forall k :: 0 <= k && OccursAt(answer[start..end], LINE_END, k) ==> OccursAt(answer, LINE_END, start + k) by {
          forall k | 0 <= k && OccursAt(answer[start..end], LINE_END, k) {
            OccursInSlice(answer, start, end, k);
          }
        }
        Success(answer[start..end])
  }

  /** The field is read only where `key` starts a header line, i.e. right
      after a line end; the status line never holds a field. */
  function ParseHeader(answer: string, key: string): (r: Result<string>)
    ensures IndexOf(answer, LINE_END + key).None? ==> r == Success("")
    ensures r.Success? ==> forall k :: 0 <= k ==> !OccursAt(r.value, LINE_END, k)
    ensures IndexOf(answer, LINE_END + key).Some? && r.Success? ==>
              var start := IndexOf(answer, LINE_END + key).value + |LINE_END + key|;
              && start + |r.value| <= |answer|
              && answer[start..start + |r.value|] == r.value
              && OccursAt(answer, LINE_END, start + |r.value|)
  {
    ParseHeaderAsWritten(answer, LINE_END + key)
  }

  /** Every carriage return in `p` starts a line end followed by one of the
      two-character line heads in `heads`. */
  predicate CrsFollowedBy(p: string, heads: set<string>) {
    forall k :: 0 <= k < |p| && p[k] == '\r' ==> k + 4 <= |p| && p[k + 2..k + 4] in heads
  }

  /** Appending a header line keeps track of the new line's head. */
  lemma AppendLine(p: string, heads: set<string>, key: string, value: string)
    requires CrsFollowedBy(p, heads) && NoCr(key) && NoCr(value) && |key| >= 2
    ensures CrsFollowedBy(p + LINE_END + key + value, heads + {key[..2]})
  {
    var q := p + LINE_END + key + value;
    forall k | 0 <= k < |q| && q[k] == '\r'
      ensures k + 4 <= |q| && q[k + 2..k + 4] in heads + {key[..2]}
    {
      if k < |p| {
        assert q[k] == p[k];
        assert q[k + 2..k + 4] == p[k + 2..k + 4];
      } else if k == |p| {
        assert q[k + 2..k + 4] == key[..2];
      }
    }
  }

  /** A line-start match of `key` inside `p` sits on a line whose head is
      the key's. */
  lemma HeadOfMatch(p: string, heads: set<string>, key: string, rest: string, k: nat)
    requires CrsFollowedBy(p, heads) && |key| >= 2 && k < |p|
    requires OccursAt(p + LINE_END + key + rest, LINE_END + key, k)
    ensures k + 4 <= |p| && p[k + 2..k + 4] == key[..2] && key[..2] in heads
  {
    var s := p + LINE_END + key + rest;
    var needle := LINE_END + key;
    assert s[k..k + |needle|][0] == s[k] == needle[0] == '\r';
    assert p[k] == '\r';
    assert k + 4 <= |p|;
    assert p[k + 2] == s[k..k + |needle|][2] == needle[2] == key[0];
    assert p[k + 3] == s[k..k + |needle|][3] == needle[3] == key[1];
  }

  /** When no earlier line starts with the key's head, the first line-start
      match of `key` is the one appended after `p`. */
  lemma FirstLineStart(p: string, heads: set<string>, key: string, rest: string)
    requires CrsFollowedBy(p, heads) && |key| >= 2 && key[..2] !in heads
    ensures IndexOf(p + LINE_END + key + rest, LINE_END + key) == Some(|p|)
  {
    var s := p + LINE_END + key + rest;
    var needle := LINE_END + key;
    assert s == p + needle + rest;
    assert s[|p|..|p| + |needle|] == needle;
    assert OccursAt(s, needle, |p|);
    forall k | 0 <= k < |p|
      ensures !OccursAt(s, needle, k)
    {
      if OccursAt(s, needle, k) {
        HeadOfMatch(p, heads, key, rest, k);
        assert false;
      }
    }
  }

  /** A first occurrence stays the first when text is appended. */
  lemma IndexOfExtends(head: string, tail: string, needle: string, i: nat)
    requires IndexOf(head, needle) == Some(i)
    ensures IndexOf(head + tail, needle) == Some(i)
  {
    var s := head + tail;
    assert s[i..i + |needle|] == head[i..i + |needle|];
    assert OccursAt(s, needle, i);
    forall k | 0 <= k < i
      ensures !OccursAt(s, needle, k)
    {
      assert !OccursAt(head, needle, k);
      assert s[k..k + |needle|] == head[k..k + |needle|];
    }
  }

  /** The first line end at or after `start` is the one that ends `value`. */
  lemma LineEndAfter(s: string, start: nat, value: string)
    requires start + |value| + 2 <= |s| && s[start..start + |value| + 2] == value + LINE_END
    requires NoCr(value)
    ensures IndexOfFrom(s, LINE_END, start) == Some(start + |value|)
  {
    var stop := start + |value|;
    assert s[stop..stop + 2] == s[start..start + |value| + 2][|value|..];
    assert OccursAt(s, LINE_END, stop);
    forall k | start <= k < stop
      ensures !OccursAt(s, LINE_END, k)
    {
      assert s[k] == s[start..start + |value| + 2][k - start] == value[k - start];
    }
  }

  /** The field read once the key and the line end are located. */
  lemma ParseHeaderAt(s: string, key: string, pos: nat, start: nat, stop: nat)
    requires IndexOf(s, LINE_END + key) == Some(pos) && start == pos + |LINE_END + key|
    requires IndexOfFrom(s, LINE_END, start) == Some(stop)
    ensures start <= stop <= |s| && ParseHeader(s, key) == Success(s[start..stop])
  {
  }

  /** A field line whose key starts a line for the first time is read back
      exactly, whatever follows it. */
  lemma ParseHeaderFindsField(p: string, key: string, value: string, suffix: string)
    requires IndexOf(p + LINE_END + key, LINE_END + key) == Some(|p|)
    requires NoCr(value)
    ensures ParseHeader(p + LINE_END + key + value + LINE_END + suffix, key) == Success(value)
  {
    var head := p + LINE_END + key;
    var s := p + LINE_END + key + value + LINE_END + suffix;
    assert s == head + (value + LINE_END + suffix);
    IndexOfExtends(head, value + LINE_END + suffix, LINE_END + key, |p|);
    var start := |head|;
    assert s[start..start + |value| + 2] == value + LINE_END;
    LineEndAfter(s, start, value);
    var stop := start + |value|;
    assert |p| + |LINE_END + key| == start;
    assert s[start..stop] == value;
    ParseHeaderAt(s, key, |p|, start, stop);
  }

  /** The header fields a discovered device keeps. */
  datatype Device = Device(hostAddress: string, location: string, server: string, usn: string, st: string)

  /** The constructor: all four fields read from the raw answer; a field
      whose line is not terminated makes construction fail. */
  function NewDevice(hostAddress: string, header: string): (r: Result<Device>)
    ensures r.Success? <==>
              && ParseHeader(header, LOCATION_TEXT).Success? && ParseHeader(header, SERVER_TEXT).Success?
              && ParseHeader(header, USN_TEXT).Success? && ParseHeader(header, ST_TEXT).Success?
    ensures r.Success? ==> r.value.hostAddress == hostAddress
  {
    var location :- ParseHeader(header, LOCATION_TEXT);
    var server :- ParseHeader(header, SERVER_TEXT);
    var usn :- ParseHeader(header, USN_TEXT);
    var st :- ParseHeader(header, ST_TEXT);
    Success(Device(hostAddress, location, server, usn, st))
  }

  /** The constructor as written, over `ParseHeaderAsWritten`. */
  function NewDeviceAsWritten(hostAddress: string, header: string): (r: Result<Device>)
    ensures r.Success? <==>
              && ParseHeaderAsWritten(header, LOCATION_TEXT).Success? && ParseHeaderAsWritten(header, SERVER_TEXT).Success?
              && ParseHeaderAsWritten(header, USN_TEXT).Success? && ParseHeaderAsWritten(header, ST_TEXT).Success?
    ensures r.Success? ==> r.value.hostAddress == hostAddress && r.value.st == ParseHeaderAsWritten(header, ST_TEXT).value
  {
    var location :- ParseHeaderAsWritten(header, LOCATION_TEXT);
    var server :- ParseHeaderAsWritten(header, SERVER_TEXT);
    var usn :- ParseHeaderAsWritten(header, USN_TEXT);
    var st :- ParseHeaderAsWritten(header, ST_TEXT);
    Success(Device(hostAddress, location, server, usn, st))
  }

  /** A response carrying the four fields, one per line, after its status
      line. */
  function Response(status: string, location: string, server: string, usn: string, st: string): string {
    status + LINE_END + LOCATION_TEXT + location + LINE_END + SERVER_TEXT + server
    + LINE_END + USN_TEXT + usn + LINE_END + ST_TEXT + st + LINE_END
  }

  /** A field line after lines with other heads is read back exactly. */
  lemma FieldAfterOtherLines(p: string, heads: set<string>, key: string, value: string, rest: string)
    requires CrsFollowedBy(p, heads) && |key| >= 2 && key[..2] !in heads && NoCr(value)
    ensures ParseHeader(p + LINE_END + key + value + LINE_END + rest, key) == Success(value)
  {
    FirstLineStart(p, heads, key, "");
    assert p + LINE_END + key + "" == p + LINE_END + key;
    ParseHeaderFindsField(p, key, value, rest);
  }

  lemma KeyHeads()
    ensures LOCATION_TEXT[..2] == "LO" && SERVER_TEXT[..2] == "SE"
    ensures USN_TEXT[..2] == "US" && ST_TEXT[..2] == "ST"
    ensures NoCr(LOCATION_TEXT) && NoCr(SERVER_TEXT) && NoCr(USN_TEXT) && NoCr(ST_TEXT)
  {
  }

  /** The text of a response up to the end of the n-th field line. */
  function Upto(status: string, location: string, server: string, usn: string, n: nat): string
    requires n <= 3
  {
    if n == 0 then status
    else if n == 1 then status + LINE_END + LOCATION_TEXT + location
    else if n == 2 then Upto(status, location, server, usn, 1) + LINE_END + SERVER_TEXT + server
    else Upto(status, location, server, usn, 2) + LINE_END + USN_TEXT + usn
  }

  lemma UptoHeads(status: string, location: string, server: string, usn: string)
    requires NoCr(status) && NoCr(location) && NoCr(server) && NoCr(usn)
    ensures CrsFollowedBy(Upto(status, location, server, usn, 0), {})
    ensures CrsFollowedBy(Upto(status, location, server, usn, 1), {"LO"})
    ensures CrsFollowedBy(Upto(status, location, server, usn, 2), {"LO", "SE"})
    ensures CrsFollowedBy(Upto(status, location, server, usn, 3), {"LO", "SE", "US"})
  {
    KeyHeads();
    AppendLine(status, {}, LOCATION_TEXT, location);
    assert {} + {"LO"} == {"LO"};
    AppendLine(Upto(status, location, server, usn, 1), {"LO"}, SERVER_TEXT, server);
    AppendLine(Upto(status, location, server, usn, 2), {"LO", "SE"}, USN_TEXT, usn);
  }

  lemma ResponseLocation(status: string, location: string, server: string, usn: string, st: string)
    requires NoCr(status) && NoCr(location)
    ensures ParseHeader(Response(status, location, server, usn, st), LOCATION_TEXT) == Success(location)
  {
    KeyHeads();
    var rest := SERVER_TEXT + server + LINE_END + USN_TEXT + usn + LINE_END + ST_TEXT + st + LINE_END;
    assert Response(status, location, server, usn, st) == status + LINE_END + LOCATION_TEXT + location + LINE_END + rest;
    FieldAfterOtherLines(status, {}, LOCATION_TEXT, location, rest);
  }

  lemma ResponseServer(status: string, location: string, server: string, usn: string, st: string)
    requires NoCr(status) && NoCr(location) && NoCr(server)
    ensures ParseHeader(Response(status, location, server, usn, st), SERVER_TEXT) == Success(server)
  {
    KeyHeads();
    UptoHeads(status, location, server, "");
    var p1 := Upto(status, location, server, "", 1);
    var rest := USN_TEXT + usn + LINE_END + ST_TEXT + st + LINE_END;
    assert Response(status, location, server, usn, st) == p1 + LINE_END + SERVER_TEXT + server + LINE_END + rest;
    FieldAfterOtherLines(p1, {"LO"}, SERVER_TEXT, server, rest);
  }

  lemma ResponseUsn(status: string, location: string, server: string, usn: string, st: string)
    requires NoCr(status) && NoCr(location) && NoCr(server) && NoCr(usn)
    ensures ParseHeader(Response(status, location, server, usn, st), USN_TEXT) == Success(usn)
  {
    KeyHeads();
    UptoHeads(status, location, server, usn);
    var p2 := Upto(status, location, server, usn, 2);
    var rest := ST_TEXT + st + LINE_END;
    assert Response(status, location, server, usn, st) == p2 + LINE_END + USN_TEXT + usn + LINE_END + rest;
    FieldAfterOtherLines(p2, {"LO", "SE"}, USN_TEXT, usn, rest);
  }

  lemma ResponseSt(status: string, location: string, server: string, usn: string, st: string)
    requires NoCr(status) && NoCr(location) && NoCr(server) && NoCr(usn) && NoCr(st)
    ensures ParseHeader(Response(status, location, server, usn, st), ST_TEXT) == Success(st)
  {
    KeyHeads();
    UptoHeads(status, location, server, usn);
    var p3 := Upto(status, location, server, usn, 3);
    assert Response(status, location, server, usn, st) == p3 + LINE_END + ST_TEXT + st + LINE_END + "";
    FieldAfterOtherLines(p3, {"LO", "SE", "US"}, ST_TEXT, st, "");
  }

  /** Constructing a device from such a response recovers every field. */
  lemma NewDeviceReadsResponse(hostAddress: string, status: string, location: string, server: string, usn: string, st: string)
    requires NoCr(status) && NoCr(location) && NoCr(server) && NoCr(usn) && NoCr(st)
    ensures NewDevice(hostAddress, Response(status, location, server, usn, st))
              == Success(Device(hostAddress, location, server, usn, st))
  {
    ResponseLocation(status, location, server, usn, st);
    ResponseServer(status, location, server, usn, st);
    ResponseUsn(status, location, server, usn, st);
    ResponseSt(status, location, server, usn, st);
  }

  /** The key "ST: " also occurs at the end of a "HOST: " line, so the
      parser as written reads the host as the search target. */
  const HOST_FIRST: string := "\r\nHOST: h\r\nST: t\r\n"

  lemma StReadFromHostAsWritten()
    ensures ParseHeaderAsWritten(HOST_FIRST, ST_TEXT) == Success("h")
  {
    var s := HOST_FIRST;
    assert s[0] == '\r' && s[1] == '\n' && s[2] == 'H' && s[3] == 'O';
    assert s[4] == 'S' && s[5] == 'T' && s[6] == ':' && s[7] == ' ' && s[8] == 'h' && s[9] == '\r' && s[10] == '\n';
    forall k | 0 <= k < 4
      ensures !OccursAt(s, ST_TEXT, k)
    {
      assert s[k] != 'S';
    }
    assert s[4..8] == ST_TEXT;
    assert IndexOf(s, ST_TEXT) == Some(4);
    assert !OccursAt(s, LINE_END, 8) by {
      assert s[8..10][0] == 'h';
    }
    assert s[9..11] == LINE_END;
    assert IndexOfFrom(s, LINE_END, 8) == Some(9);
    assert s[8..9] == "h";
  }

  /** Matching at line starts reads the search target from its own line. */
  lemma StReadFromOwnLine()
    ensures ParseHeader(HOST_FIRST, ST_TEXT) == Success("t")
  {
    var host := "HOST: ";
    assert host[..2] == "HO" && NoCr(host);
    assert CrsFollowedBy("", {});
    AppendLine("", {}, host, "h");
    assert "" + LINE_END + host + "h" == "\r\nHOST: h";
    assert {} + {host[..2]} == {"HO"};
    KeyHeads();
    FieldAfterOtherLines("\r\nHOST: h", {"HO"}, ST_TEXT, "t", "");
    HostFirstShape();
  }

  lemma HostFirstShape()
    ensures HOST_FIRST == "\r\nHOST: h" + LINE_END + ST_TEXT + "t" + LINE_END + ""
  {
  }

  /** A key with a character the text never holds does not occur in it. */
  lemma KeyAbsent(s: string, key: string, j: nat)
    requires j < |key| && forall i :: 0 <= i < |s| ==> s[i] != key[j]
    ensures IndexOf(s, key).None?
  {
    forall k | 0 <= k
      ensures !OccursAt(s, key, k)
    {
      if k + |key| <= |s| {
        assert s[k..k + |key|][j] == s[k + j] != key[j];
      }
    }
  }

  lemma HostFirstLetters()
    ensures forall i :: 0 <= i < |HOST_FIRST| ==> HOST_FIRST[i] != 'L' && HOST_FIRST[i] != 'E' && HOST_FIRST[i] != 'U'
  {
    HostFirstShape();
  }

  /** The device built from a host-first answer as written: its search
      target is the host. */
  lemma NewDeviceFromHostFirstAsWritten(hostAddress: string)
    ensures NewDeviceAsWritten(hostAddress, HOST_FIRST) == Success(Device(hostAddress, "", "", "", "h"))
  {
    var s := HOST_FIRST;
    HostFirstLetters();
    KeyAbsent(s, LOCATION_TEXT, 0);
    KeyAbsent(s, SERVER_TEXT, 1);
    KeyAbsent(s, USN_TEXT, 0);
    assert ParseHeaderAsWritten(s, LOCATION_TEXT) == Success("");
    assert ParseHeaderAsWritten(s, SERVER_TEXT) == Success("");
    assert ParseHeaderAsWritten(s, USN_TEXT) == Success("");
    StReadFromHostAsWritten();
  }

  /** The same answer through the corrected parser: the search target is
      read from its own line. */
  lemma NewDeviceFromHostFirst(hostAddress: string)
    ensures NewDevice(hostAddress, HOST_FIRST) == Success(Device(hostAddress, "", "", "", "t"))
  {
    var s := HOST_FIRST;
    HostFirstLetters();
    KeyAbsent(s, LINE_END + LOCATION_TEXT, 2);
    KeyAbsent(s, LINE_END + SERVER_TEXT, 3);
    KeyAbsent(s, LINE_END + USN_TEXT, 2);
    assert ParseHeader(s, LOCATION_TEXT) == Success("");
    assert ParseHeader(s, SERVER_TEXT) == Success("");
    assert ParseHeader(s, USN_TEXT) == Success("");
    StReadFromOwnLine();
  }
}

=== FILE: user_repository.dfy ===
/** The user repository's local logic (`UserRepository.java`): the strict
    patient-id format, id generation, the order in which the selected
    patient id is looked up, and the login and onboarding flags. Firebase
    state and the random generator are parameters. */
module UserRepository {
  import opened Wrappers
  import JavaText
  import opened PatientIds

  const USER_TYPE_PATIENT: string := "patient"
  const FIREBASE_NOT_INITIALIZED: string := "Firebase no está inicializado"

  /** The locally stored preferences the repository reads and writes. */
  datatype Prefs = Prefs(
    loggedIn: bool,
    userType: Option<string>,
    patientId: Option<string>,
    connectedPatientId: Option<string>,
    onboardingCompleted: bool)

  // ---------------------------------------------------------------------
  // Ids

  /** The consecutive ASCII characters `lo`..`hi`. */
  function CharRange(lo: char, hi: char): (r: string)
    requires lo <= hi < 128 as char
    ensures |r| == hi as int - lo as int + 1
    ensures forall i :: 0 <= i < |r| ==> r[i] as int == lo as int + i
    ensures forall i :: 0 <= i < |r| ==> lo <= r[i] <= hi
  {
    seq(hi as int - lo as int + 1, i requires 0 <= i <= hi as int - lo as int => (lo as int + i) as char)
  }

  /** The characters new ids are drawn from: no I, O, 0 or 1. */
  const ALPHABET: string := CharRange('A', 'H') + CharRange('J', 'N') + CharRange('P', 'Z') + CharRange('2', '9')
  const ID_LENGTH: int := 6

  /** The alphabet spelled out as the repository writes it. */
  lemma AlphabetLiteral()
    ensures ALPHABET == "ABCDEFGHJKLMNPQRSTUVWXYZ23456789"
  {
    assert CharRange('A', 'H') == "ABCDEFGH";
    assert CharRange('J', 'N') == "JKLMN";
    assert CharRange('P', 'Z') == "PQRSTUVWXYZ";
    assert CharRange('2', '9') == "23456789";
  }

  lemma AlphabetShape()
    ensures |ALPHABET| == 32
    ensures forall i :: 0 <= i < |ALPHABET| ==> IsIdChar(ALPHABET[i])
    ensures 'I' !in ALPHABET && 'O' !in ALPHABET && '0' !in ALPHABET && '1' !in ALPHABET
  {
  }

  /** Six results of `nextInt(32)`. */
  predicate ValidDraws(draws: seq<int>) {
    |draws| == ID_LENGTH && forall i :: 0 <= i < |draws| ==> 0 <= draws[i] < |ALPHABET|
  }

  /** `generatePatientIdCandidate`, given the six draws of `nextInt(32)`. */
  function PatientIdCandidate(draws: seq<int>): (r: string)
    requires ValidDraws(draws)
    ensures |r| == ID_LENGTH
    ensures forall i :: 0 <= i < |r| ==> r[i] in ALPHABET
    ensures IsWellFormedPatientId(Some(r))
  {
    var r := seq(ID_LENGTH, i requires 0 <= i < ID_LENGTH => ALPHABET[draws[i]]);
    AlphabetShape();
    FormatImpliesUsable(Some(r));
    r
  }

  /** Every well-formed id written with the alphabet's characters can be drawn. */
  lemma EveryAlphabetIdCanBeDrawn(id: string)
    requires |id| == ID_LENGTH && forall i :: 0 <= i < |id| ==> id[i] in ALPHABET
    ensures exists draws :: ValidDraws(draws) && PatientIdCandidate(draws) == id
  {
    var draws := seq(ID_LENGTH, i requires 0 <= i < ID_LENGTH => IndexIn(ALPHABET, id[i]));
    assert PatientIdCandidate(draws) == id;
  }

  function IndexIn(s: string, c: char): (r: int)
    requires c in s
    ensures 0 <= r < |s| && s[r] == c
  {
    if s[0] == c then 0 else 1 + IndexIn(s[1..], c)
  }

  /** The key `verifyPatientId` looks up: upper-cased, then trimmed. */
  function LookupKey(typed: string): (r: string)
    ensures forall i :: 0 <= i < |r| ==> !JavaText.IsAsciiLower(r[i])
  {
    JavaText.Trim(JavaText.ToUpper(typed))
  }

  lemma ToUpperOfUpper(s: string)
    requires forall i :: 0 <= i < |s| ==> !JavaText.IsAsciiLower(s[i])
    ensures JavaText.ToUpper(s) == s
  {
  }

  /** Normalising a key again changes nothing. */
  lemma LookupKeyIdempotent(typed: string)
    ensures LookupKey(LookupKey(typed)) == LookupKey(typed)
  {
    var k := LookupKey(typed);
    ToUpperOfUpper(k);
    JavaText.TrimOfTrimmed(k);
  }

  predicate AllSpaces(s: string) {
    forall i :: 0 <= i < |s| ==> s[i] == ' '
  }

  /** A well-formed id, typed in any case and with surrounding spaces, is
      looked up as itself. */
  lemma LookupKeyRecoversId(id: string, typed: string, pre: string, post: string)
    requires IsWellFormedPatientId(Some(id))
    requires AllSpaces(pre) && AllSpaces(post)
    requires typed == pre + JavaText.ToLower(id) + post
    ensures LookupKey(typed) == id
  {
    UpperOfTypedId(id, pre, post);
    TrimLeadingSpaces(pre, id + post);
    assert pre + id + post == pre + (id + post);
    TrimTrailingSpaces(id, post);
  }

  /** Upper-casing the typed key restores the id and keeps the spaces. */
  lemma UpperOfTypedId(id: string, pre: string, post: string)
    requires IsWellFormedPatientId(Some(id))
    requires AllSpaces(pre) && AllSpaces(post)
    ensures JavaText.ToUpper(pre + JavaText.ToLower(id) + post) == pre + id + post
  {
    var typed := pre + JavaText.ToLower(id) + post;
    var upper := JavaText.ToUpper(typed);
    forall i | 0 <= i < |upper|
      ensures upper[i] == (pre + id + post)[i]
    {
      if i < |pre| {
        assert typed[i] == pre[i];
      } else if i < |pre| + |id| {
        assert typed[i] == JavaText.ToLowerChar(id[i - |pre|]);
      } else {
        assert typed[i] == post[i - |pre| - |id|];
      }
    }
  }

  lemma {:induction false} TrimLeadingSpaces(pre: string, s: string)
    requires AllSpaces(pre)
    requires s != [] && !JavaText.IsBlank(s[0])
    ensures JavaText.Trim(pre + s) == JavaText.Trim(s)
    decreases |pre|
  {
    if pre != [] {
      assert (pre + s)[1..] == pre[1..] + s;
      TrimLeadingSpaces(pre[1..], s);
    } else {
      assert pre + s == s;
    }
  }

  lemma {:induction false} TrimTrailingSpaces(s: string, post: string)
    requires AllSpaces(post)
    requires s != [] && !JavaText.IsBlank(s[0]) && !JavaText.IsBlank(s[|s| - 1])
    ensures JavaText.Trim(s + post) == s
    decreases |post|
  {
    if post != [] {
      var t := s + post;
      assert t[0] == s[0];
      assert t[..|t| - 1] == s + post[..|post| - 1];
      TrimTrailingSpaces(s, post[..|post| - 1]);
    } else {
      assert s + post == s;
      JavaText.TrimOfTrimmed(s);
    }
  }

  /** `verifyPatientId` up to the database query: the key to look up. */
  function VerifyPatientIdKey(firebaseInitialized: bool, typed: string): (r: Result<string>)
    ensures !firebaseInitialized <==> r == Failure(FIREBASE_NOT_INITIALIZED)
    ensures r.Success? ==> r.value == LookupKey(typed)
  {
    if !firebaseInitialized then Failure(FIREBASE_NOT_INITIALIZED) else Success(LookupKey(typed))
  }

  // ---------------------------------------------------------------------
  // Selected patient

  /** `getSelectedPatientId` with the Firebase mapping as the database holds
      it (`mapped`): the patient's own id for patient users, then the
      connected id, then the mapping, which is also saved. Returns the id and
      the preferences afterwards. */
  function SelectedPatientId(p: Prefs, firebaseInitialized: bool, firebaseUser: bool, mapped: Option<string>): (r: (Option<string>, Prefs))
    ensures r.0.Some? ==> IsWellFormedPatientId(r.0)
    ensures p.userType == Some(USER_TYPE_PATIENT) && IsWellFormedPatientId(p.patientId) ==> r == (p.patientId, p)
    ensures !(p.userType == Some(USER_TYPE_PATIENT) && IsWellFormedPatientId(p.patientId)) && IsWellFormedPatientId(p.connectedPatientId) ==>
      r == (p.connectedPatientId, p)
    ensures !(p.userType == Some(USER_TYPE_PATIENT) && IsWellFormedPatientId(p.patientId)) && !IsWellFormedPatientId(p.connectedPatientId) &&
            firebaseInitialized && firebaseUser && IsWellFormedPatientId(mapped) ==>
      r == (mapped, p.(patientId := mapped))
    ensures !(p.userType == Some(USER_TYPE_PATIENT) && IsWellFormedPatientId(p.patientId)) && !IsWellFormedPatientId(p.connectedPatientId) &&
            !(firebaseInitialized && firebaseUser && IsWellFormedPatientId(mapped)) ==>
      r == (None, p)
    ensures r.1 != p ==> r.0 == mapped && r.1 == p.(patientId := mapped)
    ensures r.0.None? ==> r.1 == p
  {
    if p.userType == Some(USER_TYPE_PATIENT) && IsWellFormedPatientId(p.patientId) then (p.patientId, p)
    else if IsWellFormedPatientId(p.connectedPatientId) then (p.connectedPatientId, p)
    else if firebaseInitialized && firebaseUser && IsWellFormedPatientId(mapped) then (mapped, p.(patientId := mapped))
    else (None, p)
  }

  /** `getSelectedPatientId` as written: the Firebase lookup returns its
      result holder before the asynchronous listener fills it, so the third
      strategy always sees null. */
  function SelectedPatientIdAsWritten(p: Prefs, firebaseInitialized: bool, firebaseUser: bool): (r: (Option<string>, Prefs))
    ensures r.1 == p
    ensures r == SelectedPatientId(p, firebaseInitialized, firebaseUser, None)
  {
    if p.userType == Some(USER_TYPE_PATIENT) && IsWellFormedPatientId(p.patientId) then (p.patientId, p)
    else if IsWellFormedPatientId(p.connectedPatientId) then (p.connectedPatientId, p)
    else (None, p)
  }

  /** The as-written lookup differs from the intended one exactly when the
      third strategy is reached and the mapping holds a usable id. */
  lemma AsWrittenLosesOnlyTheMapping(p: Prefs, firebaseInitialized: bool, firebaseUser: bool, mapped: Option<string>)
    ensures SelectedPatientIdAsWritten(p, firebaseInitialized, firebaseUser) != SelectedPatientId(p, firebaseInitialized, firebaseUser, mapped)
      <==> && !(p.userType == Some(USER_TYPE_PATIENT) && IsWellFormedPatientId(p.patientId))
           && !IsWellFormedPatientId(p.connectedPatientId)
           && firebaseInitialized && firebaseUser && IsWellFormedPatientId(mapped)
  {
  }

  /** A family member with no connected patient never gets the id mapped
      to their account as written; the intended lookup returns it. */
  lemma MappedIdIgnoredAsWritten()
    ensures var p := Prefs(true, Some("family"), None, None, true);
      SelectedPatientIdAsWritten(p, true, true).0 == None &&
      SelectedPatientId(p, true, true, Some("ABC123")).0 == Some("ABC123")
  {
    var id := "ABC123";
    assert forall i :: 0 <= i < 6 ==> IsIdChar(id[i]);
    FormatImpliesUsable(Some(id));
  }

  // ---------------------------------------------------------------------
  // Flags

  /** `isUserLoggedIn`: answers with Firebase's state and brings the stored
      flag in line with it. */
  function IsUserLoggedIn(p: Prefs, firebaseUser: bool): (r: (bool, Prefs))
    ensures r.0 == firebaseUser
    ensures r.1.loggedIn == firebaseUser
    ensures r.1.(loggedIn := p.loggedIn) == p
  {
    if firebaseUser != p.loggedIn then (firebaseUser, p.(loggedIn := firebaseUser)) else (firebaseUser, p)
  }

  /** Asking twice in a row changes nothing the second time. */
  lemma IsUserLoggedInIdempotent(p: Prefs, firebaseUser: bool)
    ensures IsUserLoggedIn(IsUserLoggedIn(p, firebaseUser).1, firebaseUser) == IsUserLoggedIn(p, firebaseUser)
  {
  }

  /** `hasCompletedOnboarding`: signed in and the stored flag set. */
  function HasCompletedOnboarding(p: Prefs, firebaseUser: bool): (r: bool)
    ensures r ==> IsUserLoggedIn(p, firebaseUser).0
    ensures r <==> firebaseUser && p.onboardingCompleted
  {
    firebaseUser && p.onboardingCompleted
  }
}

=== FILE: wifi_list.dfy ===
/** The signal-strength icon of the Wi-Fi list: four bars levels from the
    received signal strength in dBm. */
module WifiList {
  /** `getRssiLevel`. */
  function RssiLevel(rssi: int): (level: int)
    ensures 0 <= level <= 3
    ensures level == 3 <==> rssi > -50
    ensures level == 2 <==> -60 <= rssi <= -50
    ensures level == 1 <==> -67 <= rssi < -60
    ensures level == 0 <==> rssi < -67
  {
    if rssi > -50 then 3
    else if rssi >= -60 then 2
    else if rssi >= -67 then 1
    else 0
  }

  /** The weakest signal that still shows `level` bars. */
  function LevelThreshold(level: int): (t: int)
    requires 1 <= level <= 3
  {
    if level == 3 then -49 else if level == 2 then -60 else -67
  }

  /** The thresholds characterise the levels: a signal shows at least
      `level` bars exactly when it reaches that level's threshold. */
  lemma LevelIffThreshold(rssi: int, level: int)
    requires 1 <= level <= 3
    ensures RssiLevel(rssi) >= level <==> rssi >= LevelThreshold(level)
  {
  }

  /** A stronger signal never shows fewer bars. */
  lemma RssiLevelMonotone(a: int, b: int)
    requires a <= b
    ensures RssiLevel(a) <= RssiLevel(b)
  {
  }
}

=== FILE: wrappers.dfy ===
/** Failure-compatible wrappers used by every module: `Option` for Java's
    nullable references and `Result` for operations that report an error
    message (a callback's `onError`, a thrown exception) instead of a value. */
module Wrappers {

  datatype Option<+T> = None | Some(value: T) {

    predicate IsFailure() {
      None?
    }

    function PropagateFailure<U>(): Option<U>
      requires None?
    {
      None
    }

    function Extract(): T
      requires Some?
    {
      value
    }

    /** The wrapped value, or `default` for `None`. */
    function GetOr(default: T): T {
      match this
      case Some(v) => v
      case None => default
    }
  }

  datatype Result<+R> = Success(value: R) | Failure(error: string) {

    predicate IsFailure() {
      Failure?
    }

    function PropagateFailure<U>(): Result<U>
      requires Failure?
    {
      Failure(error)
    }

    function Extract(): R
      requires Success?
    {
      value
    }
  }
}
